=== FILE: README.md ===
# JeffOS core in Dafny

JeffOS is a Mac-OS-X-style desktop that runs in the browser. This project models its
deterministic core as immutable datatypes and pure state-to-state functions, and proves
properties of them.

- **Window-manager store** (`ui.dfy`): window records, the focus stack and the dock of
  minimized windows. The operations are open, close, two-phase minimize, restore, zoom,
  move, focus and dock-icon positions.
- **Views over that store:**
  - the window frame (`window.dfy`): stacking order, placement memory, viewport clamping,
    shortcuts and drag or resize callbacks;
  - the dock (`dock.dfy`);
  - the menu bar with its Cmd-N, Cmd-W and Cmd-Q shortcuts (`statusbar.dfy`);
  - desktop icons (`desktopicon.dfy`).
- **Other store slices:**
  - desktop icons and trash (`apps.dfy`);
  - preferences with the capped, de-duplicated list of recent wallpapers (`prefs.dfy`);
  - game sessions and top-10 leaderboards (`games.dfy`);
  - the command bus (`commandbus.dfy`).
- **Apps:**
  - the Finder's back and forward history, sidebar, search and column view (`finder.dfy`);
  - the browser's tabs, each with its own history (`explorer.dfy`);
  - the terminal's shell and command history (`terminal.dfy`);
  - the wallpaper picker (`wallpapers.dfy`);
  - the games library and player (`emulator.dfy`);
  - the synthesizer keyboard (`synth.dfy`);
  - the music player's clock formats (`music.dfy`).
- **Dates:**
  - holiday detection, including the fourth Thursday of November and the `fixed:` and
    `range:` rule strings (`holidays.dfy`);
  - the Monday-first month grid of the calendar (`calendar.dfy`);
  - the desktop's columns, holiday theme and wallpaper precedence (`desktop.dfy`).
- **Shared modules:**
  - `Dates` for JavaScript `Date` arithmetic in local time, as day numbers;
  - `Strs` for the string methods the sources call;
  - `Seqs` for array helpers;
  - `Wrappers` for `Option`.

Everything that is not deterministic is a parameter of the operation that uses it:

- random window-id suffixes;
- the clock;
- the viewport size;
- network and storage results.

Each operation's effects on other parts of the program are returned as values:

- the launches and dispatches it triggers;
- the calls a bus dispatch makes.

Geometry uses `real` and `.Floor`. This is exact arithmetic, not IEEE floating point.

Some behaviours of the code are easy to miss:

- A dock entry implies a minimized window, but not the other way round. The
  minimize animation's completion (`Window.AnimationComplete`) sets `minimized` without
  adding a dock entry, and `openWindow` stores whatever `minimized` flag its caller
  passes.
- The Finder's path bar goes stale when the trash changes. The resync resets the
  listing and the history but keeps the old breadcrumb (`Finder.TrashChangeKeepsStalePath`).
- The launch path comes from the first Finder window in insertion order, so an earlier
  Finder window hides a later window's Trash props (`Finder.EarlierFinderHidesTrashLaunch`).
- A device click empties the listing while the history still holds the root
  (`Finder.DeviceClick`).
- Closing a tab moves the selection to the tab before the closed one, whatever was
  selected (`Explorer.CloseMovesSelection`).

## Model

| member | source | states |
|---|---|---|
| Ui.InitialWellFormed | src/store/ui.ts:35-39 | the empty store (no windows, empty focus stack, empty dock) satisfies the store invariant |
| Ui.Open | src/store/ui.ts:41-49 | the record is stored under its id with `minimizing` reset and every other record kept; the id ends the focus stack, preceded by the old stack without it; the dock keeps exactly the entries of other windows; icon positions are untouched; a new id is appended to the key order (the order `Object.values` lists windows in) and an existing id keeps its place |
| Ui.Close | src/store/ui.ts:51-59 | the id leaves the window map, the focus stack and the dock; the focus stack and the key order are exactly the old ones with that id filtered out, so the others keep their order; every other record and dock entry is kept; icon positions are untouched |
| Ui.CloseTopRevealsPrevious | src/store/ui.ts:51-59 | in a well-formed store, closing the window on top of the focus stack pops it: the stack becomes the old one without its last element, so the window below is the active one |
| Ui.MinimizeStart | src/store/ui.ts:61-71 | a missing id changes nothing; otherwise only the window's `minimizing` flag is raised |
| Ui.MinimizeFinish | src/store/ui.ts:73-89 | a window closed meanwhile changes nothing; otherwise it is minimized and not minimizing, its single dock entry (with its app key) is last and the other entries are the old ones without it; focus stack, key order and icon positions stay |
| Ui.Restore | src/store/ui.ts:92-104 | a missing id changes nothing; otherwise both flags are cleared, the id goes on top of the focus stack above the rest in order, and its dock entries disappear; key order and icon positions stay |
| Ui.ZoomedBounds | src/store/ui.ts:110-121 | the zoomed rectangle sits at x 0 below the 24-pixel menu bar; its width is the viewport's width, or 320 when the viewport is narrower; its height is the viewport height less the menu bar and the 100-pixel dock space, or 200 when that is less |
| Ui.Zoom | src/store/ui.ts:106-140 | a missing id changes nothing; an unzoomed window saves its geometry in `lastBounds` and takes the zoomed rectangle; a zoomed one gets its saved geometry back, or keeps its own when none was saved; only geometry, `zoomed` and `lastBounds` change |
| Ui.Move | src/store/ui.ts:142-147 | a missing id changes nothing; otherwise only that window's x and y change |
| Ui.Focus | src/store/ui.ts:149-153 | a missing id changes nothing; otherwise only the focus stack changes, with the id on top of the old stack without it |
| Ui.SetDockIconPosition | src/store/ui.ts:155-158 | the app's position is recorded and nothing else in the store changes |
| Ui.OpenPreservesWellFormed | src/store/ui.ts:41-49 | opening any window record, minimized or not, keeps the store invariant: key order enumerates the map, records sit under their ids, the focus stack is duplicate-free over live ids, and each dock entry names a live minimized window of its app at most once |
| Ui.ClosePreservesWellFormed | src/store/ui.ts:51-59 | closing keeps the store invariant |
| Ui.MinimizeStartPreservesWellFormed | src/store/ui.ts:61-71 | raising `minimizing` keeps the store invariant |
| Ui.MinimizeFinishPreservesWellFormed | src/store/ui.ts:73-89 | the timer body keeps the store invariant, its new dock entry naming a minimized window |
| Ui.RestorePreservesWellFormed | src/store/ui.ts:92-104 | restoring keeps the store invariant |
| Ui.ZoomPreservesWellFormed | src/store/ui.ts:106-140 | zooming keeps the store invariant |
| Ui.MovePreservesWellFormed | src/store/ui.ts:142-147 | moving keeps the store invariant |
| Ui.FocusPreservesWellFormed | src/store/ui.ts:149-153 | focusing keeps the store invariant |
| Ui.CloseAbsentIsIdentity | src/store/ui.ts:51-59 | closing an id without a record leaves a well-formed store exactly as it was |
| Ui.DockWithoutNoop | src/store/ui.ts:48 | filtering out an id no dock entry has returns the dock unchanged |
| Ui.FocusAfterOpen | src/store/ui.ts:41-49 | focusing the window just opened changes nothing |
| Ui.OpenIdempotent | src/store/ui.ts:41-49 | opening the same record twice gives the store of opening it once |
| Ui.MinimizeBothPhases | src/store/ui.ts:61-89 | after both phases on a live window it is minimized and not minimizing, its only dock entry is last and carries its app key, the focus stack is unchanged and the invariant holds |
| Ui.MinimizeFinishAfterClose | src/store/ui.ts:74-77 | the phase-2 timer firing after the window was closed changes nothing |
| Ui.ZoomRoundTrip | src/store/ui.ts:116-133 | zooming an unzoomed window twice gives back its geometry exactly, with the saved bounds kept; nothing else changes |
| Ui.FocusMakesActive | src/store/ui.ts:149-153 | after focusing a live window it is on top, the stack stays duplicate-free, and it grows by one exactly when the id was not in it |
| Apps.AppTitle | src/store/apps.ts:56-70 | a title exists exactly for the eleven ids of the app table |
| Apps.LaunchId | src/store/apps.ts:98 | a launched window's id is the app id, a dash and the suffix, so it starts with the app id |
| Apps.Launch | src/store/apps.ts:82-118 | launching stores a 560 x 400, unminimized, unzoomed window of the app with the props forwarded, at the shared placement, under a fresh-suffixed id; that id ends the focus stack above the old stack without it; its dock entries go; other windows and the icon positions are kept; a new id is appended to the key order |
| Apps.RunLauncher | src/store/apps.ts:32 | an app's launcher launches the app; the do-nothing launcher leaves the store as it was |
| Apps.LaunchWellFormed | src/store/apps.ts:106-117 | a launch keeps the window store well-formed, leaves the new window unminimized, and adds one window unless the id was already taken |
| Ui.PlacedBounds | src/store/apps.ts:103-104 | the launch origin is a whole number of pixels within one pixel below the centre horizontally and the third vertically, and at least 16 and 48 pixels from the left and top; together these fix it to the floored centre and third, or to the minimum |
| Apps.MakeIcon | src/store/apps.ts:120-133 | an icon takes the app's title and launcher, is pinned exactly when the app is in the default pinned list, has no image URL exactly for the calendar, and sits in column index/6 and row index%6 of a 100-pixel grid from (80, 100) |
| Apps.InitialIcons | src/store/apps.ts:135-137 | the starting desktop holds one icon per app, in table order, icon i built for index i |
| Apps.AppIdsDistinct | src/store/apps.ts:56-70 | the table's keys are pairwise different |
| Apps.GridCellsDistinct | src/store/apps.ts:121-122 | different indices land in different column/row cells |
| Apps.InitialIconsDistinct | src/store/apps.ts:120-137 | no two starting icons share an id or a position |
| Apps.InitialApps | src/store/apps.ts:139-145 | the initial slice has the starting desktop and an empty trash |
| Apps.FindId | src/store/apps.ts:156 | `find` returns nothing exactly when no icon has the id, and otherwise the first icon with it |
| Apps.MoveToTrash | src/store/apps.ts:148-152 | every desktop icon with the icon's id disappears, the others stay, and the icon is appended to the trash |
| Apps.RestoreFromTrash | src/store/apps.ts:154-162 | with no trashed icon of that id nothing changes; otherwise the first one is appended to the desktop and every trashed icon with that id is dropped |
| Apps.TrashKeepsDesktopOrder | src/store/apps.ts:148-152 | trashing keeps the desktop's order: an icon that stays has the surviving icons that were before it still before it and those after it still after it |
| Apps.RestoreKeepsTrashOrder | src/store/apps.ts:154-162 | restoring keeps the order of the icons left in the trash the same way |
| Apps.TrashRoundTrip | src/store/apps.ts:148-162 | trashing an icon whose id is not in the trash and restoring that id puts the icon at the end of the desktop and gives the old trash back |
| Apps.EmptyTrash | src/store/apps.ts:164 | the trash becomes empty and the desktop is untouched |
| Apps.SetPinned | src/store/apps.ts:166-178 | every desktop icon with the id gets the flag, every other icon and the trash stay as they were |
| Apps.PinUnpin | src/store/apps.ts:166-178 | unpinning after pinning is the same as unpinning |
| Apps.MoveIcon | src/store/apps.ts:180-185 | every desktop icon with the id moves to the point, every other icon and the trash stay as they were |
| CommandBus.HandlersOf | src/lib/commandBus.ts:13-17 | an id without a list has no handlers; otherwise its list |
| CommandBus.On | src/lib/commandBus.ts:7-10 | the handler is appended to the id's list (created when missing), duplicates kept; every other id's list is untouched |
| CommandBus.Off | src/lib/commandBus.ts:12-14 | the id's list keeps exactly the other handlers, in order, and exists afterwards even if it did not before; every other id's list is untouched |
| CommandBus.Dispatch | src/lib/commandBus.ts:16-18 | one call per registration, in registration order, each with the payload; none for an unknown id |
| CommandBus.DispatchAfterOn | src/lib/commandBus.ts:7-18 | after `on`, dispatch makes the old calls and then one call of the new handler |
| CommandBus.OffUndoesOn | src/lib/commandBus.ts:7-14 | for a registered id and a handler not yet under it, `off` after `on` gives the bus back |
| CommandBus.DispatchAfterOff | src/lib/commandBus.ts:12-18 | after `off`, dispatch never calls the removed handler |
| Games.StartGame | src/store/games.ts:39-50 | the game gets a fresh active session started now with score 0; other sessions and all boards are untouched |
| Games.EndGame | src/store/games.ts:52-62 | a missing session is ignored; otherwise only that session's `active` becomes false |
| Games.EndAfterStart | src/store/games.ts:39-62 | starting and then ending a game leaves an inactive session with score 0 and the start time |
| Games.InsertPos | src/store/games.ts:75-79 | the new score goes after every entry scoring at least as much and before the first scoring less |
| Games.InsertPermutes | src/store/games.ts:75-79 | inserting adds the new score and loses nothing (as multisets) |
| Games.InsertSorted | src/store/games.ts:75-79 | inserting into a list sorted by descending score keeps it sorted |
| Games.SortPermutes | src/store/games.ts:75-79 | the descending sort is a permutation of its input |
| Games.SortSorted | src/store/games.ts:75-79 | the sort's result is ordered by non-increasing score |
| Games.SortStable | src/store/games.ts:75-79 | among entries of equal score the sort keeps the input order, as the language's sort is stable |
| Games.InsertStable | src/store/games.ts:75-79 | on a sorted list, inserting keeps each score's entries in order with the new one last among its ties |
| Games.SortOfSorted | src/store/games.ts:75-79 | sorting a list that is already sorted returns it unchanged |
| Games.Push | src/store/games.ts:74-80 | the board after a new score is sorted, at most ten long, and exactly ten long once the old board had nine or more entries |
| Games.PushIntoSorted | src/store/games.ts:74-80 | on a sorted board the update inserts the score after the entries scoring at least as much and before the ones scoring less, then keeps the first ten |
| Games.MidnightOf | src/store/games.ts:67-68 | the day's midnight is at or before the clock and less than a day before it |
| Games.IsToday | src/store/games.ts:69 | the clock is never before today's midnight, so the today test always passes |
| Games.PushBoth | src/store/games.ts:74-80 | both the today list and the all-time list get the new score pushed on |
| Games.SubmitScore | src/store/games.ts:64-91 | the game's board (empty when missing) gets the new score pushed on both lists; other boards and the sessions are untouched |
| Games.PushBothValid | src/store/games.ts:74-80 | whatever a board held before, after a score both lists are sorted and at most ten long |
| Games.SubmitKeepsBoardsValid | src/store/games.ts:64-91 | submitting a score keeps every game's board sorted and at most ten long |
| Games.SetLeaderboard | src/store/games.ts:93-99 | only the named game's board is replaced; sessions are untouched |
| Prefs.InitialPrefs | src/store/prefs.ts:72-92 | each cached field is used when present, otherwise its default (aqua, no wallpaper, sound on, volume 0.5, motion on, no recents, `pop.mp3`, no override); no active theme, handle or avatar |
| Prefs.DedupFrom | src/store/prefs.ts:105-134 | the de-duplicated list is no longer than its input, has pairwise different ids, and holds only input wallpapers whose ids were not already seen |
| Prefs.DedupFromMatchesFilter | src/store/prefs.ts:105-134 | dropping already-seen ids from position i on gives exactly the positions whose id has no earlier occurrence |
| Prefs.DedupIsFirstIndexFilter | src/store/prefs.ts:105-134 | the de-duplication is the filter that keeps position i exactly when the first index of its id is i |
| Prefs.DedupFromKeepsDistinct | src/store/prefs.ts:105-134 | a list with distinct ids, none already seen, passes through unchanged |
| Prefs.PushRecent | src/store/prefs.ts:103-135 | the new recents start with the new wallpaper, hold one to six entries with distinct ids, and otherwise only older recents of other ids |
| Prefs.PushRecentHead | src/store/prefs.ts:103-106 | pushing the wallpaper already at the head of a valid recents list changes nothing |
| Prefs.SetWallpaperTwice | src/store/prefs.ts:98-116 | setting the same wallpaper twice gives the state of setting it once |
| Prefs.SetThemeEra | src/store/prefs.ts:95-96 | only the era changes |
| Prefs.SetWallpaper | src/store/prefs.ts:98-109 | the wallpaper is replaced; a real wallpaper is pushed onto the recents, clearing leaves them; nothing else changes |
| Prefs.AddRecentWallpaper | src/store/prefs.ts:129-137 | only the recents change, by the same rule as setting a wallpaper |
| Prefs.SetWallpaperRecentsAsAdd | src/store/prefs.ts:98-137 | setting a wallpaper is adding it to the recents and then replacing the wallpaper field |
| Prefs.SetProfile | src/store/prefs.ts:118-119 | handle and avatar are replaced, a missing argument clearing its field; nothing else changes |
| Prefs.ToggleSound | src/store/prefs.ts:121-122 | only the sound flag changes, to its negation |
| Prefs.ToggleSoundTwice | src/store/prefs.ts:121-122 | toggling twice gives the state back |
| Prefs.SetVolume | src/store/prefs.ts:124 | only the volume changes |
| Prefs.SetReduceMotion | src/store/prefs.ts:126-127 | only the reduce-motion flag changes |
| Prefs.SetClickSound | src/store/prefs.ts:197-198 | only the click sound changes |
| Prefs.SystemClick | src/store/prefs.ts:200-206 | no sound plays exactly when sound is off; otherwise the file under `/sounds/` at the set volume |
| Prefs.ThemeWallpaper | src/store/prefs.ts:141-153 | a theme contributes a wallpaper exactly when its pack exists with a non-empty URL; that wallpaper has the theme's id, the URL, folder `themes` and the pack's label |
| Prefs.ApplyHolidayTheme | src/store/prefs.ts:140-156 | override and active theme become the theme; with a pack wallpaper it becomes the wallpaper and is pushed onto the recents, otherwise nothing else changes |
| Prefs.ClearHolidayTheme | src/store/prefs.ts:159-166 | override and active theme are cleared and nothing else changes |
| Prefs.RecomputeAutoHoliday | src/store/prefs.ts:169-194 | without a holiday it is clearing; with one, the holiday's theme becomes override and active theme |
| Prefs.RecomputeIsApply | src/store/prefs.ts:140-194 | the automatic path with a holiday does exactly what applying its theme by hand does |
| Prefs.ClearKeepsThemeWallpaper | src/store/prefs.ts:140-166 | clearing after applying a theme with a pack wallpaper resets the theme fields but keeps the pack's wallpaper; the earlier wallpaper is not brought back |
| Prefs.LoadGlobalDefault | src/store/prefs.ts:213-240 | a missing or empty default, or a current wallpaper with a URL, changes nothing; otherwise the default URL becomes the wallpaper (id and folder `default`) and is pushed onto the recents |
| Prefs.LoadGlobalDefaultOnce | src/store/prefs.ts:213-240 | loading the default a second time changes nothing |
| Wallpapers.ImageNeedsNoDot | src/apps/wallpapers/WallpapersApp.tsx:74-76 | the extension test needs no dot: any name ending in `jpg` counts as an image |
| Wallpapers.LastDot | src/apps/wallpapers/WallpapersApp.tsx:79 | the position found is the last `.` of the name, and none is found exactly when the name has no `.` |
| Wallpapers.StripExtension | src/apps/wallpapers/WallpapersApp.tsx:79 | the display name is a prefix of the file name; when it is shorter, what was cut is a dot followed by one or more characters without `.` or `/`; when nothing was cut, no such suffix exists |
| Wallpapers.StripExtensionRoundTrip | src/apps/wallpapers/WallpapersApp.tsx:79 | a base, a dot and an extension without `.` or `/` lose exactly the dot and the extension |
| Wallpapers.Images | src/apps/wallpapers/WallpapersApp.tsx:72-84 | a folder's entries are exactly the items built from its image files, each tagged with the folder |
| Wallpapers.ImagesConcat | src/apps/wallpapers/WallpapersApp.tsx:72-84 | the items follow the listing's order: the images of two listings one after the other are the images of each, one after the other |
| Wallpapers.Groups | src/apps/wallpapers/WallpapersApp.tsx:57-91 | a group is shown exactly for a name that some listed dot-free folder with at least one image carries; each group is non-empty and holds images of that folder only |
| Wallpapers.GroupsHoldLastListing | src/apps/wallpapers/WallpapersApp.tsx:65-87 | a name's group is the full image list of the last listing of that name that has images, since each such listing overwrites `grouped[folder.name]` |
| Wallpapers.SetDesktopPicture | src/apps/wallpapers/WallpapersApp.tsx:153-164 | without a preview nothing changes; otherwise the preview's id, URL and folder (not its name) become the wallpaper and go onto the recents |
| Wallpapers.SetPictureIsShown | src/apps/wallpapers/WallpapersApp.tsx:153-164 | a picture set from a folder other than `themes` is what the desktop then shows, whatever theme is active |
| Wallpapers.ApplyGlobalDefault | src/apps/wallpapers/WallpapersApp.tsx:25-53 | a missing or empty value, or a current wallpaper with a URL, changes nothing; otherwise the `global-default` wallpaper with that URL is set |
| Wallpapers.GlobalDefaultOnce | src/apps/wallpapers/WallpapersApp.tsx:25-53 | applying the default twice changes nothing more than applying it once |
| Desktop.ChunksFrom | src/components/Desktop.tsx:170-172 | for a step of at least one, the chunks concatenate back to the icons from the start index on, and every chunk holds between one and step icons, all but the last exactly step |
| Desktop.Columns | src/components/Desktop.tsx:165-174 | the layout finishes exactly when the desktop is empty or the window is at least 180 pixels high; when it finishes the columns concatenate back to the icons in order and all but the last hold exactly floor((height - 100) / 80) icons |
| Desktop.ShortWindowStalls | src/components/Desktop.tsx:165-174 | a window 179 pixels high allows zero icons per column, and a one-icon desktop then never finishes its layout |
| Desktop.ClampedColumns | src/components/Desktop.tsx:165-174 | the corrected layout with at least one icon per column always finishes, concatenates back to the icons, keeps every column non-empty and no longer than the per-column count, and agrees with the original layout whenever that finishes |
| Desktop.DerivedThemeId | src/components/Desktop.tsx:52-54 | the derived theme id starts with `theme_`, is six characters longer than the holiday id, contains no `-` after the prefix and copies every other character of the holiday id |
| Desktop.UpdateHolidayTheme | src/components/Desktop.tsx:56-64 | a new id equal to the active theme changes nothing; otherwise the override becomes the new id and nothing else in the preferences changes, and the active theme becomes the new id or stays when there is none |
| Desktop.UpdateHolidayThemeIdempotent | src/components/Desktop.tsx:48-83 | running the hourly update twice with the same holiday gives the same state as running it once |
| Desktop.UpdateIsApplyWithoutWallpaper | src/components/Desktop.tsx:56-64 | for a theme whose pack has no wallpaper, the hourly update equals applying that theme through the store's `applyHolidayTheme` |
| Desktop.HourlyUpdateAsWritten | src/components/Desktop.tsx:48-83 | with no holiday the active theme is unchanged; with one the active theme becomes the id derived from the holiday id |
| Desktop.ThanksgivingThemeMismatch | src/components/Desktop.tsx:52-54 | for the built-in Thanksgiving holiday the derived theme id is `theme_thanksgiving_us`, which no theme defines, while the holiday's own theme `theme_thanksgiving` is defined and is what the corrected update activates |
| Desktop.DerivedWithoutDash | src/components/Desktop.tsx:53 | a holiday id with no `-` gains only the `theme_` prefix |
| Desktop.HourlyUpdate | src/components/Desktop.tsx:48-83 | the corrected update activates the theme the holiday names, keeps the active theme when there is no holiday, and records the new theme as the override |
| Desktop.LocalThemesKnown | src/config/holidays.ts:66-132 | every built-in holiday names a theme the theme table defines, so the corrected update only ever activates known themes |
| Desktop.CurrentTheme | src/components/Desktop.tsx:132 | the current theme is the non-empty override when there is one, and the active theme otherwise |
| Desktop.PackUrl | src/components/Desktop.tsx:133-135 | a theme yields a URL exactly when it is set, has a pack and the pack has a non-empty wallpaper URL, and the URL is the pack's |
| Desktop.ShownWallpaper | src/components/Desktop.tsx:121-144 | before the themes load the screen is unchanged; after, a user wallpaper wins, then the current theme's pack wallpaper, then the stored wallpaper, and otherwise the screen is unchanged |
| Desktop.Mounted | src/components/Desktop.tsx:36-43 | on mount a stored wallpaper with a URL goes on screen; otherwise the screen is unchanged |
| Desktop.MountedUserWallpaperStays | src/components/Desktop.tsx:36-144 | a user wallpaper restored on mount stays on screen both before and after the themes load |
| Desktop.UserWallpaperWins | src/components/Desktop.tsx:124-128 | with a user wallpaper, the URL shown does not depend on the override, the active theme, the theme packs or the URL shown before |
| Desktop.ShownAfterApply | src/components/Desktop.tsx:121-144 | after a theme with a pack wallpaper is applied, the pack wallpaper is shown, even if a user wallpaper was set before |
| Desktop.ShownAfterClear | src/components/Desktop.tsx:121-144 | clearing that holiday theme afterwards leaves the pack wallpaper on screen, because applying the theme stored it |
| Desktop.ThemeChanged | src/components/Desktop.tsx:88-116 | a theme whose pack has a wallpaper is stored as the wallpaper and shown; any other event leaves the store unchanged and shows the user wallpaper if there is one, and otherwise leaves the screen alone |
| Desktop.ThemeChangedSettles | src/components/Desktop.tsx:88-144 | when the event names the current theme, the reactive effect that follows shows the URL the handler put on screen |
| Desktop.FolderIcon | src/components/Desktop.tsx:177-184 | the folder's id is `folder-` followed by the decimal digits of the clock reading, which read back as that reading; it is an unpinned "Untitled Folder" at (100, 100) that launches nothing |
| Desktop.NewFolder | src/components/Desktop.tsx:176-187 | exactly one folder icon is appended after the existing icons, which are unchanged, and the trash is unchanged |
| Desktop.FolderIdsDiffer | src/components/Desktop.tsx:178 | folders made at different clock readings have different ids |
| Desktop.OpenWallpapers | src/components/Desktop.tsx:189-209 | a 640 by 420 wallpapers window is placed, opened and focused: it ends the focus stack after the others in order, every other window is unchanged, and its id leaves the dock |
| Desktop.OpenWallpapersWellFormed | src/components/Desktop.tsx:189-209 | opening the wallpapers window keeps the window store well-formed and leaves the new window not minimized |
| DesktopIcon.HandleOpen | src/components/DesktopIcon.tsx:25-43 | a 400 by 300 window at (100, 100) whose id and app key are the icon id is opened and focused: it ends the focus stack, every other window is unchanged and its id leaves the dock |
| DesktopIcon.OpenTwiceSingleInstance | src/components/DesktopIcon.tsx:28-29 | opening the same icon twice leaves the store as one open does, and the store stays well-formed |
| DesktopIcon.Rename | src/components/DesktopIcon.tsx:46-50 | the list keeps its length and order; exactly the icons with the renamed id take the new title |
| DesktopIcon.RenameLastWins | src/components/DesktopIcon.tsx:46-50 | renaming keeps every id and position, and renaming the same id twice equals renaming it once with the second title |
| DesktopIcon.RemoveIcon | src/components/DesktopIcon.tsx:52-56 | the icon menu's removal is the store's `moveToTrash` (so `Apps.TrashKeepsDesktopOrder` applies to it): every icon with the removed id leaves the desktop, all others stay, and the icon is appended to the trash |
| DesktopIcon.TouchStart | src/components/DesktopIcon.tsx:59-67 | a touch opens the icon exactly when it comes less than 300 ms after the previous one, and it always becomes the new previous touch |
| DesktopIcon.DoubleTapOpens | src/components/DesktopIcon.tsx:59-67 | a second tap within 300 ms of the first opens the icon, whatever came before the first |
| Dock.Running | src/components/Dock.tsx:129-137 | every window whose app has a desktop icon has an entry, never more entries than windows; each entry carries its window's id and minimized flag and the icon found for the window's app |
| Dock.RunningOne | src/components/Dock.tsx:129-137 | a single window gives exactly one entry, built from the icon `find` returns for its app, its minimized flag and its id, when that icon exists, and no entry otherwise |
| Dock.RunningConcat | src/components/Dock.tsx:129-137 | the entries of a list of windows are those of any split of it, in order; with `Dock.RunningOne` this fixes the entries to one per window with an icon, in window order |
| Dock.Put | src/components/Dock.tsx:140-143 | setting an entry always leaves it in the list |
| Dock.KeysPutAll | src/components/Dock.tsx:140-145 | the key order after setting entries in turn keeps the old keys in place and appends each new key where it is first set, as a JavaScript `Map` does |
| Dock.ItemForPutAll | src/components/Dock.tsx:140-145 | after setting entries in turn, the entry for a key is the last one set under it, or the old entry if it was never set |
| Dock.PinnedItems | src/components/Dock.tsx:127-141 | the pinned entries come from pinned desktop icons, carry no window, and are keyed by the pinned ids in desktop order |
| Dock.DockItemsOrder | src/components/Dock.tsx:139-146 | the dock lists the pinned apps first in desktop order, then the apps of running windows not already listed, with no app listed twice and no other app listed |
| Dock.DockItemsValues | src/components/Dock.tsx:139-146 | a running app's entry carries the last of its windows; a pinned app with no window has an entry without a window |
| Dock.ClickAction | src/components/Dock.tsx:197-200 | an entry with a non-empty window id restores the window when it is minimized and focuses it otherwise; any other entry runs its icon's launcher |
| Dock.ClickRunningActivates | src/components/Dock.tsx:197-200 | clicking the entry of a live window keeps the store well-formed and leaves that window not minimized and on top of the focus stack |
| Dock.TrashIconUrl | src/components/Dock.tsx:151 | the trash shows the empty picture exactly when the trash is empty and the full picture exactly when it is not |
| Dock.TrashClick | src/components/Dock.tsx:152-156 | without a Finder icon nothing opens; whatever icon `find` returns for `finder` runs its launcher: a no-op launcher changes nothing, and an app launcher opens a window of its app with the path `["Trash"]` on top of the focus stack |
| Dock.ScaleFactor | src/components/Dock.tsx:163-172 | the factor lies between 0.7 and 1; it is 1 exactly when the items plus the trash fit at 66 px each in min(90% of the screen, 680); otherwise, above 0.7, it shrinks the row to exactly that width |
| Dock.ScaleFactorMonotone | src/components/Dock.tsx:163-172 | more items never give a larger factor |
| Window.IndexOf | src/components/Window.tsx:150 | the result is -1 exactly when the id is absent; otherwise it is the first position holding the id |
| Window.ZIndex | src/components/Window.tsx:149-152 | the stacking order is at least 100; an absent window gets 100 and a present one 100 plus its first position in the focus stack |
| Window.ZIndexFollowsStack | src/components/Window.tsx:149-152 | in a focus stack without repeats, a window later in the stack is drawn above an earlier one |
| Window.ActiveWindowOnTop | src/components/Window.tsx:149-152 | the active window, the last of the focus stack, is drawn above every other window in the stack and is the only active one |
| Window.DefaultPlacement | src/components/Window.tsx:57-74 | an app with remembered bounds gets them; otherwise the size is 640 by 420 capped at 90% of the viewport width and 75% of its height, and the origin is a whole number of pixels within one pixel below the centring position and at least 10 px from the left and 20 px from the top, which fixes it to the floored centring position or to the minimum |
| Window.DefaultPlacementCentred | src/components/Window.tsx:64-70 | on a viewport at least 200 px wide the default window fits and its left and right gaps differ by less than two pixels |
| Window.AutoSize | src/components/Window.tsx:57-84 | a live window takes its first-show placement and nothing else in the store changes; a missing window changes nothing; the memory is not written |
| Window.ClampToViewport | src/components/Window.tsx:127-130 | a width over 95% of the viewport becomes exactly 95% and a height over 90% exactly 90%, smaller sizes are kept; an origin that fits is kept, one left of or above the viewport moves to 0, one too far right or down moves so the window ends at the viewport's edge |
| Window.ClampIdempotent | src/components/Window.tsx:121-139 | clamping clamped bounds changes nothing |
| Window.HandleViewportResize | src/components/Window.tsx:120-147 | a live window is clamped with nothing else in the store changed, and its app's memory records the clamped bounds; a missing window changes nothing |
| Window.HandleViewportResizeIdempotent | src/components/Window.tsx:120-147 | a second resize event with the same viewport changes neither the store nor the memory |
| Window.RequestMinimize | src/components/Window.tsx:334-340 | the minimize button raises `minimizing` on the record, changing nothing else in it, and then runs the first phase of `minimizeWindow`; a missing window is left out |
| Window.Shortcut | src/components/Window.tsx:96-117 | one window's listener: it acts only when its window is on top of the live focus stack and the meta key is held; Cmd-W closes it and Cmd-M starts minimizing it, with the key compared lower-cased; any other key changes nothing |
| Window.ShortcutMinimizeHitsLiveWindow | src/components/Window.tsx:107-113 | in a well-formed store, Cmd-M on the active window leaves its record minimizing |
| Window.KeyDown | src/components/Window.tsx:96-117 | one key press reaching every mounted window's listener in registration order: without the meta key, or with a key other than W and M, nothing changes; windows are only removed, and only windows that have a listener |
| Window.CmdWCascade | src/components/Window.tsx:96-117 | with `a` on top and `b` under it, Cmd-W closes both when `a`'s listener was registered first (the second listener sees `b` on top), and only `a` in the other order |
| Window.AnimationComplete | src/components/Window.tsx:237-246 | a minimizing window becomes minimized and stops minimizing, with nothing else changed; otherwise nothing changes |
| Window.AnimationCompletePreservesWellFormed | src/components/Window.tsx:237-246 | the animation's completion keeps the window store well-formed |
| Window.MinimizedWithoutDockEntry | src/components/Window.tsx:237-246 | a window opened, minimized and animated, before the phase-two timer fires, is minimized in a well-formed store whose dock is empty |
| Window.DragTo | src/components/Window.tsx:275-285 | dragging a live window sets its origin to the new point and keeps its size and every other field; other windows, the focus stack and the dock are unchanged; a missing window is left out |
| Window.ResizeLive | src/components/Window.tsx:286-299 | a live resize writes the new origin and size to the window, changing nothing else; a missing window changes nothing |
| Window.ResizeStop | src/components/Window.tsx:300-308 | resize stop commits only the origin and keeps the size the window already has |
| Window.ResizeGestureCommitsBounds | src/components/Window.tsx:286-308 | a live resize followed by a stop at the same bounds leaves the window exactly at those bounds |
| StatusBar.OpenApp | src/components/StatusBar.tsx:57-76 | a 600 by 420 window `appKey-<suffix>` is placed, opened and focused: it ends the focus stack after the others in order, every other window is unchanged, and the dock keeps exactly the other windows' entries |
| StatusBar.OpenAboutThisMac | src/components/StatusBar.tsx:78-91 | a 420 by 360 window of the pseudo-app `about` opens at the origin and is focused: it ends the focus stack after the others in order, every other window is unchanged, and the dock keeps exactly the other windows' entries |
| StatusBar.ActiveWinId | src/components/StatusBar.tsx:93 | there is an active window exactly when the focus stack is non-empty and its top is a non-empty id, and it is that top |
| StatusBar.ActiveAppKey | src/components/StatusBar.tsx:94-95 | there is an active app exactly when the active window has a record, and it is that record's app key |
| StatusBar.ActiveAppTitle | src/components/StatusBar.tsx:102-106 | the title is "Finder" with no active app, for the About window and for an app outside the table; otherwise it is the app's title |
| StatusBar.ActiveMenus | src/components/StatusBar.tsx:108-109 | the active app's own menus when it has an entry, Finder's menus otherwise |
| StatusBar.OpenAppBecomesActive | src/components/StatusBar.tsx:57-109 | the app just opened from the menu bar becomes the active app, and the bar shows its title and its menus |
| StatusBar.CloseApp | src/components/StatusBar.tsx:136-138 | closing every snapshot window of the app removes exactly the windows hit, keeps the records of the rest unchanged, and leaves only surviving ids on the focus stack |
| StatusBar.CloseAppWellFormed | src/components/StatusBar.tsx:136-138 | closing the app's windows one by one keeps the window store well-formed |
| StatusBar.QuitClosesExactlyTheApp | src/components/StatusBar.tsx:133-140 | on a well-formed store, Cmd-Q leaves no window of the app and keeps every other window exactly as it was |
| StatusBar.HitIffOwnApp | src/components/StatusBar.tsx:136-137 | in the insertion-order snapshot of a well-formed store, a live window is closed exactly when its own record belongs to the app |
| StatusBar.MenuShortcut | src/components/StatusBar.tsx:112-145 | without the meta key nothing changes; Cmd-N opens a Finder window, Cmd-W closes the active window if any, Cmd-Q closes the active app's windows if it has a non-empty key, and every other key changes nothing |
| StatusBar.MenuShortcutWellFormed | src/components/StatusBar.tsx:112-145 | every shortcut keeps a well-formed store well-formed, and after Cmd-Q no window of the previously active app is left |
| Finder.AppEntry | src/apps/finder/Finder.tsx:37-43 | an app entry keeps the icon's id and title, refers to the icon, and uses its picture or an empty one |
| Finder.AppEntries | src/apps/finder/Finder.tsx:37-43 | one entry per icon, in order |
| Finder.RootEntries | src/apps/finder/Finder.tsx:46-82 | exactly four root folders: Applications listing the desktop icons, empty Desktop and Documents, and Trash listing the trashed icons with the Dock's empty/full picture |
| Finder.ChildrenOf | src/apps/finder/Finder.tsx:143 | a folder's listing is its children, and an entry without children lists nothing |
| Finder.FindEntry | src/apps/finder/Finder.tsx:96 | a found entry is in the list and has the id; nothing is found exactly when no entry has it |
| Finder.RootHasTrash | src/apps/finder/Finder.tsx:46-82 | the root always holds the trash folder, and its listing is the trashed icons |
| Finder.Resync | src/apps/finder/Finder.tsx:94-109 | a launch path naming "Trash" shows the trash one step below the root; otherwise listing and history return to the root while the path bar keeps its segments; either way the listing is the history entry at the index |
| Finder.Start | src/apps/finder/Finder.tsx:84-109 | a new Finder shows the trash one step below the root when launched on it and the root otherwise, in icon view, with the listing matching the history |
| Finder.LaunchPathOf | src/apps/finder/Finder.tsx:31-34 | the launch path is the props path of the first Finder window in insertion order, and there is none without a Finder window |
| Finder.EarlierFinderHidesTrashLaunch | src/apps/finder/Finder.tsx:31-34 | a Finder opened from the Dock's trash alone starts in the trash, but with an earlier Finder window without props in the store it starts at the root |
| Finder.TrashChangeKeepsStalePath | src/apps/finder/Finder.tsx:94-109 | after a folder is opened, a trash change sends the listing back to the root while the path bar still names the folder |
| Finder.Open | src/apps/finder/Finder.tsx:141-152 | opening a folder shows its listing, extends the path, cuts the forward history and appends the listing as the new last entry; opening an app leaves the state alone and launches the app's icon |
| Finder.DropLast | src/apps/finder/Finder.tsx:159 | the path without its last segment, and empty for an empty path |
| Finder.Back | src/apps/finder/Finder.tsx:154-161 | at the first history entry nothing changes; otherwise the index steps back, the listing follows it and the path loses its last segment; the history is kept |
| Finder.Forward | src/apps/finder/Finder.tsx:163-170 | at the last history entry nothing changes; otherwise the index steps forward, the listing follows it and the path gains an ellipsis segment; the history is kept |
| Finder.BackThenForward | src/apps/finder/Finder.tsx:154-170 | back then forward returns to the same listing, index and history, with an ellipsis in place of the last path segment |
| Finder.OpenThenBack | src/apps/finder/Finder.tsx:141-161 | entering a folder and going back shows the previous listing and path, with the history up to the index unchanged |
| Finder.DeviceClick | src/apps/finder/Finder.tsx:265-270 | a sidebar device shows an empty listing under "Macintosh HD / device" and resets the history to the root alone |
| Finder.DeviceClickDesyncs | src/apps/finder/Finder.tsx:265-270 | after a device click the listing differs from the history entry at the index |
| Finder.PlaceClick | src/apps/finder/Finder.tsx:291-296 | a sidebar place shows the folder's listing one step below the root, with the listing matching the history |
| Finder.Places | src/apps/finder/Finder.tsx:281-285 | the sidebar lists exactly the root folders whose ids are among the six place ids |
| Finder.TrashSidebarClick | src/apps/finder/Finder.tsx:310-316 | the sidebar trash shows the trash listing one step below the root, with the listing matching the history |
| Finder.Search | src/apps/finder/Finder.tsx:120-124 | a blank query shows the whole listing; otherwise exactly the entries whose lower-cased title contains the lower-cased, untrimmed query |
| Finder.SearchConcat | src/apps/finder/Finder.tsx:120-124 | searching keeps listing order: the matches of two listings joined are the matches of each, in turn |
| Finder.ViewShortcut | src/apps/finder/Finder.tsx:129-131 | Cmd-1, Cmd-2 and Cmd-3 pick the icon, list and column views; anything else keeps the view |
| Finder.QuickLook | src/apps/finder/Finder.tsx:132-135 | space previews the first search result, and keeps the current preview when there are no results |
| Finder.MenuActions | src/apps/finder/Finder.tsx:599-627 | the trash folder offers Empty Trash only; with "Trash" in the path any other entry offers Put Back and Delete Immediately together; otherwise Move to Trash |
| Finder.ApplyMenu | src/apps/finder/Finder.tsx:172-176 | Empty Trash, Put Back and Move to Trash are the store's operations, and Move to Trash needs an app behind the entry; Delete Immediately drops exactly the trashed icons with the id and keeps the desktop |
| Finder.MoveThenDeleteImmediately | src/apps/finder/Finder.tsx:599-627 | moving an app to the trash and deleting its new trash entry immediately removes it from the desktop and leaves the trash as before |
| Finder.ColumnListing | src/apps/finder/Finder.tsx:432-434 | the next column is shown exactly when the entry selected in this column has a listing, even an empty one, and it shows that listing |
| Finder.SelectAsWritten | src/apps/finder/Finder.tsx:439 | a click in a column makes that entry the only selection |
| Finder.SecondColumnClickHidesIt | src/apps/finder/Finder.tsx:432-473 | clicking any entry shown in the second column hides the second column; beside the root only the clicked entry's listing can remain |
| Finder.Select | src/apps/finder/Finder.tsx:439 | the corrected click selects the entry and keeps exactly the selections of the earlier columns |
| Finder.SecondColumnClickKeepsIt | src/apps/finder/Finder.tsx:432-473 | with the corrected click the second column stays as it was, and a third opens exactly for a folder with a listing |
| Finder.FirstColumnClickAgrees | src/apps/finder/Finder.tsx:406 | in the first column the corrected click and the click as written give the same selection |
| Explorer.InitialValid | src/apps/browser/Explorer.tsx:53-58 | the browser starts with one "Top Sites" tab at home, active, with a history of just the home page |
| Explorer.Visit | src/apps/browser/Explorer.tsx:81-95 | the tab shows the URL, everything ahead of the index is dropped, the URL becomes the newest entry and the index moves onto it; the entries up to the old index are kept |
| Explorer.Navigate | src/apps/browser/Explorer.tsx:73-98 | the address bar shows the URL and only the active tab changes; an `iweb://` URL only changes that tab's URL and title, any other URL is visited and starts loading; a valid browser stays valid |
| Explorer.InternalKeepsHistory | src/apps/browser/Explorer.tsx:74-80 | an `iweb://` navigation leaves every tab's history and index untouched |
| Explorer.NewTab | src/apps/browser/Explorer.tsx:100-107 | a "New Tab" at home is appended after the existing tabs and becomes active, and the address bar shows home |
| Explorer.RemoveAt | src/apps/browser/Explorer.tsx:110 | the tabs before the position stay in place and those after it move up by one |
| Explorer.CloseTab | src/apps/browser/Explorer.tsx:108-113 | the only tab cannot be closed; otherwise the tab is removed and the tab before it, or the first, becomes active; the address bar and the loading flag are kept |
| Explorer.NewThenClose | src/apps/browser/Explorer.tsx:100-113 | opening a tab and closing it gives back the same tabs, with the last of them active |
| Explorer.SelectTab | src/apps/browser/Explorer.tsx:131-134 | clicking a tab makes it active and puts its URL in the address bar, with the tabs unchanged |
| Explorer.CloseMovesSelection | src/apps/browser/Explorer.tsx:108-113 | closing a later tab while the first is active makes the tab before the closed one active, while the address bar keeps the old URL |
| Explorer.Type | src/apps/browser/Explorer.tsx:168 | typing changes only the address bar's text |
| Explorer.TypeThenEnter | src/apps/browser/Explorer.tsx:166-169 | typing a URL and pressing Enter is navigating to it |
| Explorer.Loaded | src/apps/browser/Explorer.tsx:115-121 | the page's load event ends loading and changes nothing else |
| Explorer.TopSiteIsVisited | src/apps/browser/Explorer.tsx:212-217 | every top site is an ordinary URL, so opening one records it as the active tab's newest history entry and starts loading |
| Terminal.InitialValid | src/apps/terminal/Terminal.tsx:35-42 | the terminal starts in the root directory of the tree with the history cursor off |
| Terminal.Listings | src/apps/terminal/Terminal.tsx:84 | one entry per node, in directory order, directories marked with a folder glyph and a trailing slash and files with a page glyph |
| Terminal.FindNode | src/apps/terminal/Terminal.tsx:108 | a found node is in the directory and has the name; nothing is found exactly when no node has it |
| Terminal.Parse | src/apps/terminal/Terminal.tsx:69-145 | a word is unknown exactly when it is not one of the twelve commands; `ls` and `projects` both list, and `cd`, `open`, `sudo` and `clear` are recognised exactly by their names |
| Terminal.ChangeDir | src/apps/terminal/Terminal.tsx:88-99 | no argument changes nothing, `..` goes to the root, a child directory of the tree is entered, and anything else is reported as an error with the directory kept; the directory is always one of the tree |
| Terminal.OpenNode | src/apps/terminal/Terminal.tsx:105-116 | a node of the current directory with a target is dispatched and announced; anything else, including a missing argument printed as "undefined", is an error with nothing dispatched; only the lines change |
| Terminal.OpenTargets | src/apps/terminal/Terminal.tsx:105-116 | `open` can only ever dispatch `resume.open` or `finder.open` |
| Terminal.PlainLines | src/apps/terminal/Terminal.tsx:49-50 | one unstyled line per text, in order |
| Terminal.Execute | src/apps/terminal/Terminal.tsx:67-145 | each command has its effect: listing, `cd`, `open`, `clear` empties the screen, `sudo` prompts for a password, `resume` dispatches `resume.open`, unknown words are reported, and the other commands print their fixed text; only `cd` moves, only `sudo` awaits a password, only `open` and `resume` dispatch |
| Terminal.RunCommand | src/apps/terminal/Terminal.tsx:52-146 | a blank line does nothing; otherwise the prompt is echoed, the trimmed command joins the history and the cursor and input reset; while a password is awaited the only effect is the refusal, otherwise the first word selects the command and the rest are its arguments |
| Terminal.SudoRefusesNext | src/apps/terminal/Terminal.tsx:61-132 | after `sudo`, whatever is typed next is only echoed and refused, dispatches nothing, keeps the directory and ends the password prompt |
| Terminal.HistoryKey | src/apps/terminal/Terminal.tsx:149-169 | up from off goes to the newest entry and otherwise one older, stopping at the oldest; down from off does nothing, past the newest switches the cursor off and empties the input, and otherwise moves one newer; the input shows the entry under the cursor |
| Terminal.UpThenDown | src/apps/terminal/Terminal.tsx:149-169 | up then down from off switches the cursor off again with an empty input |
| Holidays.ThanksgivingDayOfMonth | src/config/holidays.ts:29-34 | the day computed from the weekday of November 1st lies between the 22nd and the 28th and falls on a Thursday |
| Holidays.ThanksgivingDate | src/config/holidays.ts:29-34 | `thanksgivingDate` is midnight of that November day |
| Holidays.ThanksgivingIsFourthThursday | src/config/holidays.ts:29-34 | the Thursdays of November up to that day are exactly it and the days one, two and three weeks before, so it is the fourth Thursday |
| Holidays.ThursdayAt | src/config/holidays.ts:31-33 | `1 + ((4 - day + 7) % 7) + 21` days into a month whose first weekday is `day` is a Thursday |
| Holidays.ThursdaysBefore | src/config/holidays.ts:29-34 | in November, a day before a Thursday at most the 28th is a Thursday exactly when it is whole weeks earlier |
| Holidays.SameWeekdayWeeks | src/config/holidays.ts:31-33 | two days less than four weeks apart, the later a Thursday, share the weekday exactly when the gap is 0, 7, 14 or 21 |
| Holidays.CnyTable | src/config/holidays.ts:36-52 | a Chinese New Year date exists exactly for 2025 to 2030, and it is a valid date of that year |
| Holidays.EidTable | src/config/holidays.ts:44-53 | an Eid al-Fitr date exists exactly for 2025 to 2030, and it is a valid date of that year |
| Holidays.StripTime | src/config/holidays.ts:56 | the rebuilt date keeps the day and drops the time of day |
| Holidays.StripTimeRebuildsDate | src/config/holidays.ts:56 | rebuilding a moment from its reported year, month and day gives that day's midnight |
| Holidays.Between | src/config/holidays.ts:55-59 | `between` holds exactly when the day of `d` lies from the day of `s` to the day of `e`, both ends included |
| Holidays.BetweenIgnoresTime | src/config/holidays.ts:55-59 | two moments of one day are inside or outside a span together |
| Holidays.ReversedSpanIsEmpty | src/config/holidays.ts:55-59 | a span that starts after it ends holds no date |
| Holidays.FirstActive | src/config/holidays.ts:137 | the index `find` stops at: no earlier holiday is active, and the one there is |
| Holidays.FirstLocal | src/config/holidays.ts:137 | no holiday exactly when none of the list is active; otherwise an active one with no active one before it |
| Holidays.FirstActiveAt | src/config/holidays.ts:137 | when entry `i` is the first active one the scan answers `i` |
| Holidays.NewYearSpan | src/config/holidays.ts:64-137 | January 1st to 3rd answer New Year |
| Holidays.ChristmasSpan | src/config/holidays.ts:64-137 | December 20th to 27th answer Christmas, no earlier entry covering them |
| Holidays.CnyOutsideTable | src/config/holidays.ts:102-114 | outside the table both ends are `new Date()`, so the entry is active exactly on the current day |
| Holidays.CnyInsideTable | src/config/holidays.ts:102-114 | inside the table the entry spans the tabulated day and one day either side |
| Holidays.EidSpan | src/config/holidays.ts:115-127 | the same two facts for Eid al-Fitr |
| Holidays.ParseRuleKinds | src/config/holidays.ts:155-176 | the text before the first `:` decides the kind: each named movable holiday exactly for its word, an unknown rule exactly for a word other than the five known ones |
| Holidays.DateOf | src/config/holidays.ts:160-167 | `new Date(y, m - 1, d)` is a valid date exactly when both numbers are, and then it is that day |
| Holidays.TableDates | src/config/holidays.ts:170-175 | a missing table entry leaves the row without dates |
| Holidays.RuleSpan | src/config/holidays.ts:155-176 | an unknown kind gives no dates, a missing piece throws and nothing else does, Thanksgiving gives its date at both ends, Eid and Chinese New Year give nothing outside 2025 to 2030 |
| Holidays.MonthDayRoundTrip | src/config/holidays.ts:160-165 | a `M-D` piece written from two numbers reads back as those numbers |
| Holidays.FixedRuleRoundTrip | src/config/holidays.ts:155-161 | a written `fixed:M-D` rule reads back as that month and day |
| Holidays.RangeRuleRoundTrip | src/config/holidays.ts:155-167 | a written `range:M-D,M-D` rule reads back as its two days |
| Holidays.FixedRuleSpan | src/config/holidays.ts:159-161 | a written fixed rule spans exactly `new Date(y, m - 1, d)` |
| Holidays.ReversedRangeNeverMatches | src/config/holidays.ts:162-178 | a range rule that starts later in the year than it ends never matches a date |
| Holidays.ReversedRangeRow | src/config/holidays.ts:162-178 | any row read as a reversed range is never active |
| Holidays.ReversedDatesEmpty | src/config/holidays.ts:166-178 | two dates, the first after the second, hold no date between them |
| Holidays.RemoteScan | src/config/holidays.ts:154-192 | with no active row the answer is the built-in fallback; otherwise either the fallback or the holiday of an active row with no active row before it |
| Holidays.RemoteScanFirstActive | src/config/holidays.ts:154-192 | when every row before an active one neither throws nor is active, the answer is that row's holiday |
| Holidays.RemoteScanThrowFallsBack | src/config/holidays.ts:154-192 | a rule that throws before any row was active gives the fallback, even if a later row would have been active |
| Holidays.ActiveHoliday | src/config/holidays.ts:143-193 | a failed query, and a table with no active row, both answer the built-in holiday for the date |
| Holidays.UnknownRuleNeverMatches | src/config/holidays.ts:155-178 | a row of an unknown kind is never active |
| Holidays.CollapseBlanks | src/config/holidays.ts:180 | the id has no blanks, is no longer than the name, keeps lower case, and equals the name when it has no blanks |
| Holidays.CollapseKeepsVisible | src/config/holidays.ts:180 | replacing blank runs keeps every other character in order |
| Holidays.HolidayId | src/config/holidays.ts:180 | the id has no blanks and no upper-case letters, and is the lower-cased name when the name has no blanks |
| Holidays.HolidayIdKeepsLetters | src/config/holidays.ts:180 | the id keeps the lower-cased name's characters other than blanks and `_`, in order |
| Holidays.CollapseRun | src/config/holidays.ts:180 | a run of blanks becomes exactly one `_`, or nothing when it continues a run already replaced, and the text after it starts a new run |
| Holidays.CollapseWord | src/config/holidays.ts:180 | a stretch without blanks is copied unchanged and ends any run |
| Holidays.CollapseWordGap | src/config/holidays.ts:180 | a word followed by a run of blanks becomes the word and one `_`, then the collapse of the text after the run |
| Holidays.HolidayIdSplitsAtGap | src/config/holidays.ts:180 | the id of a word, a run of blanks and a rest that starts with no blank is the lower-cased word, one `_`, then the id of the rest |
| Holidays.EidAlFitrId | src/config/holidays.ts:180 | "Eid al Fitr" gets the id `eid_al_fitr` |
| Dates.MakeDay | src/apps/calendar/HolidayCalendar.tsx:49 | `new Date(y, m, d)` for a month index 0 to 11 is the `d - 1`th day after that month's 1st |
| Dates.NextMonthStart | src/apps/calendar/HolidayCalendar.tsx:40 | day 1 of the next month comes the month's length after this month's 1st, so day 0 of it is this month's last day |
| Dates.CivilOf | src/apps/calendar/HolidayCalendar.tsx:146-150 | the year, month and date a day reports form a valid date that names that day |
| Dates.CivilRoundTrip | src/apps/calendar/HolidayCalendar.tsx:146-150 | a valid date built with `new Date(y, m, d)` reports back `y`, `m` and `d` |
| Calendar.FirstOf | src/apps/calendar/HolidayCalendar.tsx:105-123 | `new Date(y, m, 1)` with any month index is the 1st of a month 0 to 11 |
| Calendar.FirstOfReadsBack | src/apps/calendar/HolidayCalendar.tsx:105-123 | that cursor is the day `new Date(y, m, 1)` names, and it reads back as the 1st of its month |
| Calendar.Prev | src/apps/calendar/HolidayCalendar.tsx:104-106 | the ‹ button moves to the 1st of the previous month, January to December of the year before |
| Calendar.Next | src/apps/calendar/HolidayCalendar.tsx:122-124 | the › button moves to the 1st of the next month, December to January of the next year |
| Calendar.StepsAreWholeMonths | src/apps/calendar/HolidayCalendar.tsx:104-124 | the previous month ends the day before the cursor and the next month starts the day after the cursor month ends |
| Calendar.TodayCursor | src/apps/calendar/HolidayCalendar.tsx:113-115 | the initial cursor and the Today button hold the 1st of the month that contains today |
| Calendar.NextUndoesPrev | src/apps/calendar/HolidayCalendar.tsx:104-124 | › after ‹ returns to the same month |
| Calendar.PrevUndoesNext | src/apps/calendar/HolidayCalendar.tsx:104-124 | ‹ after › returns to the same month |
| Calendar.LastDay | src/apps/calendar/HolidayCalendar.tsx:40 | `end` is the cursor month's last day |
| Calendar.LastDayDate | src/apps/calendar/HolidayCalendar.tsx:40-48 | `end.getDate()` is the month's length |
| Calendar.MonthCellDates | src/apps/calendar/HolidayCalendar.tsx:48-50 | the month cells are days 1 to the month's length, each the matching day after the 1st |
| Calendar.Lead | src/apps/calendar/HolidayCalendar.tsx:42 | `lead` is between 0 and 6, and going back `lead` days from the 1st reaches a Monday |
| Calendar.MondayBefore | src/apps/calendar/HolidayCalendar.tsx:42 | going back `(getDay() + 6) % 7` days from any day reaches a Monday |
| Calendar.Leading | src/apps/calendar/HolidayCalendar.tsx:43-47 | the leading cells are the `lead` days just before the 1st, oldest first |
| Calendar.Run | src/apps/calendar/HolidayCalendar.tsx:48-50 | the month cells are consecutive days from the 1st |
| Calendar.CellsToFill | src/apps/calendar/HolidayCalendar.tsx:51 | the padding loop adds fewer than 7 cells, enough to reach a multiple of 7, and none when already there |
| Calendar.FillStep | src/apps/calendar/HolidayCalendar.tsx:51-55 | each padding cell leaves one fewer to add |
| Calendar.PadRepeating | src/apps/calendar/HolidayCalendar.tsx:51-55 | as written, the padding keeps the cells before it and every padding cell is the same date |
| Calendar.PadCounting | src/apps/calendar/HolidayCalendar.tsx:51-55 | corrected, the padding keeps the cells before it and continues the dates one by one |
| Calendar.BodyConsecutive | src/apps/calendar/HolidayCalendar.tsx:42-50 | before padding, cell `i` is the `i`th day after the Monday that starts the first row |
| Calendar.LayoutShape | src/apps/calendar/HolidayCalendar.tsx:51 | both grids have a whole number of weeks, between 28 and 42 cells, and the same length |
| Calendar.GridShape | src/apps/calendar/HolidayCalendar.tsx:38-57 | the same for the grid of any cursor month |
| Calendar.WeekdayShift | src/apps/calendar/HolidayCalendar.tsx:134 | `i` days after a Monday falls under header column `i % 7` (Mon to Sun) |
| Calendar.LayoutConsecutive | src/apps/calendar/HolidayCalendar.tsx:38-57 | the corrected grid is consecutive days from a Monday, so each cell sits under its own weekday |
| Calendar.LayoutsShareBody | src/apps/calendar/HolidayCalendar.tsx:43-50 | both grids start with the leading and month cells; only the padding differs |
| Calendar.PaddingRepeats | src/apps/calendar/HolidayCalendar.tsx:52-55 | as written, every padding cell is the day after the month's last day |
| Calendar.PaddingRepeatsInMarch1970 | src/apps/calendar/HolidayCalendar.tsx:51-55 | March 1970 gets five padding cells, all April 1st |
| Calendar.IsTodayIffSameDay | src/apps/calendar/HolidayCalendar.tsx:147-150 | a cell is marked today exactly when it is today's day |
| Emulator.Normalize | src/apps/games/EmulatorApp.tsx:58-59 | the key has no upper-case letters, blanks or parentheses, is no longer than the name, and a name already in that form is its own key |
| Emulator.NormalizeIdempotent | src/apps/games/EmulatorApp.tsx:58-59 | normalizing a key again changes nothing |
| Emulator.NormalizeConcat | src/apps/games/EmulatorApp.tsx:58-59 | the key of two joined names is the two keys joined |
| Emulator.NormalizeIgnoresDecoration | src/apps/games/components/GameLibrary.tsx:9-10 | names that agree once lower-cased share one key, so case never separates a ROM from its thumbnail |
| Emulator.PatternsPlain | src/apps/games/EmulatorApp.tsx:72-80 | every alternative of the ROM and image patterns is lower case and has no dot |
| Emulator.LibraryNarrower | src/apps/games/components/GameLibrary.tsx:35 | every ROM extension the library accepts the player accepts too |
| Emulator.MatchedExt | src/apps/games/EmulatorApp.tsx:92 | `romExt.test` fails exactly when no alternative ends the lower-cased name after a dot, and a match is an alternative that does |
| Emulator.StripMatched | src/apps/games/EmulatorApp.tsx:93 | a name the pattern misses is kept whole; otherwise the result is the name without its dot and matched extension |
| Emulator.StripMatchedRoundTrip | src/apps/games/EmulatorApp.tsx:92-93 | a file named base, dot, extension matches and gives back exactly the base, in any case |
| Emulator.DotSuffixUnique | src/apps/games/EmulatorApp.tsx:93 | two dot-free alternatives that both end a name after a dot have one length, so the stripped base does not depend on which one matched |
| Emulator.ThumbMap | src/apps/games/EmulatorApp.tsx:70-77 | a key is in the thumbnail map exactly when some thumbnail file has it |
| Emulator.ThumbMapLast | src/apps/games/EmulatorApp.tsx:71-77 | a key maps to the URL of the last thumbnail file that has it |
| Emulator.Thumb | src/apps/games/EmulatorApp.tsx:95-97 | a stored non-empty URL wins, and anything else gives the placeholder |
| Emulator.ItemFor | src/apps/games/EmulatorApp.tsx:93-104 | the item's title is the stripped name, its core the folder, its URL the file's public path, its thumbnail the one stored under the title's key |
| Emulator.FolderItems | src/apps/games/EmulatorApp.tsx:91-105 | a folder yields an item for each of its ROM files and for nothing else |
| Emulator.CollectItems | src/apps/games/EmulatorApp.tsx:84-106 | every item comes from a ROM file of a folder whose listing succeeded, and every such file gives one |
| Emulator.CollectItemsByName | src/apps/games/EmulatorApp.tsx:84-106 | the same two directions by folder name: an item is collected exactly when some successfully listed folder holds a ROM file it is made from |
| Emulator.PlayerGames | src/apps/games/EmulatorApp.tsx:79-106 | an item is in the list exactly when it is the item for a ROM file (by the player's extensions) listed under a supported system whose listing succeeded; every core is a supported system |
| Emulator.LibraryFolders | src/apps/games/components/GameLibrary.tsx:17-20 | the folders kept are exactly the named entries other than `thumbs` in any case |
| Emulator.LibraryGames | src/apps/games/components/GameLibrary.tsx:35-56 | an item is in the list exactly when it is the item for a ROM file (by the library's extensions) listed under a top-level folder other than `thumbs` whose listing succeeded |
| Emulator.ThumbnailFound | src/apps/games/components/GameLibrary.tsx:43-48 | a ROM gets the thumbnail stored under its base name's key, and the placeholder when there is none |
| Emulator.ToggleShader | src/apps/games/EmulatorApp.tsx:202-205 | the CRT shader turns into the LCD one and anything else into the CRT one |
| Emulator.ToggleShaderTwice | src/apps/games/EmulatorApp.tsx:202-205 | on either known shader, two toggles give it back |
| Emulator.Select | src/apps/games/EmulatorApp.tsx:179-182 | picking a game selects it and starts the player, keeping the shader |
| Emulator.Quit | src/apps/games/EmulatorApp.tsx:198-201 | quitting stops the player and clears the selection, keeping the shader |
| Emulator.Toggle | src/apps/games/EmulatorApp.tsx:202-205 | the toggle changes the shader and nothing else |
| Emulator.PlayerInvariant | src/apps/games/EmulatorApp.tsx:179-205 | every action keeps the shader one of the two known ones, two toggles cancel, and quitting after picking leaves nothing selected |
| Emulator.ToolbarTitle | src/apps/games/EmulatorApp.tsx:196 | the toolbar shows the selected game's title, or nothing |
| Synth.GenerateNotes | src/apps/synth/Synth.tsx:32-40 | four octaves of the twelve notes make 48 keys; key `i` is base note `i % 12` of octave `i / 12`, numbered from 2 plus the offset, with that note's colour |
| Synth.ShiftTransposes | src/apps/synth/Synth.tsx:32-40 | one octave up moves every name twelve keys down, the colours staying in place |
| Synth.BaseNamesDistinct | src/apps/synth/Synth.tsx:17-30 | the twelve base notes have twelve different names |
| Synth.NoteNamesDistinct | src/apps/synth/Synth.tsx:32-40 | for every offset the octave buttons allow, the 48 keys have 48 different names, so a sounding name picks out one key |
| Synth.ShiftOctave | src/apps/synth/Synth.tsx:168-169 | the shift stays in [-2, 2]; from inside that range it moves one step the chosen way, or stays at the end it has reached |
| Synth.KeyboardMapInRange | src/apps/synth/Synth.tsx:43-47 | every mapped computer key addresses one of the first 25 of the 48 keys |
| Synth.KeyIndex | src/apps/synth/Synth.tsx:147-155 | a key event addresses a key exactly when its lower-cased key is mapped to a position the keyboard has |
| Synth.TogglePower | src/apps/synth/Synth.tsx:104-115 | without a sound engine nothing changes; otherwise the power flips, the LED follows it and nothing else changes |
| Synth.ApplyPreset | src/apps/synth/Synth.tsx:118-128 | an unknown name changes nothing; a known one sets that preset's sound and name and lights the LED, nothing else changing |
| Synth.Play | src/apps/synth/Synth.tsx:135-141 | with the power off nothing happens; otherwise the note is appended to the sounding list and the LED lights |
| Synth.Release | src/apps/synth/Synth.tsx:141-157 | every entry for the note leaves the sounding list and every other entry stays |
| Synth.KeyDown | src/apps/synth/Synth.tsx:146-152 | an unmapped key or a note already sounding changes nothing; otherwise the key's note is played |
| Synth.KeyUp | src/apps/synth/Synth.tsx:153-158 | an unmapped key changes nothing; otherwise the key's note is released |
| Synth.KeyDownUp | src/apps/synth/Synth.tsx:146-158 | key down never lists a note twice, and releasing the key silences its note |
| Synth.Shift | src/apps/synth/Synth.tsx:132-169 | an octave button sets the clamped shift and rebuilds the keyboard for it, nothing else changing |
| Synth.ShiftKeepsKeyboard | src/apps/synth/Synth.tsx:132-169 | the initial state and every octave press keep the shift in range with the keyboard built for it |
| Music.ClockRoundTrip | src/apps/music/components/TrackTable.tsx:166-169 | a printed `m:ss` clock reads back as the minutes and the seconds below 60, so different times print differently |
| Music.SecondsField | src/apps/music/components/TrackTable.tsx:168-169 | the seconds field is two digits that read back as the seconds |
| Music.ReadClockOf | src/apps/music/components/TrackTable.tsx:169 | digits, a colon and two digits read back as the two numbers |
| Music.FormatDuration | src/apps/music/components/TrackTable.tsx:164-170 | the cell is empty exactly for 0; otherwise it reads back as the whole minutes and seconds of the duration |
| Music.Format | src/apps/music/components/PlayerBar.tsx:124-130 | 0 prints `0:00`, and every time reads back as its whole minutes and seconds |
| Music.FormatsAgree | src/apps/music/components/TrackTable.tsx:164-170 | the table's and the player bar's formats agree on every non-zero time and differ at 0 |
| Music.UnderOneSecond | src/apps/music/components/TrackTable.tsx:164-170 | a non-zero duration below one second prints `0:00` |
| Music.Load | src/apps/music/components/TrackTable.tsx:13-30 | no token changes nothing; a response replaces the tracks (none when it has no items) and clears the error; a failure keeps the tracks and shows the error |
| Music.ClickRow | src/apps/music/components/TrackTable.tsx:73-77 | the clicked row's track becomes active and is handed to the player, the tracks and error unchanged |
| Music.ClickHighlights | src/apps/music/components/TrackTable.tsx:68-77 | after a click exactly the rows sharing the clicked track's id are highlighted |
| Music.IdlessRowsStartActive | src/apps/music/components/TrackTable.tsx:11-68 | before any click a track without an id already shows as highlighted |
| Music.Percent | src/apps/music/components/PlayerBar.tsx:24 | a zero duration gives 0; otherwise the percentage times the duration is 100 times the progress, and it lies in [0, 100] while the progress is within the track |
| Music.PercentEnds | src/apps/music/components/PlayerBar.tsx:24 | the bar is empty at the start and full at the end of a track |

## Left out

- Network, storage and realtime calls: Supabase queries, storage listings, the theme-sync channel, the Spotify and iTunes requests. Their results are inputs to the operations that use them (`Option` where a failure is possible); the requests themselves, their ordering and retries are not modelled.
- Timers: the 500 ms timer of `minimizeWindow` is the separate operation `Ui.MinimizeFinish`, and a played synth note's release is `Synth.Release`. The timers that switch the synth LED off, clear toasts, delay the browser's top-site navigation and time the icon long-press are left out, because they only schedule later state writes that do not interact with the modelled properties.
- Sound: SynthCore, note frequencies (`Math.pow`), the iTunes fade loops and `sounds.ts` playback. They produce audio only.
- Rendering: JSX, CSS, the genie animation, tile labels and borders, traffic-light styles, favicons, iframe loading and the emulator frame. None of them changes state.
- Dock hover magnification (cosine and power springs) and the synth knobs' rotation mapping, because they are floating-point presentation maths.
- Persistence: `localStorage` caching and the persisted store subset. The cached preferences read at start-up are an optional input record.
- Time zones: every date is local time. The ISO strings of the Chinese New Year and Eid tables are parsed as UTC by `new Date`, which can shift them by a day west of UTC; the model reads them as local dates.
- Collation: `localeCompare` sorting of game titles, so `Emulator.PlayerGames` and `Emulator.LibraryGames` describe the items before the sort.
- Unicode case mapping: `toLowerCase` is ASCII-only here.
- Strs.ParseNumber: accepts only optionally signed decimal digits with surrounding blanks. JavaScript's `Number` also reads decimal fractions, exponents and hexadecimal, binary and octal literals, and `Infinity`; those come out as NaN here.
- Wallpapers.Groups: a map from folder name to images. The source builds a JavaScript object whose keys keep insertion order; the order in which groups are shown is not modelled.
- The menu bar's own Cmd-W listener: it closes the window that was active when the menu bar last rendered. How it interleaves with the windows' listeners depends on the order in which the components mounted, which is not part of this model; `Window.KeyDown` folds only over the windows' listeners.
- The Finder's Get Info dialog and the free-space figure, which is a random number. The Quick Look preview is modelled only as the entry it shows.
- Browser page loading, which is reduced to the `loading` flag; pressing Enter in the address bar navigates to the typed text.
- Window.AnimationComplete: tests the store's own record. The source tests the record it last rendered, so if that window was closed in between, the source writes a record holding only the two flags; the model does not produce that partial record.
- Window.AutoSize: a window missing from the store changes nothing. The source spreads the record it last rendered, so for a window closed in between it would write a partial record back; the model leaves that out, as for `Window.AnimationComplete`.
- Window.ResizeLive: the same missing-window case as `Window.AutoSize`.
- Window.DragTo: a missing window changes nothing. The drag handler spreads `state.windows[id]`, so for a window closed mid-drag the source writes a record holding only `x` and `y`; a window record here always has every field, so that partial record is left out.
- Window.RequestMinimize: a missing window changes nothing. The minimize button writes `{ ...s.windows[id], minimizing: true }` for any id, so for a closed window the source stores a record holding only `minimizing`, and `minimizeWindow` then treats it as live; that partial record is left out for the same reason.
- Music.FormatDuration: durations are whole non-negative milliseconds. Negative or fractional inputs are not modelled.
- Music.Format: the same restriction to whole non-negative milliseconds.
- Games.MidnightOf: local midnight ignores time zones and daylight-saving shifts.
- Emulator.PlayerGames: states which items the list holds, not how many times each occurs or the order after sorting by title.
- Emulator.LibraryGames: the same as for the player's list.

## Findings

| source | as written | input that shows it | evidently intended | confidence | as-written member | corrected member |
|---|---|---|---|---|---|---|
| src/apps/calendar/HolidayCalendar.tsx:51-55 | every trailing padding cell is a fresh copy of `end` moved one day on, so all of them show the same date | March 1970: five padding cells, every one April 1st | the padding continues the days after the month, April 1st to 5th | not executed; high | Calendar.PaddingRepeatsInMarch1970 | Calendar.LayoutConsecutive |
| src/components/Desktop.tsx:52-54 | the holiday theme id is `theme_` plus the holiday id with `-` made `_`, not the holiday's own `themeId` | the built-in Thanksgiving (US) holiday gives `theme_thanksgiving_us`, a theme no pack defines | activate the theme the holiday names, `theme_thanksgiving` | not executed; high | Desktop.ThanksgivingThemeMismatch | Desktop.LocalThemesKnown |
| src/components/Desktop.tsx:165-174 | the icon-column loop steps by `floor((height - 100) / 80)`, which is 0 or negative for a window under 180 pixels high | a 179-pixel-high window with one desktop icon: the loop never advances | at least one icon per column | not executed; high | Desktop.ShortWindowStalls | Desktop.ClampedColumns |
| src/apps/finder/Finder.tsx:439 | a click in the second column replaces the whole selection with `{ 2: entry }`, dropping the first column's selection | column view: select Applications in column 1, then click any app in column 2; column 2 disappears | keep the selections of earlier columns, as the first-column click already does | not executed; medium | Finder.SecondColumnClickHidesIt | Finder.SecondColumnClickKeepsIt |

=== FILE: apps.dfy ===
/** The apps slice (`src/store/apps.ts`): the fixed app table, the desktop icons built
    from it, the trash, and the launcher that opens a centred 560 x 400 window. A
    launcher is data here (`AppLauncher(appId)` or `NoLaunch` for the do-nothing
    launcher of a new folder); the random window-id suffix is a parameter. */
module Apps {
  import opened Wrappers
  import opened Seqs
  import opened Ui

  datatype Launcher = AppLauncher(appId: string) | NoLaunch

  datatype Icon = Icon(
    id: string,
    title: string,
    iconUrl: Option<string>,
    pinned: bool,
    launcher: Launcher,
    x: real,
    y: real)

  datatype AppsState = AppsState(desktopIcons: seq<Icon>, trash: seq<Icon>)

  /** The keys of the app table, in declaration order. */
  const AppIds: seq<string> :=
    ["finder", "guestbook", "games", "wallpapers", "explorer", "synth", "calendar",
     "recruiter", "itunes", "terminal", "bmcoffee"]

  const PinnedDefault: seq<string> := ["finder", "games", "guestbook", "wallpapers", "terminal", "explorer"]

  /** `APPS[id]?.title`. */
  function AppTitle(id: string): (t: Option<string>)
    ensures t.Some? <==> id in AppIds
  {
    match id
    case "finder" => Some("Finder")
    case "guestbook" => Some("iguest")
    case "games" => Some("igames")
    case "wallpapers" => Some("iwallpapers")
    case "explorer" => Some("iweb")
    case "synth" => Some("Synth")
    case "calendar" => Some("ical")
    case "recruiter" => Some("iprojects")
    case "itunes" => Some("itunes")
    case "terminal" => Some("Terminal")
    case "bmcoffee" => Some("Buy Me Coffee")
    case _ => None
  }

  const LaunchWidth: real := 560.0
  const LaunchHeight: real := 400.0

  /** Launch placement: a 560 x 400 window placed as every launcher places it. */
  function LaunchBounds(vw: real, vh: real): Bounds {
    PlacedBounds(vw, vh, LaunchWidth, LaunchHeight)
  }

  /** The window id a launch of `appId` creates: the app id, a dash, a random suffix. */
  function LaunchId(appId: string, suffix: string): (id: string)
    ensures |id| > |appId| && id[..|appId|] == appId && id[|appId|] == '-'
  {
    appId + "-" + suffix
  }

  /** `makeLaunch(appId)(props)`: open a new window of the app with the props forwarded,
      then focus it. */
  function Launch(s: UiState, appId: string, props: Option<LaunchProps>, vw: real, vh: real, suffix: string): (r: UiState)
    ensures var id := LaunchId(appId, suffix);
      && id in r.windows
      && r.windows[id] == NewWindow(id, appId, LaunchBounds(vw, vh), props)
      && AgreeExcept(r.windows, s.windows, id)
      && |r.focusStack| > 0 && r.focusStack[|r.focusStack| - 1] == id
      && r.focusStack[..|r.focusStack| - 1] == Without(s.focusStack, id)
      && (forall d :: d in r.dock <==> d in s.dock && d.winId != id)
      && (id in s.windows ==> r.keyOrder == s.keyOrder)
      && (id !in s.windows ==> r.keyOrder == s.keyOrder + [id])
      && r.dockIconPositions == s.dockIconPositions
  {
    var id := LaunchId(appId, suffix);
    var o := Open(s, NewWindow(id, appId, LaunchBounds(vw, vh), props));
    MoveToEndTwice(s.focusStack, id);
    Focus(o, id)
  }

  /** Running a launcher: an app launcher launches, the no-op launcher does nothing. */
  function RunLauncher(s: UiState, l: Launcher, props: Option<LaunchProps>, vw: real, vh: real, suffix: string): (r: UiState)
    ensures l.NoLaunch? ==> r == s
    ensures l.AppLauncher? ==> r == Launch(s, l.appId, props, vw, vh, suffix)
  {
    match l
    case NoLaunch => s
    case AppLauncher(appId) => Launch(s, appId, props, vw, vh, suffix)
  }

  /** A launch keeps the store well-formed and makes the new window the active one. */
  lemma LaunchWellFormed(s: UiState, appId: string, props: Option<LaunchProps>, vw: real, vh: real, suffix: string)
    requires WellFormed(s)
    ensures var r := Launch(s, appId, props, vw, vh, suffix);
      && WellFormed(r)
      && !r.windows[LaunchId(appId, suffix)].minimized
      && |r.windows| == |s.windows| + (if LaunchId(appId, suffix) in s.windows then 0 else 1)
  {
    var id := LaunchId(appId, suffix);
    var w := NewWindow(id, appId, LaunchBounds(vw, vh), props);
    OpenPreservesWellFormed(s, w);
    var o := Open(s, w);
    FocusPreservesWellFormed(o, id);
    assert o.windows == s.windows[id := w];
    assert Launch(s, appId, props, vw, vh, suffix).windows == o.windows;
  }

  /** `makeIcon(id, index)`: six icons per column, columns 100 px apart from x = 80, rows
      100 px apart from y = 100; pinned when the app is in the default pinned list. */
  function MakeIcon(id: string, index: nat): (icon: Icon)
    ensures icon.id == id && (id in AppIds ==> Some(icon.title) == AppTitle(id))
    ensures icon.launcher == AppLauncher(id)
    ensures icon.pinned <==> id in PinnedDefault
    ensures icon.iconUrl.None? <==> id == "calendar"
    ensures icon.x == 80.0 + 100.0 * ((index / 6) as real) && icon.y == 100.0 + 100.0 * ((index % 6) as real)
    ensures 100.0 <= icon.y <= 600.0 && icon.x >= 80.0
  {
    Icon(id, AppTitle(id).GetOr(""), if id == "calendar" then None else Some("/icons/" + id + ".png"),
         id in PinnedDefault, AppLauncher(id),
         80.0 + (index / 6) as real * 100.0, 100.0 + (index % 6) as real * 100.0)
  }

  function MakeIcons(ids: seq<string>, start: nat): (r: seq<Icon>)
    ensures |r| == |ids|
    ensures forall i :: 0 <= i < |ids| ==> r[i] == MakeIcon(ids[i], start + i)
  {
    if ids == [] then []
    else
      var rest := MakeIcons(ids[1..], start + 1);
      MakeIconsCons(ids, start, rest);
      [MakeIcon(ids[0], start)] + rest
  }

  lemma MakeIconsCons(ids: seq<string>, start: nat, rest: seq<Icon>)
    requires |ids| > 0 && |rest| == |ids| - 1
    requires forall i :: 0 <= i < |rest| ==> rest[i] == MakeIcon(ids[1..][i], start + 1 + i)
    ensures forall i :: 0 <= i < |ids| ==> ([MakeIcon(ids[0], start)] + rest)[i] == MakeIcon(ids[i], start + i)
  {
    var r := [MakeIcon(ids[0], start)] + rest;
    forall i | 1 <= i < |ids| ensures r[i] == MakeIcon(ids[i], start + i) {
      assert r[i] == rest[i - 1] && ids[1..][i - 1] == ids[i];
    }
  }

  /** The starting desktop: one icon per app, in table order. */
  function InitialIcons(): (r: seq<Icon>)
    ensures |r| == |AppIds|
    ensures forall i :: 0 <= i < |r| ==> r[i] == MakeIcon(AppIds[i], i)
  {
    MakeIcons(AppIds, 0)
  }

  /** The app table's keys are pairwise different. */
  lemma AppIdsDistinct()
    ensures Distinct(AppIds)
  {}

  /** Different indices land in different grid cells. */
  lemma GridCellsDistinct(i: nat, j: nat)
    requires i != j
    ensures i / 6 != j / 6 || i % 6 != j % 6
  {}

  /** No two starting icons share an id or a grid cell. */
  lemma InitialIconsDistinct(i: int, j: int)
    requires 0 <= i < j < |AppIds|
    ensures InitialIcons()[i].id != InitialIcons()[j].id
    ensures (InitialIcons()[i].x, InitialIcons()[i].y) != (InitialIcons()[j].x, InitialIcons()[j].y)
  {
    AppIdsDistinct();
    GridCellsDistinct(i, j);
    var a, b := MakeIcon(AppIds[i], i), MakeIcon(AppIds[j], j);
    assert InitialIcons()[i] == a && InitialIcons()[j] == b;
    if i / 6 == j / 6 {
      assert a.y != b.y;
    } else {
      assert a.x != b.x;
    }
  }

  /** The initial store: the starting desktop and an empty trash. */
  function InitialApps(): (s: AppsState)
    ensures s.trash == [] && |s.desktopIcons| == |AppIds|
  {
    AppsState(InitialIcons(), [])
  }

  /** Icons whose id differs from `id`, in order. */
  function RemoveId(icons: seq<Icon>, id: string): (r: seq<Icon>)
    ensures forall i :: i in r <==> i in icons && i.id != id
    ensures |r| <= |icons|
    ensures (forall i :: i in icons ==> i.id != id) ==> r == icons
  {
    Filter((i: Icon) => i.id != id, icons)
  }

  /** `find`: the first icon with the id. */
  function FindId(icons: seq<Icon>, id: string): (r: Option<Icon>)
    ensures r.None? <==> forall i :: i in icons ==> i.id != id
    ensures r.Some? ==> r.value in icons && r.value.id == id
    ensures r.Some? ==> exists k :: 0 <= k < |icons| && icons[k] == r.value && forall j :: 0 <= j < k ==> icons[j].id != id
  {
    if icons == [] then None
    else if icons[0].id == id then Some(icons[0])
    else
      var rest := FindId(icons[1..], id);
      if rest.Some? then
        var k :| 0 <= k < |icons[1..]| && icons[1..][k] == rest.value && forall j :: 0 <= j < k ==> icons[1..][j].id != id;
        assert icons[k + 1] == rest.value;
        rest
      else
        assert forall i :: i in icons ==> i == icons[0] || i in icons[1..];
        None
  }

  /** `moveToTrash`: every desktop icon with the id goes away and the icon is appended to the trash. */
  function MoveToTrash(s: AppsState, icon: Icon): (r: AppsState)
    ensures forall i :: i in r.desktopIcons <==> i in s.desktopIcons && i.id != icon.id
    ensures r.trash == s.trash + [icon]
  {
    AppsState(RemoveId(s.desktopIcons, icon.id), s.trash + [icon])
  }

  /** `restoreFromTrash`: the first trashed icon with the id is appended to the desktop and
      every trashed icon with that id is dropped; nothing happens if there is none. */
  function RestoreFromTrash(s: AppsState, id: string): (r: AppsState)
    ensures (forall i :: i in s.trash ==> i.id != id) ==> r == s
    ensures (exists i :: i in s.trash && i.id == id) ==>
      && |r.desktopIcons| == |s.desktopIcons| + 1
      && r.desktopIcons[..|s.desktopIcons|] == s.desktopIcons
      && r.desktopIcons[|s.desktopIcons|] == FindId(s.trash, id).value
      && (forall i :: i in r.trash <==> i in s.trash && i.id != id)
  {
    match FindId(s.trash, id)
    case None => s
    case Some(item) =>
      var d := s.desktopIcons + [item];
      assert d[..|s.desktopIcons|] == s.desktopIcons;
      AppsState(d, RemoveId(s.trash, id))
  }

  /** Trashing an icon whose id is not already in the trash and restoring it puts that icon
      back (at the end of the desktop) and leaves the trash as it was. */
  lemma TrashRoundTrip(s: AppsState, icon: Icon)
    requires forall i :: i in s.trash ==> i.id != icon.id
    ensures RestoreFromTrash(MoveToTrash(s, icon), icon.id)
      == AppsState(RemoveId(s.desktopIcons, icon.id) + [icon], s.trash)
  {
    var t := s.trash + [icon];
    FindIdAfterOthers(s.trash, icon);
    var p := (i: Icon) => i.id != icon.id;
    FilterConcat(p, s.trash, [icon]);
    assert Filter(p, [icon]) == [];
    assert RemoveId(t, icon.id) == s.trash;
  }

  /** Appended after icons with other ids, an icon is the first one found for its id. */
  lemma {:induction false} FindIdAfterOthers(a: seq<Icon>, icon: Icon)
    requires forall i :: i in a ==> i.id != icon.id
    ensures FindId(a + [icon], icon.id) == Some(icon)
  {
    if a != [] {
      assert (a + [icon])[1..] == a[1..] + [icon];
      FindIdAfterOthers(a[1..], icon);
    }
  }

  /** Removing an id distributes over concatenation. */
  lemma RemoveIdConcat(a: seq<Icon>, b: seq<Icon>, id: string)
    ensures RemoveId(a + b, id) == RemoveId(a, id) + RemoveId(b, id)
  {
    FilterConcat((i: Icon) => i.id != id, a, b);
  }

  /** Trashing keeps the desktop's order: an icon that stays has the surviving icons that
      were before it still before it, and those after it still after it. */
  lemma TrashKeepsDesktopOrder(s: AppsState, icon: Icon, a: seq<Icon>, x: Icon, b: seq<Icon>)
    requires s.desktopIcons == a + [x] + b && x.id != icon.id
    ensures MoveToTrash(s, icon).desktopIcons == RemoveId(a, icon.id) + [x] + RemoveId(b, icon.id)
  {
    RemoveIdConcat(a + [x], b, icon.id);
    RemoveIdConcat(a, [x], icon.id);
  }

  /** Restoring keeps the order of what stays in the trash, the same way. */
  lemma RestoreKeepsTrashOrder(s: AppsState, id: string, a: seq<Icon>, x: Icon, b: seq<Icon>)
    requires s.trash == a + [x] + b && x.id != id
    ensures RestoreFromTrash(s, id).trash == RemoveId(a, id) + [x] + RemoveId(b, id)
  {
    RemoveIdConcat(a + [x], b, id);
    RemoveIdConcat(a, [x], id);
  }

  /** `emptyTrash`. */
  function EmptyTrash(s: AppsState): (r: AppsState)
    ensures r.trash == [] && r.desktopIcons == s.desktopIcons
  {
    s.(trash := [])
  }

  /** `pinApp` / `unpinApp`: every desktop icon with the id gets the pinned flag; nothing else changes. */
  function SetPinned(s: AppsState, id: string, pinned: bool): (r: AppsState)
    ensures r.trash == s.trash && |r.desktopIcons| == |s.desktopIcons|
    ensures forall k :: 0 <= k < |s.desktopIcons| ==>
      r.desktopIcons[k] == (if s.desktopIcons[k].id == id then s.desktopIcons[k].(pinned := pinned) else s.desktopIcons[k])
  {
    s.(desktopIcons := UpdateWhere(s.desktopIcons, id, (i: Icon) => i.(pinned := pinned)))
  }

  /** Every icon with the id replaced by its image under `f`, in place; the rest untouched. */
  function UpdateWhere(icons: seq<Icon>, id: string, f: Icon -> Icon): (r: seq<Icon>)
    ensures |r| == |icons|
    ensures forall k :: 0 <= k < |icons| ==> r[k] == (if icons[k].id == id then f(icons[k]) else icons[k])
  {
    if icons == [] then []
    else [if icons[0].id == id then f(icons[0]) else icons[0]] + UpdateWhere(icons[1..], id, f)
  }

  /** Unpinning after pinning gives every icon of that id the unpinned flag and leaves the others alone. */
  lemma PinUnpin(s: AppsState, id: string)
    ensures SetPinned(SetPinned(s, id, true), id, false) == SetPinned(s, id, false)
  {
    var a := SetPinned(SetPinned(s, id, true), id, false);
    var b := SetPinned(s, id, false);
    assert a.desktopIcons == b.desktopIcons;
  }

  /** `moveDesktopIcon`: every desktop icon with the id moves to (x, y). */
  function MoveIcon(s: AppsState, id: string, x: real, y: real): (r: AppsState)
    ensures r.trash == s.trash && |r.desktopIcons| == |s.desktopIcons|
    ensures forall k :: 0 <= k < |s.desktopIcons| ==>
      r.desktopIcons[k] == (if s.desktopIcons[k].id == id then s.desktopIcons[k].(x := x, y := y) else s.desktopIcons[k])
  {
    s.(desktopIcons := UpdateWhere(s.desktopIcons, id, (i: Icon) => i.(x := x, y := y)))
  }
}

=== FILE: calendar.dfy ===
/** The holiday calendar's month view (`src/apps/calendar/HolidayCalendar.tsx`): the cursor
    that always holds the 1st of a month, its Previous / Today / Next buttons, and the
    Monday-first grid of days built around the month. Days are day numbers of `Dates`. */
module Calendar {
  import opened Dates

  /** The month shown: the cursor `Date` is the 1st of month `month` of `year`. */
  datatype Cursor = Cursor(year: int, month: int)

  predicate ValidCursor(c: Cursor) {
    IsMonth(c.month)
  }

  /** The cursor's `Date`. */
  function FirstDay(c: Cursor): int
    requires ValidCursor(c)
  {
    MonthStart(c.year, c.month)
  }

  /** `new Date(y, m, 1)` as a cursor: a month index outside 0 to 11 carries into the year. */
  function FirstOf(y: int, m: int): (c: Cursor)
    ensures ValidCursor(c)
  {
    Cursor(y + m / 12, m % 12)
  }

  /** The cursor built from a year and month is the 1st of that month, read the way `Date`
      reads it. */
  lemma FirstOfReadsBack(y: int, m: int)
    ensures FirstDay(FirstOf(y, m)) == MakeDay(y, m, 1)
    ensures var c := FirstOf(y, m); CivilOf(MakeDay(y, m, 1)) == Civil(c.year, c.month, 1)
  {
    var c := FirstOf(y, m);
    CivilRoundTrip(Civil(c.year, c.month, 1));
  }

  /** The ‹ button: `new Date(y, m - 1, 1)`, January going back to December of the year
      before. */
  function Prev(c: Cursor): (r: Cursor)
    requires ValidCursor(c)
    ensures ValidCursor(r)
    ensures c.month == 0 ==> r == Cursor(c.year - 1, 11)
    ensures c.month > 0 ==> r == Cursor(c.year, c.month - 1)
  {
    FirstOf(c.year, c.month - 1)
  }

  /** The › button: `new Date(y, m + 1, 1)`, December going on to January of the next
      year. */
  function Next(c: Cursor): (r: Cursor)
    requires ValidCursor(c)
    ensures ValidCursor(r)
    ensures c.month == 11 ==> r == Cursor(c.year + 1, 0)
    ensures c.month < 11 ==> r == Cursor(c.year, c.month + 1)
  {
    FirstOf(c.year, c.month + 1)
  }

  /** The month before ends the day before the cursor's 1st, and the month after starts
      the day after the cursor month's last day: the buttons step by whole months. */
  lemma {:induction false} StepsAreWholeMonths(c: Cursor)
    requires ValidCursor(c)
    ensures FirstDay(Prev(c)) + DaysInMonth(Prev(c).year, Prev(c).month) == FirstDay(c)
    ensures FirstDay(Next(c)) == FirstDay(c) + DaysInMonth(c.year, c.month)
  {
    var p := Prev(c);
    NextMonthStart(p.year, p.month);
    assert MakeDay(p.year, p.month + 1, 1) == FirstDay(c);
    NextMonthStart(c.year, c.month);
    FirstOfReadsBack(c.year, c.month + 1);
  }

  /** The Today button (and the initial cursor): the month holding `today`. */
  function TodayCursor(today: int): (r: Cursor)
    ensures ValidCursor(r)
    ensures FirstDay(r) <= today < FirstDay(r) + DaysInMonth(r.year, r.month)
  {
    var t := CivilOf(today);
    assert MakeDay(t.year, t.month, t.day) == today;
    Cursor(t.year, t.month)
  }

  /** Next undoes Previous. */
  lemma NextUndoesPrev(c: Cursor)
    requires ValidCursor(c)
    ensures Next(Prev(c)) == c
  {}

  /** Previous undoes Next. */
  lemma PrevUndoesNext(c: Cursor)
    requires ValidCursor(c)
    ensures Prev(Next(c)) == c
  {}

  /** `end`, `new Date(y, m + 1, 0)`: the last day of the month. */
  function LastDay(c: Cursor): (n: int)
    requires ValidCursor(c)
    ensures n == FirstDay(c) + DaysInMonth(c.year, c.month) - 1
  {
    NextMonthStart(c.year, c.month);
    MakeDay(c.year, c.month + 1, 0)
  }

  /** `end.getDate()` is the month's length. */
  lemma LastDayDate(c: Cursor)
    requires ValidCursor(c)
    ensures CivilOf(LastDay(c)) == Civil(c.year, c.month, DaysInMonth(c.year, c.month))
  {
    CivilRoundTrip(Civil(c.year, c.month, DaysInMonth(c.year, c.month)));
  }

  /** Month cell `d` is `new Date(y, m, d)`, for `d` from 1 to `end.getDate()`, which is the
      month's length: the `d - 1`th day after the 1st, read back as day `d` of the month. */
  lemma MonthCellDates(c: Cursor)
    requires ValidCursor(c)
    ensures CivilOf(LastDay(c)).day == DaysInMonth(c.year, c.month)
    ensures forall d :: 1 <= d <= DaysInMonth(c.year, c.month) ==>
      MakeDay(c.year, c.month, d) == FirstDay(c) + d - 1 && CivilOf(MakeDay(c.year, c.month, d)) == Civil(c.year, c.month, d)
  {
    LastDayDate(c);
    forall d | 1 <= d <= DaysInMonth(c.year, c.month)
      ensures CivilOf(MakeDay(c.year, c.month, d)) == Civil(c.year, c.month, d)
    {
      CivilRoundTrip(Civil(c.year, c.month, d));
    }
  }

  /** `lead`: how many days of the previous month fill the first row up to the 1st, the
      month starting on day `start`. */
  function Lead(start: int): (n: int)
    ensures 0 <= n < 7
    ensures Weekday(start - n) == 1
  {
    MondayBefore(start);
    (Weekday(start) + 6) % 7
  }

  /** Going back `(getDay() + 6) % 7` days from any day reaches a Monday. */
  lemma MondayBefore(start: int)
    ensures Weekday(start - (Weekday(start) + 6) % 7) == 1
  {
    var w := Weekday(start);
    var q := (start + 4) / 7;
    assert start + 4 == 7 * q + w;
    var n := (w + 6) % 7;
    if w == 0 {
      assert n == 6 && start - n + 4 == 7 * (q - 1) + 1;
    } else {
      assert n == w - 1 && start - n + 4 == 7 * q + 1;
    }
  }

  /** The first loop: the `lead` days before the 1st, oldest first. */
  function Leading(start: int, lead: nat): (r: seq<int>)
    ensures |r| == lead
    ensures forall i :: 0 <= i < lead ==> r[i] + lead - i == start
  {
    seq(lead, i => start - (lead - i))
  }

  /** The second loop: the month's `n` days from its 1st. */
  function Run(start: int, n: nat): (r: seq<int>)
    ensures |r| == n
    ensures forall k :: 0 <= k < n ==> r[k] - k == start
  {
    seq(n, k => start + k)
  }

  /** The leading and month cells, before any padding. */
  function Body(start: int, n: nat): (r: seq<int>)
    ensures |r| == Lead(start) + n
  {
    Leading(start, Lead(start)) + Run(start, n)
  }

  /** How many cells the last row of `n` cells lacks: the number of times the padding
      loop runs. */
  function CellsToFill(n: int): (k: int)
    ensures 0 <= k < 7 && (n + k) % 7 == 0
    ensures n % 7 == 0 <==> k == 0
  {
    var r := n % 7;
    assert n == 7 * (n / 7) + r;
    if r == 0 then 0
    else
      assert n + (7 - r) == 7 * (n / 7 + 1);
      7 - r
  }

  /** One more cell leaves one fewer to fill. */
  lemma FillStep(n: int)
    requires n % 7 != 0
    ensures CellsToFill(n + 1) == CellsToFill(n) - 1
  {
    var q, r := n / 7, n % 7;
    assert n == 7 * q + r && n + 1 == 7 * q + (r + 1);
    if r < 6 {
      assert (n + 1) % 7 == r + 1;
    } else {
      assert n + 1 == 7 * (q + 1);
    }
  }

  /** The third loop as written: every padding cell is a copy of `end` moved one day on,
      so each of them is the same date. */
  function PadRepeating(days: seq<int>, fill: int): (r: seq<int>)
    ensures |r| == |days| + CellsToFill(|days|)
    ensures r[..|days|] == days
    ensures forall i :: |days| <= i < |r| ==> r[i] == fill
    decreases CellsToFill(|days|)
  {
    if |days| % 7 == 0 then days
    else
      FillStep(|days|);
      var r := PadRepeating(days + [fill], fill);
      assert r[..|days|] == (days + [fill])[..|days|];
      r
  }

  /** The third loop corrected: the padding continues the dates after `end`. */
  function PadCounting(days: seq<int>, next: int): (r: seq<int>)
    ensures |r| == |days| + CellsToFill(|days|)
    ensures r[..|days|] == days
    ensures forall i :: |days| <= i < |r| ==> r[i] == next + (i - |days|)
    decreases CellsToFill(|days|)
  {
    if |days| % 7 == 0 then days
    else
      FillStep(|days|);
      var r := PadCounting(days + [next], next + 1);
      assert r[..|days|] == (days + [next])[..|days|];
      r
  }

  /** The grid exactly as the source builds it for a month of `n` days starting on day
      `start`; `end` is `start + n - 1`. */
  function LayoutAsWritten(start: int, n: nat): seq<int> {
    PadRepeating(Body(start, n), start + n)
  }

  /** The grid the month view means to show. */
  function Layout(start: int, n: nat): seq<int> {
    PadCounting(Body(start, n), start + n)
  }

  /** The cursor month's grid as written. */
  function GridAsWritten(c: Cursor): seq<int>
    requires ValidCursor(c)
  {
    LayoutAsWritten(FirstDay(c), DaysInMonth(c.year, c.month))
  }

  /** The cursor month's grid, corrected. */
  function Grid(c: Cursor): seq<int>
    requires ValidCursor(c)
  {
    Layout(FirstDay(c), DaysInMonth(c.year, c.month))
  }

  /** Before padding, cell `i` is the `i`th day from the Monday that starts the first row:
      the leading cells are the days just before the 1st, then the month's days follow. */
  lemma {:induction false} BodyConsecutive(start: int, n: nat)
    ensures var b := Body(start, n); forall i :: 0 <= i < |b| ==> b[i] == start - Lead(start) + i
  {
    var lead := Lead(start);
    var l := Leading(start, lead);
    var m := Run(start, n);
    var b := Body(start, n);
    forall i | 0 <= i < |b|
      ensures b[i] == start - lead + i
    {
      if i < lead {
        assert b[i] == l[i];
      } else {
        assert b[i] == m[i - lead];
      }
    }
  }

  /** Whole weeks of at most 37 cells of content make at most six weeks. */
  lemma WeeksBound(n: int, r: int)
    requires r % 7 == 0 && n <= r < n + 7 && n <= 37
    ensures r <= 42
  {}

  /** Within seven consecutive counts only one is a multiple of seven. */
  lemma OneWholeWeekCount(n: int, r1: int, r2: int)
    requires r1 % 7 == 0 && n <= r1 < n + 7
    requires r2 % 7 == 0 && n <= r2 < n + 7
    ensures r1 == r2
  {
    var q1, q2 := r1 / 7, r2 / 7;
    assert r1 == 7 * q1 && r2 == 7 * q2;
    assert -7 < 7 * (q1 - q2) < 7;
  }

  /** Both grids of a month have whole weeks only, between four and six of them. */
  lemma LayoutShape(start: int, n: nat)
    requires 28 <= n <= 31
    ensures |Layout(start, n)| % 7 == 0 && 28 <= |Layout(start, n)| <= 42
    ensures |LayoutAsWritten(start, n)| == |Layout(start, n)|
  {
    var b := |Body(start, n)|;
    WeeksBound(b, |Layout(start, n)|);
    OneWholeWeekCount(b, |LayoutAsWritten(start, n)|, |Layout(start, n)|);
  }

  /** Every cursor month has a length the grid bounds allow. */
  lemma GridShape(c: Cursor)
    requires ValidCursor(c)
    ensures |Grid(c)| % 7 == 0 && 28 <= |Grid(c)| <= 42
    ensures |GridAsWritten(c)| == |Grid(c)|
  {
    LayoutShape(FirstDay(c), DaysInMonth(c.year, c.month));
  }

  /** Moving `i` days on from a Monday lands on weekday `(i + 1) % 7`. */
  lemma WeekdayShift(monday: int, i: int)
    requires Weekday(monday) == 1 && i >= 0
    ensures Weekday(monday + i) == (i + 1) % 7
  {
    var q := (monday + 4) / 7;
    assert monday + 4 == 7 * q + 1;
    var k := (i + 1) / 7;
    assert i + 1 == 7 * k + (i + 1) % 7;
    assert monday + i + 4 == 7 * (q + k) + (i + 1) % 7;
  }

  /** The corrected grid is a run of consecutive days starting on a Monday, so every cell sits
      under the header of its own weekday (Mon to Sun). */
  lemma {:induction false} LayoutConsecutive(start: int, n: nat)
    ensures var g := Layout(start, n);
      forall i :: 0 <= i < |g| ==> g[i] == start - Lead(start) + i && Weekday(g[i]) == (i + 1) % 7
  {
    var b := Body(start, n);
    var base := start - Lead(start);
    var g := Layout(start, n);
    BodyConsecutive(start, n);
    forall i | 0 <= i < |g|
      ensures g[i] == base + i && Weekday(g[i]) == (i + 1) % 7
    {
      if i < |b| {
        assert g[..|b|][i] == b[i];
      }
      WeekdayShift(base, i);
    }
  }

  /** Both grids hold the leading and month cells first; only the padding differs. */
  lemma LayoutsShareBody(start: int, n: nat)
    ensures LayoutAsWritten(start, n)[..|Body(start, n)|] == Body(start, n)
    ensures Layout(start, n)[..|Body(start, n)|] == Body(start, n)
  {}

  /** As written, every padding cell is the day after the month's last day. */
  lemma PaddingRepeats(start: int, n: nat)
    ensures var g := LayoutAsWritten(start, n);
      forall i :: |Body(start, n)| <= i < |g| ==> g[i] == start + n
  {}

  /** March 1970 starts on a Sunday: six leading days and 31 days leave five padding cells,
      and the grid as written shows April 1st in all five. */
  lemma PaddingRepeatsInMarch1970()
    ensures FirstDay(Cursor(1970, 2)) == 59 && DaysInMonth(1970, 2) == 31
    ensures var g := LayoutAsWritten(59, 31);
      |g| == 42 && g[37] == g[41] == MakeDay(1970, 3, 1)
  {
    assert MonthOffset(1970, 2) == 59;
    assert Weekday(59) == 0 && Lead(59) == 6;
    assert |Body(59, 31)| == 37;
    PaddingRepeats(59, 31);
    assert MakeDay(1970, 3, 1) == 90;
  }

  /** `isToday`: the same year, month and date as today, which is the same day. */
  predicate IsToday(cell: int, today: int) {
    CivilOf(cell) == CivilOf(today)
  }

  lemma IsTodayIffSameDay(cell: int, today: int)
    ensures IsToday(cell, today) <==> cell == today
  {}
}

=== FILE: commandbus.dfy ===
/** The command bus (`src/lib/commandBus.ts`): handler lists per command id. Handlers
    are compared by identity in the source; here they are values of any equality type.
    Dispatching returns the calls made, in order, instead of running them. */
module CommandBus {
  import opened Seqs

  type Bus<H> = map<string, seq<H>>

  /** `this.handlers[id] || []`. */
  function HandlersOf<H>(b: Bus<H>, id: string): (hs: seq<H>)
    ensures id !in b ==> hs == []
    ensures id in b ==> hs == b[id]
  {
    if id in b then b[id] else []
  }

  /** `on`: the handler is appended to the id's list; duplicates are kept. */
  function On<H>(b: Bus<H>, id: string, h: H): (r: Bus<H>)
    ensures id in r && r[id] == HandlersOf(b, id) + [h]
    ensures forall k :: k != id ==> (k in r <==> k in b)
    ensures forall k :: k != id && k in b ==> r[k] == b[k]
  {
    b[id := HandlersOf(b, id) + [h]]
  }

  /** `off`: every registration of the handler under that id is dropped, the rest keep
      their order; the id's entry exists afterwards even if it did not before. */
  function Off<H(==,!new)>(b: Bus<H>, id: string, h: H): (r: Bus<H>)
    ensures id in r && h !in r[id]
    ensures forall g :: g in r[id] <==> g in HandlersOf(b, id) && g != h
    ensures r[id] == Filter(g => g != h, HandlersOf(b, id))
    ensures forall k :: k != id ==> (k in r <==> k in b)
    ensures forall k :: k != id && k in b ==> r[k] == b[k]
  {
    b[id := Without(HandlersOf(b, id), h)]
  }

  /** `dispatch`: the calls made, one per registration, in registration order, each
      with the same payload. */
  function Dispatch<H, P>(b: Bus<H>, id: string, payload: P): (calls: seq<(H, P)>)
    ensures |calls| == |HandlersOf(b, id)|
    ensures forall i :: 0 <= i < |calls| ==> calls[i] == (HandlersOf(b, id)[i], payload)
    ensures id !in b ==> calls == []
  {
    Calls(HandlersOf(b, id), payload)
  }

  function Calls<H, P>(hs: seq<H>, payload: P): (calls: seq<(H, P)>)
    ensures |calls| == |hs|
    ensures forall i :: 0 <= i < |hs| ==> calls[i] == (hs[i], payload)
  {
    if hs == [] then [] else [(hs[0], payload)] + Calls(hs[1..], payload)
  }

  /** Registering then dispatching calls the new handler last. */
  lemma {:induction false} DispatchAfterOn<H, P>(b: Bus<H>, id: string, h: H, payload: P)
    ensures Dispatch(On(b, id, h), id, payload) == Dispatch(b, id, payload) + [(h, payload)]
  {
    var hs := HandlersOf(b, id);
    CallsAppend(hs, h, payload);
  }

  lemma {:induction false} CallsAppend<H, P>(hs: seq<H>, h: H, payload: P)
    ensures Calls(hs + [h], payload) == Calls(hs, payload) + [(h, payload)]
  {
    if hs != [] {
      assert (hs + [h])[1..] == hs[1..] + [h];
      CallsAppend(hs[1..], h, payload);
    }
  }

  /** `off` undoes `on` for a handler that was not registered under that id. */
  lemma OffUndoesOn<H(!new)>(b: Bus<H>, id: string, h: H)
    requires id in b && h !in b[id]
    ensures Off(On(b, id, h), id, h) == b
  {
    var p := y => y != h;
    FilterConcat(p, b[id], [h]);
    assert Filter(p, [h]) == [];
    var m := On(b, id, h);
    assert m == b[id := b[id] + [h]];
    assert Without(m[id], h) == b[id];
    assert Off(m, id, h) == b[id := b[id] + [h]][id := b[id]];
    RestoreEntry(b, id, b[id] + [h]);
  }

  /** Dispatching after `off` never calls the removed handler. */
  lemma DispatchAfterOff<H(!new), P>(b: Bus<H>, id: string, h: H, payload: P)
    ensures forall c :: c in Dispatch(Off(b, id, h), id, payload) ==> c.0 != h
  {
    var calls := Dispatch(Off(b, id, h), id, payload);
    forall c | c in calls ensures c.0 != h {
      var i :| 0 <= i < |calls| && calls[i] == c;
      assert c.0 == Off(b, id, h)[id][i];
    }
  }
}

=== FILE: dates.dfy ===
/** Calendar arithmetic standing in for JavaScript's `Date` in local time: a day is
    numbered by its distance from 1970-01-01 (day 0, a Thursday), a moment is a day number
    with the milliseconds elapsed since its midnight, months are indexed 0 to 11 as `getMonth()`
    does, and the proleptic Gregorian calendar applies in every year. */
module Dates {

  const DayMs: int := 86_400_000

  predicate IsLeap(y: int) {
    y % 4 == 0 && (y % 100 != 0 || y % 400 == 0)
  }

  function YearLength(y: int): (n: int)
    ensures n == 365 || n == 366
    ensures n == 366 <==> IsLeap(y)
  {
    if IsLeap(y) then 366 else 365
  }

  predicate IsMonth(m: int) { 0 <= m < 12 }

  /** The number of days of month `m` (0 = January) of year `y`. */
  function DaysInMonth(y: int, m: int): (n: int)
    requires IsMonth(m)
    ensures 28 <= n <= 31
    ensures m == 1 ==> (n == 29 <==> IsLeap(y))
  {
    if m == 1 then (if IsLeap(y) then 29 else 28)
    else if m == 3 || m == 5 || m == 8 || m == 10 then 30
    else 31
  }

  /** The day number of January 1st of `y`. */
  function YearStart(y: int): int
    decreases if y < 1970 then 1970 - y else y - 1970
  {
    if y == 1970 then 0
    else if y > 1970 then YearStart(y - 1) + YearLength(y - 1)
    else YearStart(y + 1) - YearLength(y)
  }

  lemma YearStartStep(y: int)
    ensures YearStart(y + 1) == YearStart(y) + YearLength(y)
  {}

  /** Later years start later. */
  lemma {:induction false} YearStartMono(a: int, b: int)
    requires a < b
    ensures YearStart(a) < YearStart(b)
    decreases b - a
  {
    YearStartStep(a);
    if a + 1 < b { YearStartMono(a + 1, b); }
  }

  /** The days of the months of `y` before month `m`. */
  function MonthOffset(y: int, m: int): (n: int)
    requires 0 <= m <= 12
    ensures 0 <= n <= 31 * m
    ensures m > 0 ==> n >= 28 * m
  {
    if m == 0 then 0 else MonthOffset(y, m - 1) + DaysInMonth(y, m - 1)
  }

  /** The twelve months fill the year exactly. */
  lemma MonthsFillYear(y: int)
    ensures MonthOffset(y, 12) == YearLength(y)
  {
    var f := DaysInMonth(y, 1);
    assert MonthOffset(y, 2) == 31 + f;
    assert MonthOffset(y, 4) == 92 + f;
    assert MonthOffset(y, 6) == 153 + f;
    assert MonthOffset(y, 8) == 215 + f;
    assert MonthOffset(y, 10) == 276 + f;
    assert MonthOffset(y, 12) == 337 + f;
  }

  /** Later months of a year start later. */
  lemma {:induction false} MonthOffsetMono(y: int, a: int, b: int)
    requires 0 <= a < b <= 12
    ensures MonthOffset(y, a) < MonthOffset(y, b)
    decreases b - a
  {
    if a + 1 < b { MonthOffsetMono(y, a + 1, b); }
  }

  /** The day number of the 1st of month `m` of `y`. */
  function MonthStart(y: int, m: int): int
    requires IsMonth(m)
  {
    YearStart(y) + MonthOffset(y, m)
  }

  /** `new Date(y, m, d)`: an out-of-range month carries into the year and an out-of-range
      day into the neighbouring months. */
  function MakeDay(y: int, m: int, d: int): (n: int)
    ensures IsMonth(m) ==> n == MonthStart(y, m) + d - 1
  {
    MonthStart(y + m / 12, m % 12) + d - 1
  }

  /** Day 0 of the next month is the last day of this one (`new Date(y, m + 1, 0)`). */
  lemma {:induction false} NextMonthStart(y: int, m: int)
    requires IsMonth(m)
    ensures MakeDay(y, m + 1, 1) == MonthStart(y, m) + DaysInMonth(y, m)
  {
    if m == 11 {
      YearStartStep(y);
      MonthsFillYear(y);
      assert MakeDay(y, m + 1, 1) == MonthStart(y + 1, 0);
    } else {
      assert MakeDay(y, m + 1, 1) == MonthStart(y, m + 1);
    }
  }

  /** `getDay()`: 0 is Sunday; day 0 was a Thursday. */
  function Weekday(n: int): (w: int)
    ensures 0 <= w < 7
  {
    (n + 4) % 7
  }

  /** The year holding day `n`: `getFullYear()`. */
  function YearOf(n: int): (y: int)
    ensures YearStart(y) <= n < YearStart(y + 1)
  {
    YearUp(n, YearDown(n, 1970))
  }

  function YearDown(n: int, y: int): (r: int)
    ensures YearStart(r) <= n
    decreases YearStart(y) - n
  {
    if YearStart(y) <= n then y
    else
      YearStartStep(y - 1);
      YearDown(n, y - 1)
  }

  function YearUp(n: int, y: int): (r: int)
    requires YearStart(y) <= n
    ensures YearStart(r) <= n < YearStart(r + 1)
    decreases n - YearStart(y)
  {
    YearStartStep(y);
    if n < YearStart(y + 1) then y else YearUp(n, y + 1)
  }

  /** The month of year `y` holding day `n`, searching from month `m`. */
  function MonthFrom(n: int, y: int, m: int): (r: int)
    requires IsMonth(m) && MonthStart(y, m) <= n < YearStart(y + 1)
    ensures IsMonth(r) && MonthStart(y, r) <= n < MonthStart(y, r) + DaysInMonth(y, r)
    decreases 12 - m
  {
    if m == 11 then
      YearStartStep(y);
      MonthsFillYear(y);
      m
    else if n < MonthStart(y, m + 1) then m
    else MonthFrom(n, y, m + 1)
  }

  datatype Civil = Civil(year: int, month: int, day: int)

  predicate ValidCivil(c: Civil) {
    IsMonth(c.month) && 1 <= c.day <= DaysInMonth(c.year, c.month)
  }

  function DayOfCivil(c: Civil): int {
    MakeDay(c.year, c.month, c.day)
  }

  /** `getFullYear()`, `getMonth()` and `getDate()` of day `n`. */
  function CivilOf(n: int): (c: Civil)
    ensures ValidCivil(c)
    ensures DayOfCivil(c) == n
  {
    var y := YearOf(n);
    var m := MonthFrom(n, y, 0);
    Civil(y, m, n - MonthStart(y, m) + 1)
  }

  /** A day lies in exactly one year. */
  lemma YearOfUnique(n: int, y: int)
    requires YearStart(y) <= n < YearStart(y + 1)
    ensures YearOf(n) == y
  {
    var r := YearOf(n);
    if r < y {
      if r + 1 < y { YearStartMono(r + 1, y); }
    } else if r > y {
      if y + 1 < r { YearStartMono(y + 1, r); }
    }
  }

  /** A day of year `y` lies in exactly one of its months. */
  lemma MonthFromUnique(n: int, y: int, m: int)
    requires IsMonth(m) && MonthStart(y, m) <= n < MonthStart(y, m) + DaysInMonth(y, m)
    requires MonthStart(y, 0) <= n < YearStart(y + 1)
    ensures MonthFrom(n, y, 0) == m
  {
    var r := MonthFrom(n, y, 0);
    if r < m {
      if r + 1 < m { MonthOffsetMono(y, r + 1, m); }
    } else if r > m {
      if m + 1 < r { MonthOffsetMono(y, m + 1, r); }
    }
  }

  /** Every valid date is read back from its day number: the two representations agree. */
  lemma {:induction false} CivilRoundTrip(c: Civil)
    requires ValidCivil(c)
    ensures CivilOf(DayOfCivil(c)) == c
  {
    var n := DayOfCivil(c);
    MonthsFillYear(c.year);
    YearStartStep(c.year);
    if c.month < 11 { MonthOffsetMono(c.year, c.month + 1, 12); }
    YearOfUnique(n, c.year);
    MonthFromUnique(n, c.year, c.month);
  }

  /** The year of a valid date is its own year. */
  lemma YearOfDay(y: int, m: int, d: int)
    requires IsMonth(m) && 1 <= d <= DaysInMonth(y, m)
    ensures YearOf(MakeDay(y, m, d)) == y
  {
    CivilRoundTrip(Civil(y, m, d));
  }

  /** A moment of local time: its day number and the milliseconds since that day's
      midnight (`0 <= ms < DayMs` for the moments a `Date` can hold). */
  datatype Moment = Moment(day: int, ms: int)

  /** `a <= b` on two `Date` values: their time values compared. */
  predicate NotAfter(a: Moment, b: Moment) {
    a.day < b.day || (a.day == b.day && a.ms <= b.ms)
  }

  /** `new Date(y, m, d)`: midnight of that day. */
  function Midnight(y: int, m: int, d: int): (t: Moment)
    ensures t.day == MakeDay(y, m, d) && t.ms == 0
  {
    Moment(MakeDay(y, m, d), 0)
  }
}

=== FILE: desktop.dfy ===
/** The desktop (`src/components/Desktop.tsx`): icon columns, the hourly holiday-theme
    update, the `theme:changed` handler, which wallpaper is shown, and the context-menu
    actions. The viewport, the clock and the random id suffix are parameters; the wallpaper
    URL the page shows is an explicit string passed in and handed back. */
module Desktop {
  import opened Wrappers
  import opened Seqs
  import opened Strs
  import opened Ui
  import opened Apps
  import opened Prefs
  import opened Dates
  import opened Holidays

  /* ---------------------------------------------------------------------- */
  /* Icon columns                                                           */
  /* ---------------------------------------------------------------------- */

  /** `Math.floor((innerHeight - 100) / 80)`: how many icons fit in one column. */
  function MaxPerColumn(vh: real): int {
    ((vh - 100.0) / 80.0).Floor
  }

  /** The loop `for (i = from; i < n; i += k) cols.push(icons.slice(i, i + k))` for a
      step of at least one. */
  function ChunksFrom<T>(icons: seq<T>, k: nat, i: nat): (r: seq<seq<T>>)
    requires k >= 1
    ensures Flatten(r) == if i < |icons| then icons[i..] else []
    ensures forall j :: 0 <= j < |r| ==> 1 <= |r[j]| <= k
    ensures forall j :: 0 <= j < |r| - 1 ==> |r[j]| == k
    decreases |icons| - i
  {
    if i >= |icons| then []
    else
      var end := if i + k < |icons| then i + k else |icons|;
      var chunk := icons[i..end];
      var rest := ChunksFrom(icons, k, i + k);
      assert Flatten(rest) == icons[end..];
      FlattenCons(chunk, rest);
      assert icons[i..] == chunk + icons[end..];
      ChunkSizes(chunk, rest, k);
      [chunk] + rest
  }

  /** A column of at most `k` icons, full when more columns follow, put in front of
      columns that keep the same shape keeps that shape. */
  lemma ChunkSizes<T>(chunk: seq<T>, rest: seq<seq<T>>, k: nat)
    requires 1 <= |chunk| <= k && (rest != [] ==> |chunk| == k)
    requires forall j :: 0 <= j < |rest| ==> 1 <= |rest[j]| <= k
    requires forall j :: 0 <= j < |rest| - 1 ==> |rest[j]| == k
    ensures forall j :: 0 <= j < |rest| + 1 ==> 1 <= |([chunk] + rest)[j]| <= k
    ensures forall j :: 0 <= j < |rest| ==> |([chunk] + rest)[j]| == k
  {
    var r := [chunk] + rest;
    forall j | 0 <= j < |rest| + 1 ensures 1 <= |r[j]| <= k && (j < |rest| ==> |r[j]| == k) {
      if j > 0 { assert r[j] == rest[j - 1]; }
    }
  }

  /** `columns` as written: with fewer than one icon per column the loop counter never
      advances, so a non-empty desktop never finishes its layout (`None`). */
  function Columns<T>(icons: seq<T>, vh: real): (r: Option<seq<seq<T>>>)
    ensures r.None? <==> icons != [] && vh < 180.0
    ensures r.Some? ==> Flatten(r.value) == icons
    ensures r.Some? ==> forall j :: 0 <= j < |r.value| ==> 1 <= |r.value[j]| <= MaxPerColumn(vh)
    ensures r.Some? ==> forall j :: 0 <= j < |r.value| - 1 ==> |r.value[j]| == MaxPerColumn(vh)
  {
    var k := MaxPerColumn(vh);
    if icons == [] then Some([])
    else if k <= 0 then None
    else Some(ChunksFrom(icons, k, 0))
  }

  /** Any window lower than 180 pixels stalls the layout of a non-empty desktop. */
  lemma ShortWindowStalls(icon: Icon)
    ensures MaxPerColumn(179.0) == 0
    ensures Columns([icon], 179.0).None?
  {}

  /** The columns with at least one icon per column: every icon appears once, in order,
      and only the last column may be short. */
  function ClampedColumns<T>(icons: seq<T>, vh: real): (r: seq<seq<T>>)
    ensures Flatten(r) == icons
    ensures forall j :: 0 <= j < |r| ==> 1 <= |r[j]|
    ensures forall j :: 0 <= j < |r| ==> |r[j]| <= (if MaxPerColumn(vh) >= 1 then MaxPerColumn(vh) else 1)
    ensures forall j :: 0 <= j < |r| - 1 ==> |r[j]| == (if MaxPerColumn(vh) >= 1 then MaxPerColumn(vh) else 1)
    ensures Columns(icons, vh).Some? ==> r == Columns(icons, vh).value
  {
    var k := MaxPerColumn(vh);
    ChunksFrom(icons, if k >= 1 then k else 1, 0)
  }

  /* ---------------------------------------------------------------------- */
  /* Hourly holiday theme                                                   */
  /* ---------------------------------------------------------------------- */

  /** The theme ids the theme table defines (`ThemeId`). */
  const ThemeIds: seq<string> := [
    "theme_new_year", "theme_valentines", "theme_halloween", "theme_thanksgiving",
    "theme_christmas", "theme_cny", "theme_eid", "theme_nigeria_independence"
  ]

  /** The theme id as the hourly update derives it from the holiday id: `theme_` and the
      id with every `-` made `_`. */
  function DerivedThemeId(holidayId: string): (t: string)
    ensures StartsWith(t, "theme_") && |t| == |holidayId| + 6
    ensures forall i :: 6 <= i < |t| ==> t[i] != '-'
    ensures forall i :: 6 <= i < |t| && holidayId[i - 6] != '-' ==> t[i] == holidayId[i - 6]
  {
    "theme_" + ReplaceChar(holidayId, '-', '_')
  }

  /** The state update of `updateHolidayTheme` for the new id: nothing when it equals the
      active theme; otherwise the override becomes the new id and the active theme the new
      id, or stays as it was when there is none. */
  function UpdateHolidayTheme(s: PrefsState, newId: Option<string>): (r: PrefsState)
    ensures newId == s.activeTheme ==> r == s
    ensures newId != s.activeTheme ==> r.prefs == s.prefs.(holidayThemeOverride := newId)
    ensures newId.Some? ==> r.activeTheme == newId
    ensures newId.None? ==> r.activeTheme == s.activeTheme
  {
    if newId == s.activeTheme then s
    else PrefsState(s.prefs.(holidayThemeOverride := newId), if newId.Some? then newId else s.activeTheme)
  }

  /** Running the update twice in the same hour changes nothing the first run did not. */
  lemma UpdateHolidayThemeIdempotent(s: PrefsState, newId: Option<string>)
    ensures UpdateHolidayTheme(UpdateHolidayTheme(s, newId), newId) == UpdateHolidayTheme(s, newId)
  {}

  /** A new holiday theme is applied exactly as `applyHolidayTheme` applies a theme whose
      pack has no wallpaper: the hourly update never touches the wallpaper. */
  lemma UpdateIsApplyWithoutWallpaper(s: PrefsState, packs: ThemePacks, theme: string)
    requires s.activeTheme != Some(theme) && ThemeWallpaper(packs, theme).None?
    ensures UpdateHolidayTheme(s, Some(theme)) == ApplyHolidayTheme(s, packs, theme)
  {}

  /** The hourly update as written, for today's holiday (if any). */
  function HourlyUpdateAsWritten(s: PrefsState, active: Option<Holiday>): (r: PrefsState)
    ensures active.None? ==> r.activeTheme == s.activeTheme
    ensures active.Some? ==> r.activeTheme == Some(DerivedThemeId(active.value.id))
  {
    UpdateHolidayTheme(s, if active.Some? then Some(DerivedThemeId(active.value.id)) else None)
  }

  /** The built-in Thanksgiving holiday (whose record carries the definition's id and
      theme) has id `thanksgiving_us`, so the as-written update makes
      `theme_thanksgiving_us` the active theme, a name no theme has, although the holiday
      itself names `theme_thanksgiving`. */
  lemma ThanksgivingThemeMismatch(s: PrefsState, h: Holiday)
    requires h.id == LocalDefs[3].id && h.themeId == LocalDefs[3].themeId
    ensures HourlyUpdateAsWritten(s, Some(h)).activeTheme == Some("theme_" + h.id) && h.id == "thanksgiving_us"
    ensures HourlyUpdateAsWritten(s, Some(h)).activeTheme.value !in ThemeIds
    ensures HourlyUpdate(s, Some(h)).activeTheme == Some("theme_thanksgiving") && h.themeId in ThemeIds
  {
    assert h.id == "thanksgiving_us" && h.themeId == "theme_thanksgiving";
    DerivedWithoutDash(h.id);
    assert ThemeIds[3] == h.themeId;
    forall i | 0 <= i < |ThemeIds| ensures ThemeIds[i] != "theme_" + h.id {
      assert |ThemeIds[i]| != 21;
    }
  }

  /** An id without `-` only gains the prefix. */
  lemma DerivedWithoutDash(id: string)
    requires '-' !in id
    ensures DerivedThemeId(id) == "theme_" + id
  {
    ReplaceAbsent(id, '-', '_');
  }

  /** The hourly update using the theme the holiday names. */
  function HourlyUpdate(s: PrefsState, active: Option<Holiday>): (r: PrefsState)
    ensures active.None? ==> r.activeTheme == s.activeTheme
    ensures active.Some? ==> r.activeTheme == Some(active.value.themeId)
    ensures active.Some? && Some(active.value.themeId) != s.activeTheme ==>
      r.prefs == s.prefs.(holidayThemeOverride := Some(active.value.themeId))
  {
    UpdateHolidayTheme(s, if active.Some? then Some(active.value.themeId) else None)
  }

  /** Every built-in holiday names one of the known themes. */
  lemma LocalThemesKnown()
    ensures forall i :: 0 <= i < |LocalDefs| ==> LocalDefs[i].themeId in ThemeIds
  {}

  /* ---------------------------------------------------------------------- */
  /* Which wallpaper is shown                                               */
  /* ---------------------------------------------------------------------- */

  /** A wallpaper the user chose: it has a URL and is not from the themes folder. */
  predicate IsUserWallpaper(wp: Option<Wallpaper>) {
    wp.Some? && wp.value.full != "" && wp.value.folder != Some("themes")
  }

  /** `holidayTheme || activeTheme`: an empty override counts as none. */
  function CurrentTheme(s: PrefsState): (t: Option<string>)
    ensures t.Some? && t != s.activeTheme ==> t == s.prefs.holidayThemeOverride && t.value != ""
    ensures t == s.activeTheme || t == s.prefs.holidayThemeOverride
  {
    match s.prefs.holidayThemeOverride
    case Some(h) => if h != "" then Some(h) else s.activeTheme
    case None => s.activeTheme
  }

  /** The wallpaper URL of the pack of `theme`, when there is such a pack with a URL. */
  function PackUrl(packs: ThemePacks, theme: Option<string>): (u: Option<string>)
    ensures u.Some? <==> theme.Some? && theme.value != "" && ThemeWallpaper(packs, theme.value).Some?
    ensures u.Some? ==> u.value == packs[theme.value].wallpaperUrl.value && u.value != ""
  {
    if theme.Some? && theme.value != "" && ThemeWallpaper(packs, theme.value).Some? then
      Some(ThemeWallpaper(packs, theme.value).value.full)
    else None
  }

  /** The reactive wallpaper effect: the URL shown after it runs, given the URL shown
      before. Nothing changes until the themes are loaded; then a user wallpaper wins over
      the current theme's pack wallpaper, which wins over the stored wallpaper. */
  function ShownWallpaper(themesLoaded: bool, s: PrefsState, packs: ThemePacks, shown: string): (r: string)
    ensures !themesLoaded ==> r == shown
    ensures themesLoaded && IsUserWallpaper(s.prefs.wallpaper) ==> r == s.prefs.wallpaper.value.full
    ensures themesLoaded && !IsUserWallpaper(s.prefs.wallpaper) && PackUrl(packs, CurrentTheme(s)).Some? ==>
      r == PackUrl(packs, CurrentTheme(s)).value
    ensures themesLoaded && !IsUserWallpaper(s.prefs.wallpaper) && PackUrl(packs, CurrentTheme(s)).None? ==>
      r == (if s.prefs.wallpaper.Some? && s.prefs.wallpaper.value.full != "" then s.prefs.wallpaper.value.full else shown)
    ensures r == shown || (s.prefs.wallpaper.Some? && r == s.prefs.wallpaper.value.full)
            || r == PackUrl(packs, CurrentTheme(s)).GetOr(shown)
  {
    if !themesLoaded then shown
    else if IsUserWallpaper(s.prefs.wallpaper) then s.prefs.wallpaper.value.full
    else match PackUrl(packs, CurrentTheme(s))
      case Some(u) => u
      case None => if s.prefs.wallpaper.Some? && s.prefs.wallpaper.value.full != "" then s.prefs.wallpaper.value.full else shown
  }

  /** The mount effect: a stored wallpaper with a URL is put on screen at once, before
      any theme is known; otherwise the screen keeps what it shows. */
  function Mounted(s: PrefsState, shown: string): (r: string)
    ensures r == shown || (s.prefs.wallpaper.Some? && r == s.prefs.wallpaper.value.full && r != "")
    ensures s.prefs.wallpaper.Some? && s.prefs.wallpaper.value.full != "" ==> r != ""
  {
    if s.prefs.wallpaper.Some? && s.prefs.wallpaper.value.full != "" then s.prefs.wallpaper.value.full else shown
  }

  /** A user wallpaper restored on mount stays on screen once the themes load: the
      reactive effect shows the same URL. */
  lemma MountedUserWallpaperStays(s: PrefsState, packs: ThemePacks, shown: string)
    requires IsUserWallpaper(s.prefs.wallpaper)
    ensures ShownWallpaper(true, s, packs, Mounted(s, shown)) == Mounted(s, shown)
    ensures ShownWallpaper(false, s, packs, Mounted(s, shown)) == Mounted(s, shown)
  {}

  /** A user wallpaper is shown whatever the themes, the theme packs and the URL shown
      before. */
  lemma UserWallpaperWins(s: PrefsState, packs: ThemePacks, shown: string,
                          override: Option<string>, active: Option<string>, packs2: ThemePacks, shown2: string)
    requires IsUserWallpaper(s.prefs.wallpaper)
    ensures ShownWallpaper(true, s, packs, shown) ==
      ShownWallpaper(true, PrefsState(s.prefs.(holidayThemeOverride := override), active), packs2, shown2)
  {}

  /** Once a holiday theme with a pack wallpaper is applied, its wallpaper is shown, even
      over a user wallpaper that was set before. */
  lemma ShownAfterApply(s: PrefsState, packs: ThemePacks, theme: string, shown: string)
    requires theme != "" && ThemeWallpaper(packs, theme).Some?
    ensures ShownWallpaper(true, ApplyHolidayTheme(s, packs, theme), packs, shown) == packs[theme].wallpaperUrl.value
  {}

  /** Clearing the holiday theme afterwards does not bring the previous wallpaper back:
      the pack wallpaper applying stored stays on screen. */
  lemma ShownAfterClear(s: PrefsState, packs: ThemePacks, theme: string, shown: string)
    requires theme != "" && ThemeWallpaper(packs, theme).Some?
    ensures ShownWallpaper(true, ClearHolidayTheme(ApplyHolidayTheme(s, packs, theme)), packs, shown)
      == packs[theme].wallpaperUrl.value
  {
    ClearKeepsThemeWallpaper(s, packs, theme);
  }

  /** The `theme:changed` handler: a theme whose pack has a wallpaper sets that wallpaper
      and shows it; anything else shows the user wallpaper if there is one and otherwise
      leaves the screen alone. The store changes only in the first case. */
  function ThemeChanged(s: PrefsState, packs: ThemePacks, detail: Option<string>, shown: string): (r: (PrefsState, string))
    ensures PackUrl(packs, detail).Some? ==>
      r.0 == SetWallpaper(s, ThemeWallpaper(packs, detail.value)) && r.1 == PackUrl(packs, detail).value
    ensures PackUrl(packs, detail).None? ==> r.0 == s
    ensures PackUrl(packs, detail).None? && IsUserWallpaper(s.prefs.wallpaper) ==> r.1 == s.prefs.wallpaper.value.full
    ensures PackUrl(packs, detail).None? && !IsUserWallpaper(s.prefs.wallpaper) ==> r.1 == shown
  {
    match PackUrl(packs, detail)
    case Some(u) => (SetWallpaper(s, ThemeWallpaper(packs, detail.value)), u)
    case None => (s, if IsUserWallpaper(s.prefs.wallpaper) then s.prefs.wallpaper.value.full else shown)
  }

  /** When the event names the current theme, the reactive effect that follows keeps the
      wallpaper the handler put on screen. */
  lemma ThemeChangedSettles(s: PrefsState, packs: ThemePacks, theme: string, shown: string)
    requires CurrentTheme(s) == Some(theme) && PackUrl(packs, Some(theme)).Some?
    ensures var r := ThemeChanged(s, packs, Some(theme), shown);
      ShownWallpaper(true, r.0, packs, r.1) == r.1
  {}

  /* ---------------------------------------------------------------------- */
  /* Context-menu actions                                                   */
  /* ---------------------------------------------------------------------- */

  /** The folder icon `newFolder` builds at clock reading `now`: its id is `folder-` and
      the decimal digits of `now`, it launches nothing and sits at (100, 100). */
  function FolderIcon(now: nat): (icon: Icon)
    ensures StartsWith(icon.id, "folder-") && AllDigits(icon.id[7..]) && DigitsValue(icon.id[7..]) == now
    ensures icon.title == "Untitled Folder" && icon.iconUrl == Some("/icons/folder-generic.png")
    ensures icon.launcher.NoLaunch? && !icon.pinned && icon.x == 100.0 && icon.y == 100.0
  {
    var id := "folder-" + NatToString(now);
    assert id[7..] == NatToString(now);
    NatToStringRoundTrip(now);
    Icon(id, "Untitled Folder", Some("/icons/folder-generic.png"), false, NoLaunch, 100.0, 100.0)
  }

  /** `newFolder`: exactly one icon is appended to the desktop; the trash is untouched. */
  function NewFolder(s: AppsState, now: nat): (r: AppsState)
    ensures |r.desktopIcons| == |s.desktopIcons| + 1
    ensures r.desktopIcons[..|s.desktopIcons|] == s.desktopIcons
    ensures r.desktopIcons[|s.desktopIcons|] == FolderIcon(now)
    ensures r.trash == s.trash
  {
    var icons := s.desktopIcons + [FolderIcon(now)];
    assert icons[..|s.desktopIcons|] == s.desktopIcons;
    s.(desktopIcons := icons)
  }

  /** Folders made at different clock readings have different ids. */
  lemma FolderIdsDiffer(t1: nat, t2: nat)
    requires t1 != t2
    ensures FolderIcon(t1).id != FolderIcon(t2).id
  {}

  const WallpapersWidth: real := 640.0
  const WallpapersHeight: real := 420.0

  /** `openWallpapers`: a new wallpapers window centred horizontally and a third of the way
      down, opened and focused. */
  function OpenWallpapers(s: UiState, vw: real, vh: real, suffix: string): (r: UiState)
    ensures var id := LaunchId("wallpapers", suffix);
      && id in r.windows
      && r.windows[id] == NewWindow(id, "wallpapers", PlacedBounds(vw, vh, WallpapersWidth, WallpapersHeight), None)
      && AgreeExcept(r.windows, s.windows, id)
      && |r.focusStack| > 0 && r.focusStack[|r.focusStack| - 1] == id
      && r.focusStack[..|r.focusStack| - 1] == Without(s.focusStack, id)
      && (forall d :: d in r.dock <==> d in s.dock && d.winId != id)
  {
    var id := LaunchId("wallpapers", suffix);
    var o := Open(s, NewWindow(id, "wallpapers", PlacedBounds(vw, vh, WallpapersWidth, WallpapersHeight), None));
    MoveToEndTwice(s.focusStack, id);
    Focus(o, id)
  }

  /** Opening the wallpapers window keeps the store well-formed and shows the window. */
  lemma OpenWallpapersWellFormed(s: UiState, vw: real, vh: real, suffix: string)
    requires WellFormed(s)
    ensures var r := OpenWallpapers(s, vw, vh, suffix);
      WellFormed(r) && !r.windows[LaunchId("wallpapers", suffix)].minimized
  {
    var id := LaunchId("wallpapers", suffix);
    var w := NewWindow(id, "wallpapers", PlacedBounds(vw, vh, WallpapersWidth, WallpapersHeight), None);
    OpenPreservesWellFormed(s, w);
    FocusPreservesWellFormed(Open(s, w), id);
  }
}

=== FILE: desktopicon.dfy ===
/** A desktop icon (`src/components/DesktopIcon.tsx`): opening it as a single-instance
    window named after the icon, renaming, moving it to the trash and the touch
    double-tap detector. The clock reading is a parameter. */
module DesktopIcon {
  import opened Wrappers
  import opened Seqs
  import opened Ui
  import opened Apps

  /** Where an icon's window opens. */
  const IconWindowBounds: Bounds := Bounds(100.0, 100.0, 400.0, 300.0)

  /** `handleOpen`: open (or reopen) the window whose id is the icon id, then focus it. */
  function HandleOpen(s: UiState, icon: Icon): (r: UiState)
    ensures icon.id in r.windows && r.windows[icon.id] == NewWindow(icon.id, icon.id, IconWindowBounds, None)
    ensures AgreeExcept(r.windows, s.windows, icon.id)
    ensures |r.focusStack| > 0 && r.focusStack[|r.focusStack| - 1] == icon.id
    ensures r.focusStack[..|r.focusStack| - 1] == Without(s.focusStack, icon.id)
    ensures forall d :: d in r.dock <==> d in s.dock && d.winId != icon.id
  {
    var o := Open(s, NewWindow(icon.id, icon.id, IconWindowBounds, None));
    MoveToEndTwice(s.focusStack, icon.id);
    Focus(o, icon.id)
  }

  /** Icons open single-instance: opening the same icon again reuses the window id, so the
      store is the same as after one open. */
  lemma OpenTwiceSingleInstance(s: UiState, icon: Icon)
    requires WellFormed(s)
    ensures HandleOpen(HandleOpen(s, icon), icon) == HandleOpen(s, icon)
    ensures WellFormed(HandleOpen(s, icon))
  {
    var w := NewWindow(icon.id, icon.id, IconWindowBounds, None);
    OpenPreservesWellFormed(s, w);
    FocusAfterOpen(s, w);
    FocusAfterOpen(Open(s, w), w);
    OpenIdempotent(s, w);
  }

  /** Renaming: every icon with this icon's id takes the new title. */
  function Rename(icons: seq<Icon>, id: string, title: string): (r: seq<Icon>)
    ensures |r| == |icons|
    ensures forall k :: 0 <= k < |icons| ==>
      r[k] == (if icons[k].id == id then icons[k].(title := title) else icons[k])
  {
    UpdateWhere(icons, id, (i: Icon) => i.(title := title))
  }

  /** Renaming keeps every id and position, and a second rename of the same id simply
      overrides the first. */
  lemma RenameLastWins(icons: seq<Icon>, id: string, t1: string, t2: string)
    ensures forall k :: 0 <= k < |icons| ==>
      Rename(icons, id, t1)[k].id == icons[k].id && Rename(icons, id, t1)[k].x == icons[k].x
    ensures Rename(Rename(icons, id, t1), id, t2) == Rename(icons, id, t2)
  {
    var a := Rename(Rename(icons, id, t1), id, t2);
    var b := Rename(icons, id, t2);
    assert |a| == |b|;
    forall k | 0 <= k < |a| ensures a[k] == b[k] {}
  }

  /** "Move to Trash" from the icon's menu: the same state change as the store's
      `moveToTrash`. */
  function RemoveIcon(s: AppsState, icon: Icon): (r: AppsState)
    ensures forall i :: i in r.desktopIcons <==> i in s.desktopIcons && i.id != icon.id
    ensures r.trash == s.trash + [icon]
  {
    MoveToTrash(s, icon)
  }

  /** Two taps less than this many milliseconds apart open the icon. */
  const DoubleTapMs: int := 300

  datatype Tap = Tap(opens: bool, lastTap: int)

  /** A touch start at time `now` after the previous one at `lastTap`. */
  function TouchStart(lastTap: int, now: int): (t: Tap)
    ensures t.opens <==> now - lastTap < DoubleTapMs
    ensures t.lastTap == now
  {
    Tap(now - lastTap < DoubleTapMs, now)
  }

  /** A quick second tap opens, and a third tap as quick opens again (every tap re-arms). */
  lemma DoubleTapOpens(t0: int, t1: int, t2: int)
    requires t0 <= t1 <= t2 && t2 - t1 < DoubleTapMs
    ensures TouchStart(TouchStart(t0, t1).lastTap, t2).opens
  {}
}

=== FILE: dock.dfy ===
/** The dock (`src/components/Dock.tsx`): the items it shows, what a click on an item or
    on the trash does, the trash icon and the auto scale factor. The item list is built
    like the source's `Map`: pinned icons are put first, then one entry per running
    window; putting an existing key keeps its position and replaces its value. */
module Dock {
  import opened Wrappers
  import opened Seqs
  import opened Ui
  import opened Apps

  datatype DockItem = DockItem(icon: Icon, minimized: Option<bool>, winId: Option<string>)

  /** The loop over `Object.values(windows)`: an entry for each window whose app has a
      desktop icon. */
  function RunningEntries(wins: seq<WindowRecord>, icons: seq<Icon>): seq<DockItem>
  {
    if wins == [] then []
    else
      var rest := RunningEntries(wins[1..], icons);
      var w := wins[0];
      match FindId(icons, w.appKey)
      case None => rest
      case Some(icon) => [DockItem(icon, Some(w.minimized), Some(w.id))] + rest
  }

  lemma {:induction false} RunningEntriesShape(wins: seq<WindowRecord>, icons: seq<Icon>)
    ensures var r := RunningEntries(wins, icons);
      && |r| <= |wins|
      && (forall it :: it in r ==> it.winId.Some? && it.minimized.Some?)
      && (forall it :: it in r ==> exists w :: (w in wins && it.winId == Some(w.id)
            && it.minimized == Some(w.minimized) && FindId(icons, w.appKey) == Some(it.icon)))
      && (forall w :: w in wins && FindId(icons, w.appKey).Some? ==>
            exists it :: it in r && it.winId == Some(w.id) && it.icon.id == w.appKey)
  {
    if wins != [] {
      RunningEntriesShape(wins[1..], icons);
    }
  }

  lemma {:induction false} RunningEntriesConcat(a: seq<WindowRecord>, b: seq<WindowRecord>, icons: seq<Icon>)
    ensures RunningEntries(a + b, icons) == RunningEntries(a, icons) + RunningEntries(b, icons)
  {
    if a == [] {
      assert a + b == b;
    } else {
      assert (a + b)[0] == a[0] && (a + b)[1..] == a[1..] + b;
      RunningEntriesConcat(a[1..], b, icons);
    }
  }

  /** The running entries: one per window whose app has a desktop icon, in window order. */
  function Running(wins: seq<WindowRecord>, icons: seq<Icon>): (r: seq<DockItem>)
    ensures |r| <= |wins|
    ensures forall it :: it in r ==> it.winId.Some? && it.minimized.Some?
    ensures forall it :: it in r ==> exists w :: (w in wins && it.winId == Some(w.id)
      && it.minimized == Some(w.minimized) && FindId(icons, w.appKey) == Some(it.icon))
    ensures forall w :: w in wins && FindId(icons, w.appKey).Some? ==>
      exists it :: it in r && it.winId == Some(w.id) && it.icon.id == w.appKey
  {
    RunningEntriesShape(wins, icons);
    RunningEntries(wins, icons)
  }

  /** A window's own contribution to the running entries: one entry carrying its id and
      minimized flag when its app has an icon, none otherwise. */
  lemma RunningOne(w: WindowRecord, icons: seq<Icon>)
    ensures FindId(icons, w.appKey).None? ==> Running([w], icons) == []
    ensures FindId(icons, w.appKey).Some? ==>
      Running([w], icons) == [DockItem(FindId(icons, w.appKey).value, Some(w.minimized), Some(w.id))]
  {
    assert [w][1..] == [];
    assert RunningEntries([w][1..], icons) == [];
  }

  /** The running entries follow window order: the entries of a split list are those of
      its two parts, one after the other. */
  lemma RunningConcat(a: seq<WindowRecord>, b: seq<WindowRecord>, icons: seq<Icon>)
    ensures Running(a + b, icons) == Running(a, icons) + Running(b, icons)
  {
    RunningEntriesConcat(a, b, icons);
  }

  function Keys(items: seq<DockItem>): (ks: seq<string>)
    ensures |ks| == |items| && forall i :: 0 <= i < |items| ==> ks[i] == items[i].icon.id
  {
    if items == [] then [] else [items[0].icon.id] + Keys(items[1..])
  }

  /** `map.set(it.icon.id, it)`: replace the entry with the same key in place, else append. */
  function Put(items: seq<DockItem>, it: DockItem): (r: seq<DockItem>)
    ensures it in r
  {
    if items == [] then [it]
    else if items[0].icon.id == it.icon.id then [it] + items[1..]
    else [items[0]] + Put(items[1..], it)
  }

  function PutAll(items: seq<DockItem>, its: seq<DockItem>): seq<DockItem>
    decreases |its|
  {
    if its == [] then items else PutAll(Put(items, its[0]), its[1..])
  }

  /** The entry filed under key `k` (the first one). */
  function ItemFor(items: seq<DockItem>, k: string): (r: Option<DockItem>)
    ensures r.Some? ==> r.value in items && r.value.icon.id == k
    ensures r.None? <==> k !in Keys(items)
  {
    if items == [] then None
    else if items[0].icon.id == k then Some(items[0])
    else ItemFor(items[1..], k)
  }

  /** The last entry of `its` with key `k`. */
  function LastFor(its: seq<DockItem>, k: string): (r: Option<DockItem>)
    ensures r.Some? ==> r.value in its && r.value.icon.id == k
    ensures r.None? <==> k !in Keys(its)
  {
    if its == [] then None
    else
      var rest := LastFor(its[1..], k);
      if rest.Some? then rest else if its[0].icon.id == k then Some(its[0]) else None
  }

  /** Key order of a `Map` after setting key `k`. */
  function AddKey(ks: seq<string>, k: string): seq<string> {
    if k in ks then ks else ks + [k]
  }

  /** Key order after setting the keys `ns` in turn: new keys in first-set order. */
  function AddKeys(ks: seq<string>, ns: seq<string>): seq<string>
    decreases |ns|
  {
    if ns == [] then ks else AddKeys(AddKey(ks, ns[0]), ns[1..])
  }

  lemma {:induction false} KeysPut(items: seq<DockItem>, it: DockItem)
    ensures Keys(Put(items, it)) == AddKey(Keys(items), it.icon.id)
  {
    if items != [] {
      KeysPut(items[1..], it);
      assert Keys(items) == [items[0].icon.id] + Keys(items[1..]);
      if items[0].icon.id != it.icon.id {
        assert it.icon.id in Keys(items) <==> it.icon.id in Keys(items[1..]);
      }
    }
  }

  lemma {:induction false} KeysPutAll(items: seq<DockItem>, its: seq<DockItem>)
    ensures Keys(PutAll(items, its)) == AddKeys(Keys(items), Keys(its))
    decreases |its|
  {
    if its != [] {
      KeysPut(items, its[0]);
      KeysPutAll(Put(items, its[0]), its[1..]);
      assert Keys(its)[1..] == Keys(its[1..]);
    }
  }

  lemma {:induction false} ItemForPut(items: seq<DockItem>, it: DockItem, k: string)
    ensures ItemFor(Put(items, it), k) == if k == it.icon.id then Some(it) else ItemFor(items, k)
  {
    if items != [] && items[0].icon.id != it.icon.id {
      ItemForPut(items[1..], it, k);
    }
  }

  /** After putting `its` in turn, the entry for a key is the last put for that key, or the
      old entry if the key was never put. */
  lemma {:induction false} ItemForPutAll(items: seq<DockItem>, its: seq<DockItem>, k: string)
    ensures ItemFor(PutAll(items, its), k) == if LastFor(its, k).Some? then LastFor(its, k) else ItemFor(items, k)
    decreases |its|
  {
    if its != [] {
      ItemForPut(items, its[0], k);
      ItemForPutAll(Put(items, its[0]), its[1..], k);
    }
  }

  lemma {:induction false} AddKeysShape(ks: seq<string>, ns: seq<string>)
    ensures |AddKeys(ks, ns)| >= |ks| && AddKeys(ks, ns)[..|ks|] == ks
    ensures forall k :: k in AddKeys(ks, ns) <==> k in ks || k in ns
    ensures Distinct(ks) ==> Distinct(AddKeys(ks, ns))
    decreases |ns|
  {
    if ns != [] {
      var ks' := AddKey(ks, ns[0]);
      AddKeysShape(ks', ns[1..]);
      assert ks'[..|ks|] == ks;
      var r := AddKeys(ks', ns[1..]);
      assert r[..|ks|] == r[..|ks'|][..|ks|];
      assert forall k :: k in ns <==> k == ns[0] || k in ns[1..];
    }
  }

  /** Pinned icons (put with no window). */
  function PinnedItems(icons: seq<Icon>): (r: seq<DockItem>)
    ensures |r| <= |icons|
    ensures forall it :: it in r ==> it.icon in icons && it.icon.pinned && it.winId.None? && it.minimized.None?
    ensures Keys(r) == PinnedIds(icons)
  {
    if icons == [] then []
    else
      var rest := PinnedItems(icons[1..]);
      if icons[0].pinned then [DockItem(icons[0], None, None)] + rest else rest
  }

  function PinnedIds(icons: seq<Icon>): seq<string> {
    if icons == [] then []
    else (if icons[0].pinned then [icons[0].id] else []) + PinnedIds(icons[1..])
  }

  /** The dock's items for a desktop and a store. */
  function DockItems(icons: seq<Icon>, ui: UiState): seq<DockItem> {
    PutAll(PutAll([], PinnedItems(icons)), Running(Values(ui.windows, ui.keyOrder), icons))
  }

  /** The dock's key order: the pinned ids (first occurrence order) come first, then the
      apps of running windows not already there, and no id appears twice. */
  lemma DockItemsOrder(icons: seq<Icon>, ui: UiState)
    ensures var pinned := AddKeys([], PinnedIds(icons));
      var running := Running(Values(ui.windows, ui.keyOrder), icons);
      var ks := Keys(DockItems(icons, ui));
      && ks == AddKeys(pinned, Keys(running))
      && |ks| >= |pinned| && ks[..|pinned|] == pinned
      && Distinct(ks)
      && forall k :: k in ks <==> k in PinnedIds(icons) || k in Keys(running)
  {
    var p := PinnedItems(icons);
    var running := Running(Values(ui.windows, ui.keyOrder), icons);
    KeysPutAll([], p);
    KeysPutAll(PutAll([], p), running);
    AddKeysShape([], PinnedIds(icons));
    AddKeysShape(AddKeys([], PinnedIds(icons)), Keys(running));
  }

  /** A running app's entry carries the minimized flag and window id of the last window of
      that app; a pinned app with no window has an entry without a window. */
  lemma DockItemsValues(icons: seq<Icon>, ui: UiState, k: string)
    ensures var items := DockItems(icons, ui);
      var running := Running(Values(ui.windows, ui.keyOrder), icons);
      && (k in Keys(running) ==> ItemFor(items, k) == LastFor(running, k))
      && (k !in Keys(running) && k in PinnedIds(icons) ==>
            ItemFor(items, k).Some? && ItemFor(items, k).value.winId.None?)
  {
    var p := PinnedItems(icons);
    var running := Running(Values(ui.windows, ui.keyOrder), icons);
    ItemForPutAll(PutAll([], p), running, k);
    ItemForPutAll([], p, k);
  }

  /** What a click on a dock item does. */
  datatype DockAction = RestoreWin(winId: string) | FocusWin(winId: string) | RunLaunch(launcher: Launcher)

  /** A click on an item with a (non-empty) window id restores a minimized window and
      focuses any other; an item without one runs its icon's launcher. */
  function ClickAction(item: DockItem): (a: DockAction)
    ensures a.RestoreWin? <==> item.winId.Some? && item.winId.value != "" && item.minimized == Some(true)
    ensures a.FocusWin? <==> item.winId.Some? && item.winId.value != "" && item.minimized != Some(true)
    ensures a.RunLaunch? ==> a.launcher == item.icon.launcher
    ensures !a.RunLaunch? ==> Some(a.winId) == item.winId
  {
    if item.winId.Some? && item.winId.value != "" then
      if item.minimized == Some(true) then RestoreWin(item.winId.value) else FocusWin(item.winId.value)
    else RunLaunch(item.icon.launcher)
  }

  function ApplyAction(s: UiState, a: DockAction, vw: real, vh: real, suffix: string): UiState {
    match a
    case RestoreWin(id) => Restore(s, id)
    case FocusWin(id) => Focus(s, id)
    case RunLaunch(l) => RunLauncher(s, l, None, vw, vh, suffix)
  }

  /** Clicking the entry of a live window always leaves it visible and active. */
  lemma ClickRunningActivates(s: UiState, item: DockItem, vw: real, vh: real, suffix: string)
    requires WellFormed(s)
    requires item.winId.Some? && item.winId.value in s.windows && item.winId.value != ""
    requires item.minimized == Some(s.windows[item.winId.value].minimized)
    ensures var id := item.winId.value;
      var r := ApplyAction(s, ClickAction(item), vw, vh, suffix);
      && WellFormed(r)
      && id in r.windows && !r.windows[id].minimized
      && |r.focusStack| > 0 && r.focusStack[|r.focusStack| - 1] == id
  {
    var id := item.winId.value;
    if s.windows[id].minimized {
      RestorePreservesWellFormed(s, id);
    } else {
      FocusPreservesWellFormed(s, id);
    }
  }

  const TrashEmptyIcon: string := "/icons/trash.png"
  const TrashFullIcon: string := "/icons/trash-full.png"

  /** The trash icon shows the empty picture exactly when the trash is empty. */
  function TrashIconUrl(trash: seq<Icon>): (url: string)
    ensures url == TrashEmptyIcon <==> |trash| == 0
    ensures url == TrashFullIcon <==> |trash| > 0
  {
    if |trash| == 0 then TrashEmptyIcon else TrashFullIcon
  }

  /** Clicking the trash: the Finder icon's launcher runs with the path `["Trash"]`;
      without a Finder icon nothing opens. */
  function TrashClick(s: UiState, icons: seq<Icon>, vw: real, vh: real, suffix: string): (r: UiState)
    ensures FindId(icons, "finder").None? ==> r == s
    ensures FindId(icons, "finder").Some? && FindId(icons, "finder").value.launcher.NoLaunch? ==> r == s
    ensures FindId(icons, "finder").Some? && FindId(icons, "finder").value.launcher.AppLauncher? ==>
      var appId := FindId(icons, "finder").value.launcher.appId;
      var id := LaunchId(appId, suffix);
      && id in r.windows && r.windows[id].appKey == appId
      && r.windows[id].props == Some(LaunchProps(Some(["Trash"])))
      && |r.focusStack| > 0 && r.focusStack[|r.focusStack| - 1] == id
  {
    match FindId(icons, "finder")
    case None => s
    case Some(f) => RunLauncher(s, f.launcher, Some(LaunchProps(Some(["Trash"]))), vw, vh, suffix)
  }

  /** Ideal width per item: one and a half times the 44 px base size. */
  const IdealItemWidth: real := 66.0

  /** The auto scale factor for `itemCount` items plus the trash on a screen `screenWidth`
      wide: 1 when the ideal row fits in min(90% of the screen, 680), otherwise the
      shrink ratio, never below 0.7. */
  function ScaleFactor(itemCount: nat, screenWidth: real): (f: real)
    ensures 0.7 <= f <= 1.0
    ensures f == 1.0 <==> (itemCount as real + 1.0) * IdealItemWidth <= Min(screenWidth * 0.9, 680.0)
    ensures f < 1.0 && f > 0.7 ==> f * (itemCount as real + 1.0) * IdealItemWidth == Min(screenWidth * 0.9, 680.0)
  {
    var total := (itemCount as real + 1.0) * IdealItemWidth;
    var maxWidth := Min(screenWidth * 0.9, 680.0);
    if total > maxWidth then Max(0.7, maxWidth / total) else 1.0
  }

  lemma DivAntitone(x: real, p: real, q: real)
    requires x > 0.0 && 0.0 < p <= q
    ensures x / q <= x / p
  {
    var a, b := x / q, x / p;
    assert a * q == x && b * p == x;
    assert a * p <= a * q;
    if a > b {
      assert (a - b) * p > 0.0;
    }
  }

  /** Adding items never makes the dock icons bigger. */
  lemma ScaleFactorMonotone(n: nat, m: nat, screenWidth: real)
    requires n <= m
    ensures ScaleFactor(m, screenWidth) <= ScaleFactor(n, screenWidth)
  {
    var tn := (n as real + 1.0) * IdealItemWidth;
    var tm := (m as real + 1.0) * IdealItemWidth;
    var mx := Min(screenWidth * 0.9, 680.0);
    assert 0.0 < tn <= tm;
    if tm > mx && tn > mx && mx > 0.0 {
      DivAntitone(mx, tn, tm);
    }
  }
}

=== FILE: emulator.dfy ===
/** The games app (`src/apps/games/EmulatorApp.tsx` and its library view
    `src/apps/games/components/GameLibrary.tsx`): name normalization, the ROM and
    thumbnail extension filters, thumbnail lookup, the game items built from the storage
    listings, and the library / player state with its shader toggle. Storage listings are
    inputs, the listing of a folder is a function parameter, and the project URL is a
    string parameter. */
module Emulator {
  import opened Wrappers
  import opened Seqs
  import opened Strs

  /* ---------------------------------------------------------------------- */
  /* normalize                                                              */
  /* ---------------------------------------------------------------------- */

  /** The characters `normalize` removes: `\s` and the two parentheses. */
  predicate Dropped(c: char) {
    IsSpace(c) || c == '(' || c == ')'
  }

  /** A string `normalize` leaves as it is: no upper-case letter and nothing it drops. */
  predicate IsNormal(s: string) {
    forall i :: 0 <= i < |s| ==> !IsUpper(s[i]) && !Dropped(s[i])
  }

  /** `str.toLowerCase().replace(/\s+/g, "").replace(/[()]/g, "")`: every character
      lower-cased, then blanks and parentheses removed. */
  function Normalize(s: string): (r: string)
    ensures IsNormal(r)
    ensures |r| <= |s|
    ensures IsNormal(s) ==> r == s
  {
    if s == [] then []
    else
      var c := LowerChar(s[0]);
      var rest := Normalize(s[1..]);
      if Dropped(c) then rest
      else
        assert IsNormal(s) ==> c == s[0] && IsNormal(s[1..]);
        [c] + rest
  }

  /** Normalizing twice is normalizing once. */
  lemma NormalizeIdempotent(s: string)
    ensures Normalize(Normalize(s)) == Normalize(s)
  {}

  /** Normalization works character by character, so it distributes over concatenation. */
  lemma {:induction false} NormalizeConcat(a: string, b: string)
    ensures Normalize(a + b) == Normalize(a) + Normalize(b)
  {
    if a == [] {
      assert a + b == b;
    } else {
      assert (a + b)[0] == a[0] && (a + b)[1..] == a[1..] + b;
      NormalizeConcat(a[1..], b);
    }
  }

  /** Names that differ only in case, blanks and parentheses share one key. */
  lemma NormalizeIgnoresDecoration(a: string, b: string)
    requires |a| == |b| && forall i :: 0 <= i < |a| ==> LowerChar(a[i]) == LowerChar(b[i])
    ensures Normalize(a) == Normalize(b)
  {
    if a != [] {
      NormalizeIgnoresDecoration(a[1..], b[1..]);
    }
  }

  /* ---------------------------------------------------------------------- */
  /* Extension filters                                                      */
  /* ---------------------------------------------------------------------- */

  /** The ROM pattern of the player: `\.(nes|smc|…|rom)$`, case-insensitive. */
  const PlayerRomExts: seq<string> :=
    ["nes", "smc", "sfc", "gba", "gbc", "gb", "n64", "nds", "iso", "bin", "cue", "img", "zip", "chd", "7z", "rom"]

  /** The narrower ROM pattern of the library view. */
  const LibraryRomExts: seq<string> := ["nes", "smc", "gba", "gb", "n64", "bin", "iso", "zip", "img"]

  /** The image pattern stripped from thumbnail names. */
  const ThumbExts: seq<string> := ["jpg", "jpeg", "png", "webp"]

  /** An alternative of such a pattern: lower case and without a dot. */
  predicate PlainExt(e: string) {
    forall i :: 0 <= i < |e| ==> e[i] != '.' && !IsUpper(e[i])
  }

  predicate PlainExts(exts: seq<string>) {
    forall i :: 0 <= i < |exts| ==> PlainExt(exts[i])
  }

  lemma PatternsPlain()
    ensures PlainExts(PlayerRomExts) && PlainExts(LibraryRomExts) && PlainExts(ThumbExts)
  {
    LibraryPatternPlain();
    ThumbPatternPlain();
  }

  lemma LibraryPatternPlain()
    ensures PlainExts(LibraryRomExts)
  {}

  lemma ThumbPatternPlain()
    ensures PlainExts(ThumbExts)
  {}

  /** Every library extension is also a player extension. */
  lemma LibraryNarrower()
    ensures forall i :: 0 <= i < |LibraryRomExts| ==> LibraryRomExts[i] in PlayerRomExts
  {}

  /** The first alternative of the pattern `\.(e1|e2|…)$` (flag `i`) that ends `name`. */
  function MatchedExt(name: string, exts: seq<string>): (r: Option<string>)
    ensures r.None? <==> forall i :: 0 <= i < |exts| ==> !EndsWith(Lower(name), "." + exts[i])
    ensures r.Some? ==> r.value in exts && EndsWith(Lower(name), "." + r.value)
  {
    if exts == [] then None
    else if EndsWith(Lower(name), "." + exts[0]) then Some(exts[0])
    else
      var r := MatchedExt(name, exts[1..]);
      assert forall i :: 1 <= i < |exts| ==> exts[i] == exts[1..][i - 1];
      r
  }

  /** `name.replace(pattern, "")`: the name without the matched suffix, or the name
      itself when the pattern does not match. */
  function StripMatched(name: string, exts: seq<string>): (r: string)
    ensures MatchedExt(name, exts).None? ==> r == name
    ensures MatchedExt(name, exts).Some? ==>
      |r| + 1 + |MatchedExt(name, exts).value| == |name| && r == name[..|r|]
  {
    match MatchedExt(name, exts)
    case None => name
    case Some(e) => name[..|name| - |e| - 1]
  }

  /** A file named base `.` ext, with ext one of the alternatives, matches and loses
      exactly `.` ext, whatever the case of the base. */
  lemma StripMatchedRoundTrip(base: string, ext: string, exts: seq<string>)
    requires PlainExts(exts) && ext in exts
    ensures MatchedExt(base + "." + ext, exts).Some?
    ensures StripMatched(base + "." + ext, exts) == base
  {
    var n := base + "." + ext;
    var l := Lower(n);
    var k :| 0 <= k < |exts| && exts[k] == ext;
    assert PlainExt(ext);
    assert l[|base|..] == "." + ext by {
      forall j | |base| <= j < |n| ensures l[j] == ("." + ext)[j - |base|] {
        if j > |base| { assert n[j] == ext[j - |base| - 1]; }
      }
    }
    assert EndsWith(l, "." + exts[k]);
    var e := MatchedExt(n, exts).value;
    var m :| 0 <= m < |exts| && exts[m] == e;
    DotSuffixUnique(l, e, ext);
    assert n[..|base|] == base;
  }

  /** Two dot-free alternatives that both end a name after a `.` have the same length. */
  lemma DotSuffixUnique(l: string, e1: string, e2: string)
    requires PlainExt(e1) && PlainExt(e2)
    requires EndsWith(l, "." + e1) && EndsWith(l, "." + e2)
    ensures |e1| == |e2|
  {
    if |e1| < |e2| {
      DotInLonger(l, e1, e2);
    } else if |e2| < |e1| {
      DotInLonger(l, e2, e1);
    }
  }

  /** When a shorter and a longer alternative both end a name after a `.`, the shorter
      one's dot falls inside the longer one. */
  lemma DotInLonger(l: string, e1: string, e2: string)
    requires EndsWith(l, "." + e1) && EndsWith(l, "." + e2) && |e1| < |e2|
    ensures e2[|e2| - |e1| - 1] == '.'
  {
    var j := |l| - |e1| - 1;
    assert l[j] == ("." + e1)[0];
    assert l[j] == ("." + e2)[|e2| - |e1|];
  }

  /* ---------------------------------------------------------------------- */
  /* Thumbnails and items                                                   */
  /* ---------------------------------------------------------------------- */

  const ObjectPath: string := "/storage/v1/object/public/games/"

  /** The key a thumbnail file is stored under: its name without the image extension
      (one of `exts`, in practice `ThumbExts`), normalized. */
  function ThumbKey(file: string, exts: seq<string>): string {
    Normalize(StripMatched(file, exts))
  }

  function ThumbUrl(baseUrl: string, file: string): string {
    baseUrl + ObjectPath + "thumbs/" + file
  }

  /** The thumbnail map, each file stored under `key(file)` (in practice `ThumbKey` with
      `ThumbExts`): a key is present exactly when some thumbnail file has it. */
  function ThumbMap(thumbs: seq<string>, key: string -> string, baseUrl: string): (m: map<string, string>)
    ensures forall k :: k in m <==> exists i :: 0 <= i < |thumbs| && key(thumbs[i]) == k
  {
    if thumbs == [] then map[]
    else
      var init := thumbs[..|thumbs| - 1];
      var last := thumbs[|thumbs| - 1];
      var m := ThumbMap(init, key, baseUrl);
      var r := m[key(last) := ThumbUrl(baseUrl, last)];
      assert forall k :: k in r ==> exists i :: 0 <= i < |thumbs| && key(thumbs[i]) == k by {
        forall k | k in r ensures exists i :: 0 <= i < |thumbs| && key(thumbs[i]) == k {
          if k != key(last) {
            var i :| 0 <= i < |init| && key(init[i]) == k;
            assert thumbs[i] == init[i];
          }
        }
      }
      assert forall i :: 0 <= i < |thumbs| ==> key(thumbs[i]) in r by {
        forall i | 0 <= i < |thumbs| ensures key(thumbs[i]) in r {
          if i < |init| { assert thumbs[i] == init[i]; }
        }
      }
      r
  }

  /** A key maps to the URL of the last thumbnail file that has it (`Map.set` overwrites
      earlier entries). */
  lemma {:induction false} ThumbMapLast(thumbs: seq<string>, key: string -> string, baseUrl: string, i: int)
    requires 0 <= i < |thumbs|
    requires forall j :: i < j < |thumbs| ==> key(thumbs[j]) != key(thumbs[i])
    ensures ThumbMap(thumbs, key, baseUrl)[key(thumbs[i])] == ThumbUrl(baseUrl, thumbs[i])
  {
    var init := thumbs[..|thumbs| - 1];
    if i < |thumbs| - 1 {
      assert init[i] == thumbs[i];
      assert forall j :: i < j < |init| ==> init[j] == thumbs[j];
      ThumbMapLast(init, key, baseUrl, i);
    }
  }

  /** `thumbMap.get(key) || placeholder`. */
  function Thumb(m: map<string, string>, key: string, placeholder: string): (t: string)
    ensures key in m && m[key] != "" ==> t == m[key]
    ensures !(key in m && m[key] != "") ==> t == placeholder
  {
    if key in m && m[key] != "" then m[key] else placeholder
  }

  const PlayerPlaceholder: string := "https://dummyimage.com/512x384/1e1e1e/ffffff&text=No+Thumbnail"
  const LibraryPlaceholder: string := "https://dummyimage.com/512x288/1e1e1e/ffffff&text=No+Thumbnail"

  datatype GameItem = GameItem(title: string, core: string, url: string, thumb: string)

  /** What a loader needs besides the listings: the ROM pattern, the thumbnail map, the
      placeholder and the project URL. */
  datatype Source = Source(exts: seq<string>, thumbs: map<string, string>, placeholder: string, baseUrl: string)

  /** The item for ROM file `file` in folder `folder`. */
  function ItemFor(src: Source, folder: string, file: string): (it: GameItem)
    ensures it.core == folder && it.title == StripMatched(file, src.exts)
    ensures it.thumb == Thumb(src.thumbs, Normalize(it.title), src.placeholder)
    ensures it.url == src.baseUrl + ObjectPath + folder + "/" + file
  {
    var base := StripMatched(file, src.exts);
    GameItem(base, folder, src.baseUrl + ObjectPath + folder + "/" + file, Thumb(src.thumbs, Normalize(base), src.placeholder))
  }

  predicate IsRom(src: Source, file: string) {
    MatchedExt(file, src.exts).Some?
  }

  /** The items of one folder listing: one per ROM file, in listing order. */
  function FolderItems(src: Source, folder: string, files: seq<string>): (r: seq<GameItem>)
    ensures |r| <= |files|
    ensures forall f :: f in files && IsRom(src, f) ==> ItemFor(src, folder, f) in r
    ensures forall it :: it in r ==> exists f :: f in files && IsRom(src, f) && it == ItemFor(src, folder, f)
  {
    if files == [] then []
    else
      var rest := FolderItems(src, folder, files[1..]);
      var r := if IsRom(src, files[0]) then [ItemFor(src, folder, files[0])] + rest else rest;
      assert forall f :: f in files[1..] ==> f in files;
      assert forall f :: f in files ==> f == files[0] || f in files[1..];
      assert forall it :: it in r ==> it in rest || (it == ItemFor(src, folder, files[0]) && IsRom(src, files[0]));
      r
  }

  /** The items of the folders in order; a folder whose listing failed contributes none. */
  function CollectItems(src: Source, folders: seq<string>, list: string -> Option<seq<string>>): (r: seq<GameItem>)
    ensures forall it :: it in r ==>
      exists i, f :: 0 <= i < |folders| && list(folders[i]).Some? && f in list(folders[i]).value
                     && IsRom(src, f) && it == ItemFor(src, folders[i], f)
    ensures forall i, f ::
      0 <= i < |folders| && list(folders[i]).Some? && f in list(folders[i]).value && IsRom(src, f) ==>
        ItemFor(src, folders[i], f) in r
  {
    if folders == [] then []
    else
      var here := match list(folders[0]) case None => [] case Some(files) => FolderItems(src, folders[0], files);
      var rest := CollectItems(src, folders[1..], list);
      assert forall i :: 1 <= i < |folders| ==> folders[1..][i - 1] == folders[i];
      here + rest
  }

  /** The same two directions stated by folder name instead of position. */
  lemma CollectItemsByName(src: Source, folders: seq<string>, list: string -> Option<seq<string>>)
    ensures forall it :: it in CollectItems(src, folders, list) <==>
      exists dir, f :: dir in folders && list(dir).Some? && f in list(dir).value
                       && IsRom(src, f) && it == ItemFor(src, dir, f)
  {
    var r := CollectItems(src, folders, list);
    forall it | it in r
      ensures exists dir, f :: dir in folders && list(dir).Some? && f in list(dir).value
                               && IsRom(src, f) && it == ItemFor(src, dir, f)
    {
      var i, f :| 0 <= i < |folders| && list(folders[i]).Some? && f in list(folders[i]).value
                  && IsRom(src, f) && it == ItemFor(src, folders[i], f);
      assert folders[i] in folders;
    }
    forall it | exists dir, f :: dir in folders && list(dir).Some? && f in list(dir).value
                                 && IsRom(src, f) && it == ItemFor(src, dir, f)
      ensures it in r
    {
      var dir, f :| dir in folders && list(dir).Some? && f in list(dir).value
                    && IsRom(src, f) && it == ItemFor(src, dir, f);
      var i :| 0 <= i < |folders| && folders[i] == dir;
    }
  }

  /* ---------------------------------------------------------------------- */
  /* The two loaders                                                        */
  /* ---------------------------------------------------------------------- */

  /** The systems the player lists, in order. */
  const SupportedSystems: seq<string> := [
    "3do", "arcade", "atari2600", "atari5200", "atari7800", "atarijaguar", "atarilynx",
    "colecovision", "c64", "c128", "amiga", "pet", "plus4", "vic20", "mame2003", "nes",
    "famicom", "n64", "nds", "gba", "gb", "psx", "psp", "sega32x", "segacd", "gamegear",
    "mastersystem", "megadrive", "saturn", "snes", "superfamicom", "virtualboy"
  ]

  /** The player's ROM pattern, thumbnail map and placeholder. */
  function PlayerSource(thumbFiles: seq<string>, baseUrl: string): (src: Source)
    ensures src.exts == PlayerRomExts && src.placeholder == PlayerPlaceholder && src.baseUrl == baseUrl
  {
    Source(PlayerRomExts, ThumbMap(thumbFiles, f => ThumbKey(f, ThumbExts), baseUrl), PlayerPlaceholder, baseUrl)
  }

  /** The player's `loadGames` before sorting: exactly one item for each ROM file listed
      under a supported system, titled by the file name without its ROM extension and
      run by that system's core; a system whose listing failed contributes none. */
  function PlayerGames(thumbFiles: seq<string>, list: string -> Option<seq<string>>, baseUrl: string): (r: seq<GameItem>)
    ensures forall it :: it in r ==> it.core in SupportedSystems
    ensures forall it :: it in r <==>
      exists sys, f :: sys in SupportedSystems && list(sys).Some? && f in list(sys).value
                       && MatchedExt(f, PlayerRomExts).Some? && it == ItemFor(PlayerSource(thumbFiles, baseUrl), sys, f)
  {
    var src := PlayerSource(thumbFiles, baseUrl);
    CollectItemsByName(src, SupportedSystems, list);
    CollectItems(src, SupportedSystems, list)
  }

  /** A top-level entry the library opens: a non-empty name other than `thumbs` in any
      case. */
  predicate IsGameFolder(name: string) {
    name != "" && Lower(name) != "thumbs"
  }

  /** The library's `validFolders`. */
  function LibraryFolders(entries: seq<string>): (r: seq<string>)
    ensures forall f :: f in r <==> f in entries && IsGameFolder(f)
    ensures |r| <= |entries|
  {
    Filter(IsGameFolder, entries)
  }

  /** The library's ROM pattern, thumbnail map and placeholder. */
  function LibrarySource(thumbFiles: seq<string>, baseUrl: string): (src: Source)
    ensures src.exts == LibraryRomExts && src.placeholder == LibraryPlaceholder && src.baseUrl == baseUrl
  {
    Source(LibraryRomExts, ThumbMap(thumbFiles, f => ThumbKey(f, ThumbExts), baseUrl), LibraryPlaceholder, baseUrl)
  }

  /** The library's `loadGames` before sorting: exactly one item for each ROM file listed
      under a top-level folder that is not `thumbs`, run by the core named like the folder. */
  function LibraryGames(entries: seq<string>, thumbFiles: seq<string>, list: string -> Option<seq<string>>, baseUrl: string): (r: seq<GameItem>)
    ensures forall it :: it in r ==> it.core != "" && Lower(it.core) != "thumbs"
    ensures forall it :: it in r <==>
      exists dir, f :: dir in entries && IsGameFolder(dir) && list(dir).Some? && f in list(dir).value
                       && MatchedExt(f, LibraryRomExts).Some? && it == ItemFor(LibrarySource(thumbFiles, baseUrl), dir, f)
  {
    var src := LibrarySource(thumbFiles, baseUrl);
    CollectItemsByName(src, LibraryFolders(entries), list);
    CollectItems(src, LibraryFolders(entries), list)
  }

  /** A ROM whose thumbnail was uploaded under the same base name (in any case, spacing or
      parentheses) gets that thumbnail; without one it gets the placeholder. */
  lemma ThumbnailFound(src: Source, folder: string, base: string, ext: string)
    requires PlainExts(src.exts) && ext in src.exts
    ensures var it := ItemFor(src, folder, base + "." + ext);
      && it.title == base
      && (Normalize(base) in src.thumbs && src.thumbs[Normalize(base)] != "" ==> it.thumb == src.thumbs[Normalize(base)])
      && (Normalize(base) !in src.thumbs ==> it.thumb == src.placeholder)
  {
    StripMatchedRoundTrip(base, ext, src.exts);
  }

  /* ---------------------------------------------------------------------- */
  /* Library and player state                                               */
  /* ---------------------------------------------------------------------- */

  const Crt: string := "crt-mattias.glslp"
  const Lcd: string := "lcd-grid.glslp"

  datatype Player = Player(selected: Option<GameItem>, started: bool, shader: string)

  const InitialPlayer: Player := Player(None, false, Crt)

  /** The shader toggle: the CRT shader turns into the LCD one and anything else into the
      CRT one. */
  function ToggleShader(shader: string): (r: string)
    ensures shader == Crt ==> r == Lcd
    ensures shader != Crt ==> r == Crt
  {
    if shader == Crt then Lcd else Crt
  }

  predicate ShaderKnown(p: Player) {
    p.shader == Crt || p.shader == Lcd
  }

  /** On either known shader, toggling twice gives it back; the state starts on one. */
  lemma ToggleShaderTwice(shader: string)
    requires shader == Crt || shader == Lcd
    ensures ToggleShader(ToggleShader(shader)) == shader
  {}

  /** Picking a game in the library selects it and starts the player. */
  function Select(p: Player, game: GameItem): (r: Player)
    ensures r.selected == Some(game) && r.started && r.shader == p.shader
  {
    p.(selected := Some(game), started := true)
  }

  /** Quit: back to the library with nothing selected; the shader is kept. */
  function Quit(p: Player): (r: Player)
    ensures !r.started && r.selected.None? && r.shader == p.shader
  {
    p.(started := false, selected := None)
  }

  function Toggle(p: Player): (r: Player)
    ensures r.shader == ToggleShader(p.shader) && r.selected == p.selected && r.started == p.started
  {
    p.(shader := ToggleShader(p.shader))
  }

  /** Every operation keeps the shader one of the two known ones, and quitting after
      selecting returns to the initial library view with the shader kept. */
  lemma PlayerInvariant(p: Player, game: GameItem)
    requires ShaderKnown(p)
    ensures ShaderKnown(Select(p, game)) && ShaderKnown(Quit(p)) && ShaderKnown(Toggle(p))
    ensures Toggle(Toggle(p)) == p
    ensures Quit(Select(p, game)) == p.(selected := None, started := false)
  {}

  /** The toolbar title: the selected game's title, or empty. */
  function ToolbarTitle(p: Player): (t: string)
    ensures p.selected.Some? ==> t == p.selected.value.title
    ensures p.selected.None? ==> t == ""
  {
    if p.selected.Some? then p.selected.value.title else ""
  }
}

=== FILE: explorer.dfy ===
/** The Internet Explorer window (`src/apps/browser/Explorer.tsx`): tabs, each with its
    own back/forward history, the active tab and the address bar. Page loading and
    favicons are left out; `loading` is kept as the flag the page sets. */
module Explorer {
  import opened Strs

  const HomeUrl: string := "iweb://topsites"

  datatype Tab = Tab(title: string, url: string, history: seq<string>, index: int)

  datatype Browser = Browser(tabs: seq<Tab>, active: int, addr: string, loading: bool)

  const FirstTab: Tab := Tab("Top Sites", HomeUrl, [HomeUrl], 0)

  const Initial: Browser := Browser([FirstTab], 0, HomeUrl, false)

  predicate TabValid(t: Tab) {
    0 <= t.index < |t.history|
  }

  /** At least one tab, the active index in range, every tab's index in its history. */
  predicate Valid(b: Browser) {
    |b.tabs| >= 1 && 0 <= b.active < |b.tabs| && forall i :: 0 <= i < |b.tabs| ==> TabValid(b.tabs[i])
  }

  lemma InitialValid()
    ensures Valid(Initial)
  {}

  /** The in-page scheme: such URLs only change what the active tab shows. */
  predicate IsInternal(url: string) {
    StartsWith(url, "iweb://")
  }

  /** The history update for an ordinary URL: anything ahead of the index is dropped and
      the URL becomes the newest entry. */
  function Visit(t: Tab, url: string): (r: Tab)
    ensures r.url == url && r.title == t.title && r.index == t.index + 1
    ensures t.index < |t.history| - 1 && t.index >= 0 ==> r.history == t.history[..t.index + 1] + [url]
    ensures t.index >= |t.history| - 1 ==> r.history == t.history + [url]
    ensures TabValid(t) ==> TabValid(r) && r.history[r.index] == url && r.index == |r.history| - 1
    ensures TabValid(t) ==> r.history[..r.index] == t.history[..t.index + 1]
  {
    var h := if t.index < |t.history| - 1 && t.index >= 0 then t.history[..t.index + 1] + [url] else t.history + [url];
    t.(url := url, history := h, index := t.index + 1)
  }

  /** `navigate(url)`: an internal URL changes the active tab's URL and title only; any
      other URL is visited in the active tab and starts loading. */
  function Navigate(b: Browser, url: string): (r: Browser)
    ensures |r.tabs| == |b.tabs| && r.active == b.active && r.addr == url
    ensures forall i :: 0 <= i < |b.tabs| && i != b.active ==> r.tabs[i] == b.tabs[i]
    ensures 0 <= b.active < |b.tabs| && IsInternal(url) ==>
      r.tabs[b.active] == b.tabs[b.active].(url := url, title := "Top Sites") && r.loading == b.loading
    ensures 0 <= b.active < |b.tabs| && !IsInternal(url) ==>
      r.tabs[b.active] == Visit(b.tabs[b.active], url) && r.loading
    ensures Valid(b) ==> Valid(r)
  {
    if !(0 <= b.active < |b.tabs|) then
      b.(addr := url, loading := if IsInternal(url) then b.loading else true)
    else if IsInternal(url) then
      b.(tabs := b.tabs[b.active := b.tabs[b.active].(url := url, title := "Top Sites")], addr := url)
    else
      b.(tabs := b.tabs[b.active := Visit(b.tabs[b.active], url)], addr := url, loading := true)
  }

  /** An internal navigation leaves every history and index untouched. */
  lemma InternalKeepsHistory(b: Browser, url: string)
    requires IsInternal(url)
    ensures forall i :: 0 <= i < |b.tabs| ==>
      Navigate(b, url).tabs[i].history == b.tabs[i].history && Navigate(b, url).tabs[i].index == b.tabs[i].index
  {}

  /** `newTab`: a fresh tab at home is appended and becomes active. */
  function NewTab(b: Browser): (r: Browser)
    ensures r.tabs == b.tabs + [Tab("New Tab", HomeUrl, [HomeUrl], 0)]
    ensures r.active == |b.tabs| && r.addr == HomeUrl && r.loading == b.loading
    ensures Valid(b) ==> Valid(r)
  {
    b.(tabs := b.tabs + [Tab("New Tab", HomeUrl, [HomeUrl], 0)], active := |b.tabs|, addr := HomeUrl)
  }

  /** The tabs without the one at `i`. */
  function RemoveAt(tabs: seq<Tab>, i: int): (r: seq<Tab>)
    requires 0 <= i < |tabs|
    ensures |r| == |tabs| - 1
    ensures forall j :: 0 <= j < i ==> r[j] == tabs[j]
    ensures forall j :: i <= j < |r| ==> r[j] == tabs[j + 1]
  {
    tabs[..i] + tabs[i + 1..]
  }

  /** `closeTab(i)` on a rendered tab: nothing when it is the only tab; otherwise tab `i`
      is removed and the tab before it (or the first) becomes active, whichever tab was
      active before. */
  function CloseTab(b: Browser, i: int): (r: Browser)
    requires 0 <= i < |b.tabs|
    ensures |b.tabs| == 1 ==> r == b
    ensures |b.tabs| > 1 ==>
      r.tabs == RemoveAt(b.tabs, i) && r.active == (if i - 1 > 0 then i - 1 else 0)
      && r.addr == b.addr && r.loading == b.loading
    ensures Valid(b) ==> Valid(r)
  {
    if |b.tabs| == 1 then b
    else b.(tabs := RemoveAt(b.tabs, i), active := if i - 1 > 0 then i - 1 else 0)
  }

  /** Opening a tab and closing it again gives back the same tabs; the first-or-previous
      rule makes the tab before it active. */
  lemma NewThenClose(b: Browser)
    ensures var r := CloseTab(NewTab(b), |b.tabs|);
      |b.tabs| >= 1 ==> r.tabs == b.tabs && r.active == |b.tabs| - 1
  {
    var n := NewTab(b).tabs;
    if |b.tabs| >= 1 {
      assert n[..|b.tabs|] == b.tabs;
      assert n[|b.tabs| + 1..] == [];
    }
  }

  /** Clicking a tab makes it active and puts its URL in the address bar. */
  function SelectTab(b: Browser, i: int): (r: Browser)
    requires 0 <= i < |b.tabs|
    ensures r.active == i && r.tabs == b.tabs && r.addr == b.tabs[i].url && r.loading == b.loading
    ensures Valid(b) ==> Valid(r)
  {
    b.(active := i, addr := b.tabs[i].url)
  }

  /** Closing a tab other than the first moves the selection to the tab before it even
      when another tab was active, and the address bar keeps the old URL. */
  lemma CloseMovesSelection(b: Browser, i: int)
    requires Valid(b) && |b.tabs| > 2 && 1 < i < |b.tabs| && b.active == 0
    ensures CloseTab(b, i).active == i - 1 && CloseTab(b, i).tabs[i - 1] == b.tabs[i - 1]
    ensures CloseTab(b, i).addr == b.addr
  {}

  /** Typing in the address bar only changes the text. */
  function Type(b: Browser, text: string): (r: Browser)
    ensures r.addr == text && r.tabs == b.tabs && r.active == b.active && r.loading == b.loading
  {
    b.(addr := text)
  }

  /** Enter navigates to the text in the address bar. */
  function Enter(b: Browser): Browser {
    Navigate(b, b.addr)
  }

  /** Typing a URL and pressing Enter is navigating to it. */
  lemma TypeThenEnter(b: Browser, url: string)
    ensures Enter(Type(b, url)) == Navigate(b, url)
  {}

  /** The page's load event ends the loading bar. */
  function Loaded(b: Browser): (r: Browser)
    ensures !r.loading && r.tabs == b.tabs && r.active == b.active && r.addr == b.addr
  {
    b.(loading := false)
  }

  /** The top-site links. */
  const TopSiteUrls: seq<string> :=
    ["https://yourdomain.com", "https://github.com/yourhandle", "https://linkedin.com/in/yourhandle", "/resume.pdf"]

  /** A top site is an ordinary URL: opening one from the home page records it as the
      newest history entry of the active tab and starts loading. */
  lemma TopSiteIsVisited(b: Browser, k: int)
    requires Valid(b) && 0 <= k < |TopSiteUrls|
    ensures !IsInternal(TopSiteUrls[k])
    ensures var r := Navigate(b, TopSiteUrls[k]);
      Valid(r) && r.loading
      && r.tabs[b.active].history[|r.tabs[b.active].history| - 1] == TopSiteUrls[k]
      && r.tabs[b.active].index == b.tabs[b.active].index + 1
  {
    assert TopSiteUrls[k][0] != 'i';
  }
}

=== FILE: finder.dfy ===
/** The Finder window (`src/apps/finder/Finder.tsx`): the four root folders built from
    the desktop icons and the trash, the current listing with its back/forward history
    and breadcrumb path, the sidebar shortcuts, the search filter and the view switch. */
module Finder {
  import opened Wrappers
  import opened Seqs
  import opened Strs
  import opened Apps
  import Ui
  import Dock

  datatype ViewMode = IconView | ListView | ColumnView

  datatype EntryKind =
    | AppItem(appRef: Option<Icon>)
    | Folder(children: Option<seq<Entry>>)

  datatype Entry = Entry(id: string, title: string, kind: EntryKind, iconUrl: string)

  /** An app icon shown as a Finder entry. */
  function AppEntry(a: Icon): (e: Entry)
    ensures e.id == a.id && e.title == a.title && e.kind == AppItem(Some(a))
    ensures e.iconUrl == a.iconUrl.GetOr("")
  {
    Entry(a.id, a.title, AppItem(Some(a)), a.iconUrl.GetOr(""))
  }

  function AppEntries(icons: seq<Icon>): (r: seq<Entry>)
    ensures |r| == |icons| && forall i :: 0 <= i < |icons| ==> r[i] == AppEntry(icons[i])
  {
    if icons == [] then [] else [AppEntry(icons[0])] + AppEntries(icons[1..])
  }

  /** Applications (the desktop icons), Desktop, Documents, Trash (the trashed icons); the
      trash folder's picture follows the same empty/full rule as the Dock's. */
  function RootEntries(apps: seq<Icon>, trash: seq<Icon>): (r: seq<Entry>)
    ensures |r| == 4
    ensures r[0] == Entry("applications", "Applications", Folder(Some(AppEntries(apps))), "/icons/folder-applications.png")
    ensures r[1].kind == Folder(Some([])) && r[2].kind == Folder(Some([]))
    ensures r[3] == Entry("trash", "Trash", Folder(Some(AppEntries(trash))), Dock.TrashIconUrl(trash))
  {
    [ Entry("applications", "Applications", Folder(Some(AppEntries(apps))), "/icons/folder-applications.png"),
      Entry("desktop", "Desktop", Folder(Some([])), "/icons/folder-desktop.png"),
      Entry("documents", "Documents", Folder(Some([])), "/icons/folder-documents.png"),
      Entry("trash", "Trash", Folder(Some(AppEntries(trash))),
            if |trash| == 0 then "/icons/trash.png" else "/icons/trash-full.png") ]
  }

  /** A folder's listing (`children ?? []`); an app has none. */
  function ChildrenOf(e: Entry): (c: seq<Entry>)
    ensures e.kind.Folder? && e.kind.children.Some? ==> c == e.kind.children.value
    ensures !(e.kind.Folder? && e.kind.children.Some?) ==> c == []
  {
    match e.kind
    case Folder(Some(c)) => c
    case _ => []
  }

  /** The first entry with the id (`find`). */
  function FindEntry(es: seq<Entry>, id: string): (r: Option<Entry>)
    ensures r.Some? ==> r.value in es && r.value.id == id
    ensures r.None? ==> forall e :: e in es ==> e.id != id
  {
    if es == [] then None else if es[0].id == id then Some(es[0]) else FindEntry(es[1..], id)
  }

  datatype FinderState = FinderState(
    cwd: seq<Entry>,
    path: seq<string>,
    history: seq<seq<Entry>>,
    historyIndex: int,
    view: ViewMode)

  /** The history index points into the history. */
  predicate Valid(s: FinderState) {
    0 <= s.historyIndex < |s.history|
  }

  /** The listing shown is the history entry at the index. */
  predicate Synced(s: FinderState)
    requires Valid(s)
  {
    s.cwd == s.history[s.historyIndex]
  }

  /** The trash listing of the root folders. */
  function TrashChildren(root: seq<Entry>): seq<Entry> {
    match FindEntry(root, "trash")
    case Some(t) => ChildrenOf(t)
    case None => []
  }

  /** The start-up effect, which runs again whenever the launch path or the trash
      changes: a launch path naming "Trash" (with a trash folder to find) shows the trash
      one step below the root; otherwise the listing and the history go back to the root
      while the path bar keeps what it showed. */
  function Resync(s: FinderState, root: seq<Entry>, launchPath: Option<seq<string>>): (r: FinderState)
    ensures Valid(r) && Synced(r) && r.view == s.view && r.history[0] == root
    ensures var toTrash := launchPath.Some? && "Trash" in launchPath.value && FindEntry(root, "trash").Some?;
      && (toTrash ==> r.cwd == TrashChildren(root) && r.path == ["Macintosh HD", "Trash"]
                      && r.history == [root, r.cwd] && r.historyIndex == 1)
      && (!toTrash ==> r.cwd == root && r.path == s.path && r.history == [root] && r.historyIndex == 0)
  {
    if launchPath.Some? && "Trash" in launchPath.value && FindEntry(root, "trash").Some? then
      var t := TrashChildren(root);
      s.(cwd := t, path := ["Macintosh HD", "Trash"], history := [root, t], historyIndex := 1)
    else
      s.(cwd := root, history := [root], historyIndex := 0)
  }

  /** A freshly opened Finder after its start-up effect: the trash one step below the
      root when launched on it, otherwise the root. */
  function Start(root: seq<Entry>, launchPath: Option<seq<string>>): (s: FinderState)
    ensures Valid(s) && Synced(s) && s.view == IconView && s.history[0] == root
    ensures var toTrash := launchPath.Some? && "Trash" in launchPath.value && FindEntry(root, "trash").Some?;
      && (toTrash ==> s.cwd == TrashChildren(root) && s.path == ["Macintosh HD", "Trash"] && s.historyIndex == 1)
      && (!toTrash ==> s.cwd == root && s.path == ["Macintosh HD"] && s.history == [root] && s.historyIndex == 0)
  {
    Resync(FinderState(root, ["Macintosh HD"], [root], 0, IconView), root, launchPath)
  }

  /** The launch path the Finder reads: the props of the FIRST Finder window in insertion
      order, which need not be the window showing it. */
  function LaunchPathOf(wins: seq<Ui.WindowRecord>): (p: Option<seq<string>>)
    ensures (forall i :: 0 <= i < |wins| ==> wins[i].appKey != "finder") ==> p.None?
    ensures |wins| > 0 && wins[0].appKey == "finder" ==>
      p == (if wins[0].props.Some? then wins[0].props.value.path else None)
    ensures |wins| > 0 && wins[0].appKey != "finder" ==> p == LaunchPathOf(wins[1..])
  {
    if wins == [] then None
    else if wins[0].appKey == "finder" then
      if wins[0].props.Some? then wins[0].props.value.path else None
    else LaunchPathOf(wins[1..])
  }

  /** A Finder window opened earlier without props hides the trash path of one opened
      from the Dock's trash later: the second window starts at the root. */
  lemma EarlierFinderHidesTrashLaunch(w1: Ui.WindowRecord, w2: Ui.WindowRecord, apps: seq<Icon>, trash: seq<Icon>)
    requires w1.appKey == "finder" && w1.props.None?
    requires w2.appKey == "finder" && w2.props == Some(Ui.LaunchProps(Some(["Trash"])))
    ensures LaunchPathOf([w2]) == Some(["Trash"])
    ensures Start(RootEntries(apps, trash), LaunchPathOf([w2])).cwd == AppEntries(trash)
    ensures LaunchPathOf([w1, w2]).None?
    ensures Start(RootEntries(apps, trash), LaunchPathOf([w1, w2])).cwd == RootEntries(apps, trash)
  {
    RootHasTrash(apps, trash);
    assert "Trash" in ["Trash"];
  }

  /** A change of the trash while a folder is open sends the listing back to the root
      but leaves the path bar naming the folder. */
  lemma TrashChangeKeepsStalePath(root: seq<Entry>, e: Entry, root2: seq<Entry>)
    requires e.kind.Folder?
    ensures var s := Open(Start(root, None), e).state;
      var r := Resync(s, root2, None);
      r.cwd == root2 && r.path == ["Macintosh HD", e.title]
  {}

  /** The root folders always contain the trash, so a Finder launched on the trash shows
      the trashed icons. */
  lemma RootHasTrash(apps: seq<Icon>, trash: seq<Icon>)
    ensures FindEntry(RootEntries(apps, trash), "trash").Some?
    ensures TrashChildren(RootEntries(apps, trash)) == AppEntries(trash)
  {
    var root := RootEntries(apps, trash);
    assert root[0].id != "trash" && root[1].id != "trash" && root[2].id != "trash";
    assert root[1..][1..][1..][0] == root[3];
  }

  /** What opening an entry does: the new Finder state and, for an app, the icon whose
      launcher runs. */
  datatype Opened = Opened(state: FinderState, launch: Option<Icon>)

  /** `handleOpen`: a folder is entered, truncating the forward history; an app with an
      icon is launched and the listing is left alone; anything else does nothing. */
  function Open(s: FinderState, e: Entry): (r: Opened)
    requires Valid(s)
    ensures Valid(r.state)
    ensures e.kind.Folder? ==>
      && r.launch.None?
      && r.state.cwd == ChildrenOf(e)
      && r.state.path == s.path + [e.title]
      && r.state.history == s.history[..s.historyIndex + 1] + [ChildrenOf(e)]
      && r.state.historyIndex == |r.state.history| - 1 == s.historyIndex + 1
      && Synced(r.state)
    ensures e.kind.AppItem? ==> r.state == s && r.launch == e.kind.appRef
  {
    match e.kind
    case Folder(_) =>
      var h := s.history[..s.historyIndex + 1] + [ChildrenOf(e)];
      Opened(s.(cwd := ChildrenOf(e), path := s.path + [e.title], history := h, historyIndex := |h| - 1), None)
    case AppItem(ref) => Opened(s, ref)
  }

  /** `path.slice(0, -1)`. */
  function DropLast(p: seq<string>): (r: seq<string>)
    ensures |p| > 0 ==> r == p[..|p| - 1]
    ensures |p| == 0 ==> r == []
  {
    if |p| == 0 then [] else p[..|p| - 1]
  }

  /** `handleBack`: nothing at the first entry; otherwise one step back. */
  function Back(s: FinderState): (r: FinderState)
    requires Valid(s)
    ensures Valid(r) && r.history == s.history && r.view == s.view
    ensures s.historyIndex == 0 ==> r == s
    ensures s.historyIndex > 0 ==>
      r.historyIndex == s.historyIndex - 1 && Synced(r) && r.path == DropLast(s.path)
  {
    if s.historyIndex > 0 then
      s.(historyIndex := s.historyIndex - 1, cwd := s.history[s.historyIndex - 1], path := DropLast(s.path))
    else s
  }

  /** `handleForward`: nothing at the last entry; otherwise one step forward, the path
      growing by an ellipsis segment. */
  function Forward(s: FinderState): (r: FinderState)
    requires Valid(s)
    ensures Valid(r) && r.history == s.history && r.view == s.view
    ensures s.historyIndex == |s.history| - 1 ==> r == s
    ensures s.historyIndex < |s.history| - 1 ==>
      r.historyIndex == s.historyIndex + 1 && Synced(r) && r.path == s.path + ["…"]
  {
    if s.historyIndex < |s.history| - 1 then
      s.(historyIndex := s.historyIndex + 1, cwd := s.history[s.historyIndex + 1], path := s.path + ["…"])
    else s
  }

  /** Back then forward returns to the same listing and index (the path keeps an
      ellipsis in place of the segment it lost). */
  lemma BackThenForward(s: FinderState)
    requires Valid(s) && Synced(s) && s.historyIndex > 0
    ensures var r := Forward(Back(s));
      r.cwd == s.cwd && r.historyIndex == s.historyIndex && r.history == s.history
      && r.path == DropLast(s.path) + ["…"]
  {}

  /** Entering a folder and going back shows the listing and path from before. */
  lemma OpenThenBack(s: FinderState, e: Entry)
    requires Valid(s) && Synced(s) && e.kind.Folder?
    ensures var r := Back(Open(s, e).state);
      r.cwd == s.cwd && r.historyIndex == s.historyIndex && r.path == s.path
      && r.history[..s.historyIndex + 1] == s.history[..s.historyIndex + 1]
  {
    var o := Open(s, e).state;
    assert o.history[s.historyIndex] == s.history[s.historyIndex];
    assert (s.path + [e.title])[..|s.path|] == s.path;
  }

  /** A sidebar device: an empty listing, while the history is reset to the root. */
  function DeviceClick(s: FinderState, root: seq<Entry>, title: string): (r: FinderState)
    ensures Valid(r) && r.view == s.view
    ensures r.cwd == [] && r.path == ["Macintosh HD", title] && r.history == [root] && r.historyIndex == 0
  {
    s.(cwd := [], path := ["Macintosh HD", title], history := [root], historyIndex := 0)
  }

  /** After a device click the listing and the history disagree whenever the root is not
      empty (the real root always has four folders). */
  lemma DeviceClickDesyncs(s: FinderState, apps: seq<Icon>, trash: seq<Icon>, title: string)
    ensures !Synced(DeviceClick(s, RootEntries(apps, trash), title))
  {}

  /** A sidebar place: the folder one step below the root. */
  function PlaceClick(s: FinderState, root: seq<Entry>, e: Entry): (r: FinderState)
    ensures Valid(r) && Synced(r) && r.view == s.view
    ensures r.cwd == ChildrenOf(e) && r.path == ["Macintosh HD", e.title]
    ensures r.history == [root, ChildrenOf(e)] && r.historyIndex == 1
  {
    s.(cwd := ChildrenOf(e), path := ["Macintosh HD", e.title], history := [root, ChildrenOf(e)], historyIndex := 1)
  }

  /** The ids the sidebar lists under Places (Movies, Music and Pictures have no folder). */
  const PlaceIds: seq<string> := ["desktop", "applications", "documents", "movies", "music", "pictures"]

  function Places(root: seq<Entry>): (r: seq<Entry>)
    ensures forall e :: e in r <==> e in root && e.id in PlaceIds
  {
    Filter((e: Entry) => e.id in PlaceIds, root)
  }

  /** The sidebar trash: the trash listing one step below the root. */
  function TrashSidebarClick(s: FinderState, root: seq<Entry>): (r: FinderState)
    ensures Valid(r) && Synced(r) && r.view == s.view
    ensures r.cwd == TrashChildren(root) && r.path == ["Macintosh HD", "Trash"] && r.historyIndex == 1
  {
    var t := TrashChildren(root);
    s.(cwd := t, path := ["Macintosh HD", "Trash"], history := [root, t], historyIndex := 1)
  }

  /** The search filter: a blank query shows the listing; otherwise the entries whose
      lower-cased title contains the lower-cased (untrimmed) query, in order. */
  function Search(cwd: seq<Entry>, query: string): (r: seq<Entry>)
    ensures Blank(query) ==> r == cwd
    ensures !Blank(query) ==>
      (forall e :: e in r <==> e in cwd && Contains(Lower(e.title), Lower(query)))
    ensures |r| <= |cwd|
  {
    TrimEmptyIffBlank(query);
    if Trim(query) == [] then cwd
    else
      var q := Lower(query);
      Filter((e: Entry) => Contains(Lower(e.title), q), cwd)
  }

  /** Searching keeps the listing's order: the matches of two concatenated listings are
      the matches of each, in turn. */
  lemma SearchConcat(a: seq<Entry>, b: seq<Entry>, query: string)
    requires !Blank(query)
    ensures Search(a + b, query) == Search(a, query) + Search(b, query)
  {
    TrimEmptyIffBlank(query);
    var q := Lower(query);
    FilterConcat((e: Entry) => Contains(Lower(e.title), q), a, b);
  }

  /** Cmd-1, Cmd-2 and Cmd-3 pick the icon, list and column views. */
  function ViewShortcut(v: ViewMode, metaKey: bool, key: string): (r: ViewMode)
    ensures metaKey && key == "1" ==> r == IconView
    ensures metaKey && key == "2" ==> r == ListView
    ensures metaKey && key == "3" ==> r == ColumnView
    ensures !(metaKey && key in ["1", "2", "3"]) ==> r == v
  {
    if metaKey && key == "1" then IconView
    else if metaKey && key == "2" then ListView
    else if metaKey && key == "3" then ColumnView
    else v
  }

  /** Space opens Quick Look on the first search result, if any. */
  function QuickLook(current: Option<Entry>, filtered: seq<Entry>): (r: Option<Entry>)
    ensures |filtered| > 0 ==> r == Some(filtered[0])
    ensures |filtered| == 0 ==> r == current
  {
    if |filtered| > 0 then Some(filtered[0]) else current
  }
  /* ---------------------------------------------------------------------- */
  /* Context menu                                                           */
  /* ---------------------------------------------------------------------- */

  /** The trash items of an entry's context menu (besides Open, Quick Look and Get Info). */
  datatype MenuAction = EmptyTrashItem | PutBack | DeleteImmediately | MoveToTrashItem

  /** The trash folder offers Empty Trash; while the path names "Trash" every other entry
      offers Put Back and Delete Immediately; anything else offers Move to Trash. */
  function MenuActions(e: Entry, path: seq<string>): (r: seq<MenuAction>)
    ensures EmptyTrashItem in r <==> e.id == "trash"
    ensures PutBack in r <==> DeleteImmediately in r
    ensures PutBack in r <==> e.id != "trash" && "Trash" in path
    ensures MoveToTrashItem in r <==> e.id != "trash" && "Trash" !in path
    ensures |r| >= 1
  {
    if e.id == "trash" then [EmptyTrashItem]
    else if "Trash" in path then [PutBack, DeleteImmediately]
    else [MoveToTrashItem]
  }

  /** What a menu item does to the desktop icons and the trash. Move to Trash needs an
      app behind the entry; Delete Immediately drops every trashed icon with the id. */
  function ApplyMenu(s: AppsState, e: Entry, a: MenuAction): (r: AppsState)
    ensures a == EmptyTrashItem ==> r == EmptyTrash(s)
    ensures a == PutBack ==> r == RestoreFromTrash(s, e.id)
    ensures a == DeleteImmediately ==>
      r.desktopIcons == s.desktopIcons && forall i :: i in r.trash <==> i in s.trash && i.id != e.id
    ensures a == MoveToTrashItem && e.kind.AppItem? && e.kind.appRef.Some? ==> r == MoveToTrash(s, e.kind.appRef.value)
    ensures a == MoveToTrashItem && !(e.kind.AppItem? && e.kind.appRef.Some?) ==> r == s
  {
    match a
    case EmptyTrashItem => EmptyTrash(s)
    case PutBack => RestoreFromTrash(s, e.id)
    case DeleteImmediately => s.(trash := RemoveId(s.trash, e.id))
    case MoveToTrashItem =>
      if e.kind.AppItem? && e.kind.appRef.Some? then MoveToTrash(s, e.kind.appRef.value) else s
  }

  /** Moving an app to the trash from the Finder and then deleting its trash entry
      immediately removes it from the desktop and leaves the trash as it was. */
  lemma MoveThenDeleteImmediately(s: AppsState, icon: Icon)
    requires forall i :: i in s.trash ==> i.id != icon.id
    ensures var m := ApplyMenu(s, AppEntry(icon), MoveToTrashItem);
      var d := ApplyMenu(m, AppEntries(m.trash)[|s.trash|], DeleteImmediately);
      && AppEntries(m.trash)[|s.trash|] == AppEntry(icon)
      && d.trash == s.trash
      && forall i :: i in d.desktopIcons <==> i in s.desktopIcons && i.id != icon.id
  {
    var m := ApplyMenu(s, AppEntry(icon), MoveToTrashItem);
    assert m.trash == s.trash + [icon];
    var p := (i: Icon) => i.id != icon.id;
    FilterConcat(p, s.trash, [icon]);
    assert Filter(p, [icon]) == [];
    assert RemoveId(s.trash, icon.id) == s.trash;
  }

  /* ---------------------------------------------------------------------- */
  /* Column view                                                            */
  /* ---------------------------------------------------------------------- */

  /** The column view's selection: column number to the entry selected in it. */
  type ColumnSelection = map<int, Entry>

  /** The listing column `level + 1` shows: the children of the entry selected in column
      `level`, when that entry has a listing (an empty one included). */
  function ColumnListing(sel: ColumnSelection, level: int): (c: Option<seq<Entry>>)
    ensures c.Some? <==> level in sel && sel[level].kind.Folder? && sel[level].kind.children.Some?
    ensures c.Some? ==> c.value == ChildrenOf(sel[level])
  {
    if level in sel && sel[level].kind.Folder? && sel[level].kind.children.Some? then
      Some(sel[level].kind.children.value)
    else None
  }

  /** A click in column `level` as written: the selection becomes that entry alone. */
  function SelectAsWritten(sel: ColumnSelection, level: int, e: Entry): (r: ColumnSelection)
    ensures level in r && r[level] == e
    ensures forall l :: l in r ==> l == level
  {
    map[level := e]
  }

  /** Clicking any entry of the second column hides the second column itself: the
      selection of column 1 that produced it is dropped, and beside the root only the
      clicked entry's listing, if it has one, is shown. */
  lemma SecondColumnClickHidesIt(sel: ColumnSelection, e: Entry)
    requires ColumnListing(sel, 1).Some? && e in ColumnListing(sel, 1).value
    ensures ColumnListing(SelectAsWritten(sel, 2, e), 1).None?
    ensures ColumnListing(SelectAsWritten(sel, 2, e), 2).Some? <==> e.kind.Folder? && e.kind.children.Some?
  {}

  /** A click in column `level` keeping the selections of the columns before it and
      dropping those after it. */
  function Select(sel: ColumnSelection, level: int, e: Entry): (r: ColumnSelection)
    ensures level in r && r[level] == e
    ensures forall l :: l in r <==> l == level || (l in sel && l < level)
    ensures forall l :: l in sel && l < level ==> r[l] == sel[l]
  {
    (map l | l in sel && l < level :: sel[l])[level := e]
  }

  /** With the kept selections, clicking an entry of the second column leaves the second
      column as it was and opens the third for a folder. */
  lemma SecondColumnClickKeepsIt(sel: ColumnSelection, e: Entry)
    requires ColumnListing(sel, 1).Some? && e in ColumnListing(sel, 1).value
    ensures ColumnListing(Select(sel, 2, e), 1) == ColumnListing(sel, 1)
    ensures ColumnListing(Select(sel, 2, e), 2).Some? <==> e.kind.Folder? && e.kind.children.Some?
  {}

  /** In the first column the two agree: the columns are numbered from 1, so nothing comes
      before it. */
  lemma FirstColumnClickAgrees(sel: ColumnSelection, e: Entry)
    requires forall l :: l in sel ==> l >= 1
    ensures Select(sel, 1, e) == SelectAsWritten(sel, 1, e)
  {
    assert forall l :: l in Select(sel, 1, e) <==> l == 1;
  }
}

=== FILE: games.dfy ===
/** The games slice (`src/store/games.ts`): per-game sessions and the local top-10
    leaderboards. Scores are integers; the clock is a parameter (milliseconds). */
module Games {
  import opened Wrappers
  import opened Seqs

  datatype GameScore = GameScore(anonId: string, handle: Option<string>, score: int, ts: int)

  datatype GameSession = GameSession(gameId: string, startTime: int, score: int, active: bool)

  datatype Board = Board(today: seq<GameScore>, allTime: seq<GameScore>)

  datatype GamesState = GamesState(sessions: map<string, GameSession>, leaderboards: map<string, Board>)

  const EmptyGames: GamesState := GamesState(map[], map[])

  const BoardSize: nat := 10

  /** `startGame`: a fresh active session with score 0, replacing any previous one. */
  function StartGame(s: GamesState, gameId: string, now: int): (r: GamesState)
    ensures gameId in r.sessions && r.sessions[gameId] == GameSession(gameId, now, 0, true)
    ensures forall g :: g != gameId ==> (g in r.sessions <==> g in s.sessions)
    ensures forall g :: g != gameId && g in s.sessions ==> r.sessions[g] == s.sessions[g]
    ensures r.leaderboards == s.leaderboards
  {
    s.(sessions := s.sessions[gameId := GameSession(gameId, now, 0, true)])
  }

  /** `endGame`: a missing session is ignored; otherwise only `active` becomes false. */
  function EndGame(s: GamesState, gameId: string): (r: GamesState)
    ensures gameId !in s.sessions ==> r == s
    ensures gameId in s.sessions ==>
      && r.sessions == s.sessions[gameId := s.sessions[gameId].(active := false)]
      && r.leaderboards == s.leaderboards
  {
    if gameId !in s.sessions then s
    else s.(sessions := s.sessions[gameId := s.sessions[gameId].(active := false)])
  }

  lemma EndAfterStart(s: GamesState, gameId: string, now: int)
    ensures var r := EndGame(StartGame(s, gameId, now), gameId);
      r.sessions[gameId] == GameSession(gameId, now, 0, false) && r.leaderboards == s.leaderboards
  {}

  /** Non-increasing by score. */
  predicate Sorted(b: seq<GameScore>) {
    forall i, j :: 0 <= i < j < |b| ==> b[i].score >= b[j].score
  }

  /** Where a stable descending sort puts `x` behind `t`: after the leading entries that
      score at least as much. */
  function InsertPos(t: seq<GameScore>, x: GameScore): (p: nat)
    ensures p <= |t|
    ensures forall i :: 0 <= i < p ==> t[i].score >= x.score
    ensures p < |t| ==> t[p].score < x.score
  {
    if t == [] || t[0].score < x.score then 0 else 1 + InsertPos(t[1..], x)
  }

  /** `x` inserted after the ties, so the newest of equal scores comes last. */
  function Insert(t: seq<GameScore>, x: GameScore): (r: seq<GameScore>)
    ensures |r| == |t| + 1
  {
    var p := InsertPos(t, x);
    t[..p] + [x] + t[p..]
  }

  /** Insertion adds `x` and loses nothing. */
  lemma InsertPermutes(t: seq<GameScore>, x: GameScore)
    ensures multiset(Insert(t, x)) == multiset(t) + multiset{x}
  {
    var p := InsertPos(t, x);
    assert t == t[..p] + t[p..];
  }

  /** In a sorted list, everything from the insertion point on scores below `x`. */
  lemma BehindInsertPos(t: seq<GameScore>, x: GameScore)
    requires Sorted(t)
    ensures forall i :: InsertPos(t, x) <= i < |t| ==> t[i].score < x.score
    ensures forall g :: g in t[InsertPos(t, x)..] ==> g.score < x.score
  {
    var p := InsertPos(t, x);
    forall g | g in t[p..] ensures g.score < x.score {
      var i :| 0 <= i < |t[p..]| && t[p..][i] == g;
      assert g == t[p + i];
    }
  }

  /** A pivot no higher than what precedes it and no lower than what follows it joins two
      sorted lists into one. */
  lemma SortedAround(a: seq<GameScore>, x: GameScore, b: seq<GameScore>)
    requires Sorted(a) && Sorted(b)
    requires forall i :: 0 <= i < |a| ==> a[i].score >= x.score
    requires forall j :: 0 <= j < |b| ==> b[j].score <= x.score
    ensures Sorted(a + [x] + b)
  {
    var r := a + [x] + b;
    var n := |a|;
    forall i, j | 0 <= i < j < |r| ensures r[i].score >= r[j].score {
      if j < n {
        assert r[i] == a[i] && r[j] == a[j];
      } else if j == n {
        assert r[i] == a[i] && r[j] == x;
      } else if i < n {
        assert r[i] == a[i] && r[j] == b[j - n - 1];
      } else if i == n {
        assert r[i] == x && r[j] == b[j - n - 1];
      } else {
        assert r[i] == b[i - n - 1] && r[j] == b[j - n - 1];
      }
    }
  }

  lemma SortedSlices(t: seq<GameScore>, p: nat)
    requires Sorted(t) && p <= |t|
    ensures Sorted(t[..p]) && Sorted(t[p..])
  {}

  lemma InsertSorted(t: seq<GameScore>, x: GameScore)
    requires Sorted(t)
    ensures Sorted(Insert(t, x))
  {
    var p := InsertPos(t, x);
    var a, b := t[..p], t[p..];
    SortedSlices(t, p);
    BehindInsertPos(t, x);
    assert forall i :: 0 <= i < |a| ==> a[i].score >= x.score by {
      forall i | 0 <= i < |a| ensures a[i].score >= x.score { assert a[i] == t[i]; }
    }
    assert forall j :: 0 <= j < |b| ==> b[j].score <= x.score by {
      forall j | 0 <= j < |b| ensures b[j].score <= x.score { assert b[j] == t[p + j]; }
    }
    SortedAround(a, x, b);
  }

  /** A stable descending sort by score (insertion sort, later elements go after ties):
      the source's `sort((a, b) => b.score - a.score)`, stable as ECMAScript requires. */
  function Sort(s: seq<GameScore>): (r: seq<GameScore>)
    ensures |r| == |s|
  {
    if s == [] then []
    else Insert(Sort(s[..|s| - 1]), s[|s| - 1])
  }

  /** The sort is a permutation of its input. */
  lemma {:induction false} SortPermutes(s: seq<GameScore>)
    ensures multiset(Sort(s)) == multiset(s)
  {
    if s != [] {
      var init, last := s[..|s| - 1], s[|s| - 1];
      SortPermutes(init);
      InsertPermutes(Sort(init), last);
      assert s == init + [last];
      assert multiset(s) == multiset(init) + multiset{last};
    }
  }

  lemma {:induction false} SortSorted(s: seq<GameScore>)
    ensures Sorted(Sort(s))
  {
    if s != [] {
      SortSorted(s[..|s| - 1]);
      InsertSorted(Sort(s[..|s| - 1]), s[|s| - 1]);
    }
  }

  /** Entries with score `k`, in order. */
  function WithScore(s: seq<GameScore>, k: int): seq<GameScore> {
    if s == [] then [] else (if s[0].score == k then [s[0]] else []) + WithScore(s[1..], k)
  }

  lemma {:induction false} WithScoreConcat(a: seq<GameScore>, b: seq<GameScore>, k: int)
    ensures WithScore(a + b, k) == WithScore(a, k) + WithScore(b, k)
  {
    if a == [] {
      assert a + b == b;
    } else {
      assert (a + b)[0] == a[0];
      assert (a + b)[1..] == a[1..] + b;
      WithScoreConcat(a[1..], b, k);
    }
  }

  lemma WithScoreSingle(x: GameScore, k: int)
    ensures WithScore([x], k) == if x.score == k then [x] else []
  {
    assert [x][1..] == [];
  }

  lemma {:induction false} WithScoreAround(a: seq<GameScore>, x: GameScore, b: seq<GameScore>, k: int)
    ensures WithScore(a + [x] + b, k) == WithScore(a, k) + (if x.score == k then [x] else []) + WithScore(b, k)
  {
    WithScoreConcat(a + [x], b, k);
    WithScoreConcat(a, [x], k);
    WithScoreSingle(x, k);
  }

  lemma {:induction false} WithScoreBelow(b: seq<GameScore>, k: int)
    requires forall g :: g in b ==> g.score < k
    ensures WithScore(b, k) == []
  {
    if b != [] {
      assert forall g :: g in b[1..] ==> g in b;
      WithScoreBelow(b[1..], k);
    }
  }

  lemma {:induction false} StableAround(front: seq<GameScore>, x: GameScore, back: seq<GameScore>, k: int)
    requires forall g :: g in back ==> g.score < x.score
    ensures WithScore(front + [x] + back, k) == WithScore(front + back, k) + (if x.score == k then [x] else [])
  {
    WithScoreAround(front, x, back, k);
    WithScoreConcat(front, back, k);
    if x.score == k {
      WithScoreBelow(back, k);
    }
  }

  lemma {:induction false} InsertStable(t: seq<GameScore>, x: GameScore, k: int)
    requires Sorted(t)
    ensures WithScore(Insert(t, x), k) == WithScore(t, k) + (if x.score == k then [x] else [])
  {
    var p := InsertPos(t, x);
    BehindInsertPos(t, x);
    StableAround(t[..p], x, t[p..], k);
    assert t == t[..p] + t[p..];
  }

  /** Stability: among entries of equal score the sort keeps their input order. */
  lemma {:induction false} SortStable(s: seq<GameScore>, k: int)
    ensures WithScore(Sort(s), k) == WithScore(s, k)
  {
    if s != [] {
      var init, last := s[..|s| - 1], s[|s| - 1];
      var tie: seq<GameScore> := if last.score == k then [last] else [];
      assert s == init + [last];
      calc {
        WithScore(Sort(s), k);
        WithScore(Insert(Sort(init), last), k);
        { SortSorted(init); InsertStable(Sort(init), last, k); }
        WithScore(Sort(init), k) + tie;
        { SortStable(init, k); }
        WithScore(init, k) + tie;
        { WithScoreConcat(init, [last], k); assert WithScore([last], k) == tie; }
        WithScore(s, k);
      }
    }
  }

  /** The board update: the old entries and the new score, sorted, first ten kept. */
  function Push(board: seq<GameScore>, x: GameScore): (r: seq<GameScore>)
    ensures |r| <= BoardSize && Sorted(r)
    ensures |r| == if |board| + 1 < BoardSize then |board| + 1 else BoardSize
  {
    SortSorted(board + [x]);
    Take(Sort(board + [x]), BoardSize)
  }

  /** A score no higher than any entry goes at the end. */
  lemma InsertAtEnd(t: seq<GameScore>, x: GameScore)
    requires forall i :: 0 <= i < |t| ==> t[i].score >= x.score
    ensures Insert(t, x) == t + [x]
  {
    assert InsertPos(t, x) == |t|;
    assert t[..|t|] == t && t[|t|..] == [];
  }

  lemma {:induction false} SortOfSorted(s: seq<GameScore>)
    requires Sorted(s)
    ensures Sort(s) == s
  {
    if s != [] {
      var init, last := s[..|s| - 1], s[|s| - 1];
      SortedSlices(s, |s| - 1);
      SortOfSorted(init);
      assert forall i :: 0 <= i < |init| ==> init[i].score >= last.score by {
        forall i | 0 <= i < |init| ensures init[i].score >= last.score { assert init[i] == s[i]; }
      }
      InsertAtEnd(init, last);
      assert s == init + [last];
    }
  }

  /** On a sorted board the update is an insertion after the ties: every entry ahead of
      the new score scores at least as much, every entry behind it strictly less. */
  lemma PushIntoSorted(board: seq<GameScore>, x: GameScore)
    requires Sorted(board)
    ensures var p := InsertPos(board, x);
      && Push(board, x) == Take(board[..p] + [x] + board[p..], BoardSize)
      && (forall i :: 0 <= i < p ==> board[i].score >= x.score)
      && (forall i :: p <= i < |board| ==> board[i].score < x.score)
  {
    SortOfSorted(board);
    assert (board + [x])[..|board|] == board;
    BehindInsertPos(board, x);
  }

  const DayMs: int := 86_400_000

  /** Local midnight of the day containing `now` (time zones are not modelled). */
  function MidnightOf(now: int): (m: int)
    ensures m <= now < m + DayMs
  {
    now - now % DayMs
  }

  /** `isToday` compares the clock with today's midnight, so it never fails. */
  function IsToday(now: int): (b: bool)
    ensures b
  {
    now >= MidnightOf(now)
  }

  /** A game's boards after a new score: both lists get the score pushed on. */
  function PushBoth(board: Board, x: GameScore, now: int): (r: Board)
    ensures r == Board(Push(board.today, x), Push(board.allTime, x))
  {
    Board(if IsToday(now) then Push(board.today, x) else board.today, Push(board.allTime, x))
  }

  /** `submitScore`: the new score is pushed onto both boards of the game (a missing
      board starts empty); other games' boards are untouched. */
  function SubmitScore(s: GamesState, gameId: string, score: int, anonId: string, handle: Option<string>, now: int): (r: GamesState)
    ensures gameId in r.leaderboards
    ensures var prior := if gameId in s.leaderboards then s.leaderboards[gameId] else Board([], []);
      var x := GameScore(anonId, handle, score, now);
      r.leaderboards[gameId] == Board(Push(prior.today, x), Push(prior.allTime, x))
    ensures forall g :: g in s.leaderboards ==> g in r.leaderboards
    ensures forall g :: g in r.leaderboards && g != gameId ==> g in s.leaderboards && r.leaderboards[g] == s.leaderboards[g]
    ensures r.sessions == s.sessions
  {
    var board := if gameId in s.leaderboards then s.leaderboards[gameId] else Board([], []);
    s.(leaderboards := s.leaderboards[gameId := PushBoth(board, GameScore(anonId, handle, score, now), now)])
  }

  /** At most ten entries in each list, each list sorted. */
  predicate BoardValid(b: Board) {
    |b.today| <= BoardSize && Sorted(b.today) && |b.allTime| <= BoardSize && Sorted(b.allTime)
  }

  /** Every game's board is valid. */
  ghost predicate BoardsValid(s: GamesState) {
    forall g :: g in s.leaderboards ==> BoardValid(s.leaderboards[g])
  }

  /** Pushing a score yields a valid board whatever the board held before. */
  lemma PushBothValid(board: Board, x: GameScore, now: int)
    ensures BoardValid(PushBoth(board, x, now))
  {}

  lemma SubmitKeepsBoardsValid(s: GamesState, gameId: string, score: int, anonId: string, handle: Option<string>, now: int)
    requires BoardsValid(s)
    ensures BoardsValid(SubmitScore(s, gameId, score, anonId, handle, now))
  {
    var r := SubmitScore(s, gameId, score, anonId, handle, now);
    var prior := if gameId in s.leaderboards then s.leaderboards[gameId] else Board([], []);
    PushBothValid(prior, GameScore(anonId, handle, score, now), now);
    forall g | g in r.leaderboards ensures BoardValid(r.leaderboards[g]) {
      if g != gameId { assert r.leaderboards[g] == s.leaderboards[g]; }
    }
  }

  /** `setLeaderboard`: only the named game's board is replaced. */
  function SetLeaderboard(s: GamesState, gameId: string, data: Board): (r: GamesState)
    ensures gameId in r.leaderboards && r.leaderboards[gameId] == data
    ensures forall g :: g != gameId ==> (g in r.leaderboards <==> g in s.leaderboards)
    ensures forall g :: g != gameId && g in s.leaderboards ==> r.leaderboards[g] == s.leaderboards[g]
    ensures r.sessions == s.sessions
  {
    s.(leaderboards := s.leaderboards[gameId := data])
  }
}

=== FILE: holidays.dfy ===
/** Holiday detection (`src/config/holidays.ts`): the movable US Thanksgiving, the
    table-driven Chinese New Year and Eid dates, the built-in list consulted first-match,
    and the rule strings of the remote holiday table. Moments are milliseconds of local
    time (see `Dates`); the remote table is an input, `None` when the query failed, and
    the clock reading `new Date()` is the parameter `now`. */
module Holidays {
  import opened Wrappers
  import opened Strs
  import opened Dates
  import Seqs

  datatype Holiday = Holiday(id: string, name: string, start: Moment, end: Moment, themeId: string)

  const November: int := 10

  /** The day of the month of the fourth Thursday of November. */
  function ThanksgivingDayOfMonth(y: int): (d: int)
    ensures 22 <= d <= 28
    ensures Weekday(MakeDay(y, November, d)) == 4
  {
    var w := Weekday(MakeDay(y, November, 1));
    var firstThu := 1 + ((4 - w + 7) % 7);
    var b := MonthStart(y, November);
    var first, last := MakeDay(y, November, 1), MakeDay(y, November, firstThu + 21);
    assert first == b && last == b + firstThu + 20;
    ThursdayAt(first, w, firstThu + 21, last);
    firstThu + 21
  }

  /** `thanksgivingDate(year)`: midnight of the fourth Thursday of November. */
  function ThanksgivingDate(y: int): (t: Moment)
    ensures t.day == MakeDay(y, November, ThanksgivingDayOfMonth(y))
  {
    Midnight(y, November, ThanksgivingDayOfMonth(y))
  }

  /** Three weeks after the first Thursday on or after day `b` is a Thursday. */
  lemma ThursdayAt(b: int, w: int, d: int, last: int)
    requires w == Weekday(b) && d == 1 + ((4 - w + 7) % 7) + 21 && last == b + d - 1
    ensures Weekday(last) == 4
  {
    var q := b + 4;
    var r := q % 7;
    var k := q / 7;
    assert q == 7 * k + r;
    if r <= 4 {
      assert (11 - r) % 7 == 4 - r;
      assert q + (4 - r) + 21 == 7 * (k + 3) + 4;
    } else {
      assert (11 - r) % 7 == 11 - r;
      assert q + (11 - r) + 21 == 7 * (k + 4) + 4;
    }
  }

  /** Thanksgiving is the fourth Thursday: the Thursdays of November up to it are the
      days whole weeks before it, the first of them in the month's first week. */
  lemma ThanksgivingIsFourthThursday(y: int, k: int)
    requires 1 <= k <= ThanksgivingDayOfMonth(y)
    ensures var d := ThanksgivingDayOfMonth(y);
      Weekday(MakeDay(y, November, k)) == 4 <==> k == d - 21 || k == d - 14 || k == d - 7 || k == d
  {
    ThursdaysBefore(y, ThanksgivingDayOfMonth(y), k);
  }

  lemma ThursdaysBefore(y: int, d: int, k: int)
    requires 1 <= k <= d <= 28 && Weekday(MakeDay(y, November, d)) == 4
    ensures Weekday(MakeDay(y, November, k)) == 4 <==> k == d - 21 || k == d - 14 || k == d - 7 || k == d
  {
    var b := MonthStart(y, November);
    var a, c := MakeDay(y, November, d), MakeDay(y, November, k);
    assert a == b + d - 1 && c == b + k - 1;
    SameWeekdayWeeks(a, c, d - k);
  }

  /** Two days at most four weeks apart, the later a Thursday: the earlier is one exactly
      when they are whole weeks apart. */
  lemma SameWeekdayWeeks(a: int, c: int, gap: int)
    requires Weekday(a) == 4 && a - c == gap && 0 <= gap < 28
    ensures Weekday(c) == 4 <==> gap == 0 || gap == 7 || gap == 14 || gap == 21
  {}

  /** Chinese New Year for the years the source tabulates (month 0 = January). */
  function CnyTable(y: int): (c: Option<Civil>)
    ensures c.Some? <==> 2025 <= y <= 2030
    ensures c.Some? ==> ValidCivil(c.value) && c.value.year == y
  {
    if y == 2025 then Some(Civil(2025, 0, 29))
    else if y == 2026 then Some(Civil(2026, 1, 17))
    else if y == 2027 then Some(Civil(2027, 1, 6))
    else if y == 2028 then Some(Civil(2028, 0, 26))
    else if y == 2029 then Some(Civil(2029, 1, 13))
    else if y == 2030 then Some(Civil(2030, 1, 3))
    else None
  }

  /** Eid al-Fitr for the years the source tabulates. */
  function EidTable(y: int): (c: Option<Civil>)
    ensures c.Some? <==> 2025 <= y <= 2030
    ensures c.Some? ==> ValidCivil(c.value) && c.value.year == y
  {
    if y == 2025 then Some(Civil(2025, 2, 31))
    else if y == 2026 then Some(Civil(2026, 2, 21))
    else if y == 2027 then Some(Civil(2027, 2, 10))
    else if y == 2028 then Some(Civil(2028, 1, 27))
    else if y == 2029 then Some(Civil(2029, 1, 15))
    else if y == 2030 then Some(Civil(2030, 1, 5))
    else None
  }

  /** `new Date(d.getFullYear(), d.getMonth(), d.getDate())`: the moment with its time of
      day removed. */
  function StripTime(t: Moment): (r: Moment)
    ensures r.day == t.day && r.ms == 0
  {
    Moment(t.day, 0)
  }

  /** Rebuilding the moment from the year, month and day it reports gives that midnight. */
  lemma StripTimeRebuildsDate(t: Moment)
    ensures var c := CivilOf(t.day); StripTime(t) == Midnight(c.year, c.month, c.day)
  {}

  /** `between(s, e, d)`: whether the date of `d` lies from the date of `s` to the date of
      `e`, both ends included; the times of day play no part. */
  function Between(s: Moment, e: Moment, d: Moment): (b: bool)
    ensures b <==> s.day <= d.day <= e.day
  {
    var x := StripTime(d);
    NotAfter(StripTime(s), x) && NotAfter(x, StripTime(e))
  }

  /** Two moments of the same day are either both inside a span or both outside it. */
  lemma BetweenIgnoresTime(s: Moment, e: Moment, d1: Moment, d2: Moment)
    requires d1.day == d2.day
    ensures Between(s, e, d1) == Between(s, e, d2)
  {}

  /** A span whose first day is after its last day contains no date. */
  lemma ReversedSpanIsEmpty(s: Moment, e: Moment, d: Moment)
    requires s.day > e.day
    ensures !Between(s, e, d)
  {}

  /** The table date with one day either side, or `now` for both ends outside the table. */
  function TableStart(c: Option<Civil>, now: Moment): Moment {
    match c
    case Some(v) => Midnight(v.year, v.month, v.day - 1)
    case None => now
  }

  function TableEnd(c: Option<Civil>, now: Moment): Moment {
    match c
    case Some(v) => Midnight(v.year, v.month, v.day + 1)
    case None => now
  }

  /** How a built-in holiday's span is found for a year. */
  datatype LocalSpan =
    | Days(m1: int, d1: int, m2: int, d2: int)  // `new Date(y, m1, d1)` to `new Date(y, m2, d2)`
    | FourthThursday                           // `thanksgivingDate(y)`, both ends
    | AroundTable(cny: bool)                   // the table date with a day either side

  datatype LocalDef = LocalDef(id: string, name: string, span: LocalSpan, themeId: string)

  /** The built-in holidays, in the order they are consulted. */
  const LocalDefs: seq<LocalDef> := [
    LocalDef("new_year", "New Year", Days(0, 1, 0, 3), "theme_new_year"),
    LocalDef("valentines", "Valentine\U{2019}s Day", Days(1, 14, 1, 14), "theme_valentines"),
    LocalDef("halloween", "Halloween", Days(9, 31, 9, 31), "theme_halloween"),
    LocalDef("thanksgiving_us", "Thanksgiving (US)", FourthThursday, "theme_thanksgiving"),
    LocalDef("christmas", "Christmas", Days(11, 20, 11, 27), "theme_christmas"),
    LocalDef("cny", "Chinese New Year", AroundTable(true), "theme_cny"),
    LocalDef("eid", "Eid al-Fitr", AroundTable(false), "theme_eid"),
    LocalDef("nigeria_independence", "Nigeria Independence Day", Days(9, 1, 9, 1), "theme_nigeria_independence")
  ]

  function SpanStart(sp: LocalSpan, y: int, now: Moment): Moment {
    match sp
    case Days(m1, d1, _, _) => Midnight(y, m1, d1)
    case FourthThursday => ThanksgivingDate(y)
    case AroundTable(cny) => TableStart(if cny then CnyTable(y) else EidTable(y), now)
  }

  function SpanEnd(sp: LocalSpan, y: int, now: Moment): Moment {
    match sp
    case Days(_, _, m2, d2) => Midnight(y, m2, d2)
    case FourthThursday => ThanksgivingDate(y)
    case AroundTable(cny) => TableEnd(if cny then CnyTable(y) else EidTable(y), now)
  }

  /** The holiday record the source builds for year `y`. */
  function LocalHoliday(def: LocalDef, y: int, now: Moment): Holiday {
    Holiday(def.id, def.name, SpanStart(def.span, y, now), SpanEnd(def.span, y, now), def.themeId)
  }

  predicate Active(h: Holiday, date: Moment) {
    Between(h.start, h.end, date)
  }

  /** The index of the first definition whose holiday is active on `date`, or `|defs|`. */
  function FirstActive(defs: seq<LocalDef>, y: int, now: Moment, date: Moment): (i: int)
    ensures 0 <= i <= |defs|
    ensures forall j :: 0 <= j < i ==> !Active(LocalHoliday(defs[j], y, now), date)
    ensures i < |defs| ==> Active(LocalHoliday(defs[i], y, now), date)
  {
    if defs == [] then 0
    else if Active(LocalHoliday(defs[0], y, now), date) then 0
    else 1 + FirstActive(defs[1..], y, now, date)
  }

  /** The first holiday of `defs` for year `y` whose span holds `date`: none exactly when
      no definition is active, and otherwise an active one with no active one before it. */
  function FirstLocal(defs: seq<LocalDef>, y: int, now: Moment, date: Moment): (r: Option<Holiday>)
    ensures r.None? <==> forall j :: 0 <= j < |defs| ==> !Active(LocalHoliday(defs[j], y, now), date)
    ensures r.Some? ==> exists i :: 0 <= i < |defs| && r.value == LocalHoliday(defs[i], y, now)
                                    && Active(r.value, date)
                                    && forall j :: 0 <= j < i ==> !Active(LocalHoliday(defs[j], y, now), date)
  {
    var i := FirstActive(defs, y, now, date);
    if i < |defs| then Some(LocalHoliday(defs[i], y, now)) else None
  }

  /** `getLocalActiveHoliday(date)`: the first built-in holiday of the date's year whose
      span holds the date. */
  function LocalActiveHoliday(date: Moment, now: Moment): Option<Holiday> {
    FirstLocal(LocalDefs, YearOf(date.day), now, date)
  }

  /** When definition `i` is the first active one, the scan stops there. */
  lemma {:induction false} FirstActiveAt(defs: seq<LocalDef>, y: int, now: Moment, date: Moment, i: nat)
    requires i < |defs| && Active(LocalHoliday(defs[i], y, now), date)
    requires forall j :: 0 <= j < i ==> !Active(LocalHoliday(defs[j], y, now), date)
    ensures FirstActive(defs, y, now, date) == i
  {
    if i > 0 {
      FirstActiveAt(defs[1..], y, now, date, i - 1);
    }
  }

  /** January 1st to 3rd are New Year. */
  lemma NewYearSpan(y: int, d: int, date: Moment, now: Moment)
    requires 1 <= d <= 3 && date.day == MakeDay(y, 0, d)
    ensures LocalActiveHoliday(date, now).Some?
    ensures LocalActiveHoliday(date, now).value.id == "new_year"
  {
    YearOfDay(y, 0, d);
    var h := LocalHoliday(LocalDefs[0], y, now);
    assert h.start.day == MakeDay(y, 0, 1) && h.end.day == MakeDay(y, 0, 3);
    assert Active(h, date);
    FirstActiveAt(LocalDefs, y, now, date, 0);
  }

  /** December 20th to 27th are Christmas: no holiday earlier in the list covers them. */
  lemma ChristmasSpan(y: int, d: int, date: Moment, now: Moment)
    requires 20 <= d <= 27 && date.day == MakeDay(y, 11, d)
    ensures LocalActiveHoliday(date, now).Some?
    ensures LocalActiveHoliday(date, now).value.id == "christmas"
  {
    YearOfDay(y, 11, d);
    var dec := MonthStart(y, 11);
    assert date.day == dec + d - 1;
    assert MonthOffset(y, 11) == MonthOffset(y, 10) + 30 == MonthOffset(y, 9) + 61;
    MonthOffsetMono(y, 1, 9);
    var ds := LocalDefs;
    var h0, h1, h2, h3, h4 := LocalHoliday(ds[0], y, now), LocalHoliday(ds[1], y, now),
      LocalHoliday(ds[2], y, now), LocalHoliday(ds[3], y, now), LocalHoliday(ds[4], y, now);
    assert h0.end.day == MonthStart(y, 0) + 2 && !Active(h0, date);
    assert h1.end.day == MonthStart(y, 1) + 13 && !Active(h1, date);
    assert h2.end.day == MonthStart(y, 9) + 30 && !Active(h2, date);
    assert h3.end.day <= MonthStart(y, 10) + 27 && !Active(h3, date);
    assert h4.start.day == dec + 19 && h4.end.day == dec + 26 && Active(h4, date);
    forall j | 0 <= j < 4 ensures !Active(LocalHoliday(ds[j], y, now), date) {
      assert j == 0 || j == 1 || j == 2 || j == 3;
    }
    FirstActiveAt(ds, y, now, date, 4);
  }

  /** Outside 2025 to 2030 the Chinese New Year entry spans the day of `now` alone, so it is
      active exactly when the date falls on that day. */
  lemma CnyOutsideTable(date: Moment, now: Moment)
    requires CnyTable(YearOf(date.day)).None?
    ensures Active(LocalHoliday(LocalDefs[5], YearOf(date.day), now), date) <==> date.day == now.day
  {
    var h := LocalHoliday(LocalDefs[5], YearOf(date.day), now);
    assert h.start == now && h.end == now;
  }

  /** Inside the table the entry spans the tabulated day and one day either side. */
  lemma CnyInsideTable(date: Moment, now: Moment)
    requires CnyTable(YearOf(date.day)).Some?
    ensures var n := DayOfCivil(CnyTable(YearOf(date.day)).value);
      Active(LocalHoliday(LocalDefs[5], YearOf(date.day), now), date) <==> n - 1 <= date.day <= n + 1
  {
    assert LocalDefs[5].span == AroundTable(true);
  }

  /** The same two facts for Eid al-Fitr. */
  lemma EidSpan(date: Moment, now: Moment)
    ensures var y := YearOf(date.day);
      var h := LocalHoliday(LocalDefs[6], y, now);
      (EidTable(y).None? ==> (Active(h, date) <==> date.day == now.day))
      && (EidTable(y).Some? ==>
            (Active(h, date) <==> DayOfCivil(EidTable(y).value) - 1 <= date.day <= DayOfCivil(EidTable(y).value) + 1))
  {
    assert LocalDefs[6].span == AroundTable(false);
  }

  /** A row of the remote holiday table. */
  datatype HolidayRow = HolidayRow(name: string, rule: string, themeId: string)

  /** A rule string as the source reads it. A `M-D` piece becomes the pair of `Number`
      values of its first two parts, `None` standing for NaN (a part that is missing is
      `undefined`, which gives NaN too). `Malformed` is a rule whose missing piece the
      source calls `split` on, which throws. */
  datatype Rule =
    | Fixed(on: MonthDayNums)
    | Range(from: MonthDayNums, to: MonthDayNums)
    | ThanksgivingRule
    | EidRule
    | CnyRule
    | UnknownRule
    | Malformed

  datatype MonthDayNums = MonthDayNums(month: Option<int>, day: Option<int>)

  /** `Number` of the `i`th piece; a missing piece is `undefined`, which gives NaN. */
  function NumberAt(parts: seq<string>, i: nat): Option<int> {
    if i < |parts| then ParseNumber(parts[i]) else None
  }

  /** `piece.split("-").map(Number)`, first two values. */
  function ParseMonthDay(piece: string): MonthDayNums {
    var md := Split(piece, '-');
    MonthDayNums(NumberAt(md, 0), NumberAt(md, 1))
  }

  /** `const [type, rule] = h.rule.split(":")` and the pieces each type reads. */
  function ParseRule(rule: string): Rule {
    var parts := Split(rule, ':');
    var kind := parts[0];
    if kind == "fixed" then
      if |parts| < 2 then Malformed else Fixed(ParseMonthDay(parts[1]))
    else if kind == "range" then
      if |parts| < 2 then Malformed
      else
        var se := Split(parts[1], ',');
        if |se| < 2 then Malformed else Range(ParseMonthDay(se[0]), ParseMonthDay(se[1]))
    else if kind == "thanksgiving" then ThanksgivingRule
    else if kind == "eid" then EidRule
    else if kind == "cny" then CnyRule
    else UnknownRule
  }

  /** The type before the first `:` decides the rule: the three named movable holidays,
      and an unknown rule for any type other than the five known ones. */
  lemma ParseRuleKinds(rule: string)
    ensures var kind := Split(rule, ':')[0]; var r := ParseRule(rule);
      (kind == "thanksgiving" <==> r == ThanksgivingRule) && (kind == "eid" <==> r == EidRule)
      && (kind == "cny" <==> r == CnyRule)
      && (kind !in {"fixed", "range", "thanksgiving", "eid", "cny"} <==> r == UnknownRule)
  {}

  /** What a rule yields for a year: an exception, no dates, or a start and an end, each
      `None` for an invalid date. */
  datatype RuleDates = Throws | NoDates | Dates(start: Option<Moment>, end: Option<Moment>)

  /** `new Date(y, m - 1, d)`; NaN in either number gives an invalid date. */
  function DateOf(y: int, md: MonthDayNums): (t: Option<Moment>)
    ensures t.Some? <==> md.month.Some? && md.day.Some?
    ensures t.Some? ==> t.value.day == MakeDay(y, md.month.value - 1, md.day.value)
  {
    if md.month.Some? && md.day.Some? then Some(Midnight(y, md.month.value - 1, md.day.value)) else None
  }

  /** A tabulated date as both ends; no dates outside the table. */
  function TableDates(c: Option<Civil>): (r: RuleDates)
    ensures c.None? <==> r == NoDates
  {
    match c
    case Some(v) => Dates(Some(Midnight(v.year, v.month, v.day)), Some(Midnight(v.year, v.month, v.day)))
    case None => NoDates
  }

  /** The start and end the rule gives in year `y`: the branches of `getActiveHoliday`. */
  function RuleSpan(rule: Rule, y: int): (r: RuleDates)
    ensures rule == UnknownRule ==> r == NoDates
    ensures rule == Malformed <==> r == Throws
    ensures rule == ThanksgivingRule ==> r == Dates(Some(ThanksgivingDate(y)), Some(ThanksgivingDate(y)))
    ensures (rule == EidRule || rule == CnyRule) && !(2025 <= y <= 2030) ==> r == NoDates
  {
    match rule
    case Fixed(md) => Dates(DateOf(y, md), DateOf(y, md))
    case Range(a, b) => Dates(DateOf(y, a), DateOf(y, b))
    case ThanksgivingRule => Dates(Some(ThanksgivingDate(y)), Some(ThanksgivingDate(y)))
    case EidRule => TableDates(EidTable(y))
    case CnyRule => TableDates(CnyTable(y))
    case UnknownRule => NoDates
    case Malformed => Throws
  }

  /** The rule string for a fixed day of month `m` (1 = January). */
  function FixedRule(m: nat, d: nat): string {
    "fixed:" + NatToString(m) + "-" + NatToString(d)
  }

  /** The rule string for a span from `m1`/`d1` to `m2`/`d2`. */
  function RangeRule(m1: nat, d1: nat, m2: nat, d2: nat): string {
    "range:" + NatToString(m1) + "-" + NatToString(d1) + "," + NatToString(m2) + "-" + NatToString(d2)
  }

  /** A `M-D` piece written from two numbers is read back as those numbers. */
  lemma {:induction false} MonthDayRoundTrip(m: nat, d: nat)
    ensures ParseMonthDay(NatToString(m) + "-" + NatToString(d)) == MonthDayNums(Some(m), Some(d))
  {
    var a := NatToString(m);
    var b := NatToString(d);
    NoSignInDigits(a, '-');
    NoSignInDigits(b, '-');
    SplitAtFirst(a, '-', b);
    assert a + "-" + b == a + ['-'] + b;
    var md := Split(a + "-" + b, '-');
    assert md == [a, b];
    ParseNatToString(m);
    ParseNatToString(d);
  }

  lemma NoSignInDigits(s: string, c: char)
    requires AllDigits(s) && !IsDigit(c)
    ensures c !in s
  {}

  /** The type before the first `:` and the rest after it. */
  lemma {:induction false} SplitKind(kind: string, rest: string)
    requires ':' !in kind && ':' !in rest
    ensures Split(kind + [':'] + rest, ':') == [kind, rest]
  {
    SplitAtFirst(kind, ':', rest);
  }

  /** Digits, `-` and `,` contain no `:`; digits and `-` contain no `,`. */
  lemma NoSeparators(m: nat, d: nat)
    ensures var p := NatToString(m) + "-" + NatToString(d); ':' !in p && ',' !in p
  {
    NoSignInDigits(NatToString(m), ':');
    NoSignInDigits(NatToString(d), ':');
    NoSignInDigits(NatToString(m), ',');
    NoSignInDigits(NatToString(d), ',');
  }

  /** A written fixed rule is read back as that day. */
  lemma {:induction false} FixedRuleRoundTrip(m: nat, d: nat)
    ensures ParseRule(FixedRule(m, d)) == Fixed(MonthDayNums(Some(m), Some(d)))
  {
    var rest := NatToString(m) + "-" + NatToString(d);
    NoSeparators(m, d);
    assert FixedRule(m, d) == "fixed" + [':'] + rest;
    SplitKind("fixed", rest);
    MonthDayRoundTrip(m, d);
  }

  /** A written range rule is read back as its two days. */
  lemma {:induction false} RangeRuleRoundTrip(m1: nat, d1: nat, m2: nat, d2: nat)
    ensures ParseRule(RangeRule(m1, d1, m2, d2))
      == Range(MonthDayNums(Some(m1), Some(d1)), MonthDayNums(Some(m2), Some(d2)))
  {
    var p := NatToString(m1) + "-" + NatToString(d1);
    var q := NatToString(m2) + "-" + NatToString(d2);
    NoSeparators(m1, d1);
    NoSeparators(m2, d2);
    var rest := p + [','] + q;
    assert ':' !in rest;
    assert RangeRule(m1, d1, m2, d2) == "range" + [':'] + rest;
    SplitKind("range", rest);
    SplitAtFirst(p, ',', q);
    assert Split(rest, ',') == [p, q];
    MonthDayRoundTrip(m1, d1);
    MonthDayRoundTrip(m2, d2);
  }

  /** A written fixed rule spans exactly its day, `new Date(y, m - 1, d)`. */
  lemma FixedRuleSpan(y: int, m: nat, d: nat)
    ensures RuleSpan(ParseRule(FixedRule(m, d)), y) == Dates(Some(Midnight(y, m - 1, d)), Some(Midnight(y, m - 1, d)))
  {
    FixedRuleRoundTrip(m, d);
  }

  /** A range that starts later in the year than it ends is never active. */
  lemma ReversedRangeNeverMatches(y: int, m1: nat, d1: nat, m2: nat, d2: nat, date: Moment)
    requires MakeDay(y, m1 - 1, d1) > MakeDay(y, m2 - 1, d2)
    ensures !RowActive(HolidayRow("", RangeRule(m1, d1, m2, d2), ""), y, date)
  {
    var row := HolidayRow("", RangeRule(m1, d1, m2, d2), "");
    var a, b := MonthDayNums(Some(m1), Some(d1)), MonthDayNums(Some(m2), Some(d2));
    RangeRuleRoundTrip(m1, d1, m2, d2);
    assert ParseRule(row.rule) == Range(a, b);
    ReversedRangeRow(row, y, a, b, date);
  }

  /** Any row whose rule reads as a reversed range is never active. */
  lemma ReversedRangeRow(row: HolidayRow, y: int, a: MonthDayNums, b: MonthDayNums, date: Moment)
    requires ParseRule(row.rule) == Range(a, b)
    requires a.month.Some? && a.day.Some? && b.month.Some? && b.day.Some?
    requires MakeDay(y, a.month.value - 1, a.day.value) > MakeDay(y, b.month.value - 1, b.day.value)
    ensures !RowActive(row, y, date)
  {
    assert RuleSpan(Range(a, b), y) == Dates(DateOf(y, a), DateOf(y, b));
    ReversedDatesEmpty(y, a, b, date);
  }

  /** Two written dates, the first after the second, span no date. */
  lemma ReversedDatesEmpty(y: int, a: MonthDayNums, b: MonthDayNums, date: Moment)
    requires a.month.Some? && a.day.Some? && b.month.Some? && b.day.Some?
    requires MakeDay(y, a.month.value - 1, a.day.value) > MakeDay(y, b.month.value - 1, b.day.value)
    ensures !Between(DateOf(y, a).value, DateOf(y, b).value, date)
  {
    ReversedSpanIsEmpty(DateOf(y, a).value, DateOf(y, b).value, date);
  }

  /** Whether the row's rule gives two valid dates whose span holds `date`. */
  predicate RowActive(row: HolidayRow, y: int, date: Moment) {
    var r := RuleSpan(ParseRule(row.rule), y);
    r.Dates? && r.start.Some? && r.end.Some? && Between(r.start.value, r.end.value, date)
  }

  /** The holiday a remote row describes in year `y`, when its rule gives two valid dates. */
  function RowHoliday(row: HolidayRow, y: int): Option<Holiday> {
    var r := RuleSpan(ParseRule(row.rule), y);
    if r.Dates? && r.start.Some? && r.end.Some? then
      Some(Holiday(HolidayId(row.name), row.name, r.start.value, r.end.value, row.themeId))
    else None
  }

  /** Whether evaluating the row's rule throws (the loop then stops). */
  predicate RowThrows(row: HolidayRow, y: int) {
    RuleSpan(ParseRule(row.rule), y).Throws?
  }

  /** A row the loop passes over: its rule neither throws nor covers the date. */
  predicate Skipped(row: HolidayRow, y: int, date: Moment) {
    !RowThrows(row, y) && !RowActive(row, y, date)
  }

  /** The loop of `getActiveHoliday` over the remote rows, from the current row on, with
      the built-in answer `fallback` used when no row matches or a rule throws. A row's
      holiday is returned only if no earlier row is active. */
  function RemoteScan(rows: seq<HolidayRow>, y: int, date: Moment, fallback: Option<Holiday>): (r: Option<Holiday>)
    ensures (forall i :: 0 <= i < |rows| ==> !RowActive(rows[i], y, date)) ==> r == fallback
    ensures r == fallback
         || exists i :: 0 <= i < |rows| && RowActive(rows[i], y, date) && r == RowHoliday(rows[i], y)
                        && forall j :: 0 <= j < i ==> !RowActive(rows[j], y, date)
  {
    if rows == [] then fallback
    else
      if RowThrows(rows[0], y) then fallback
      else if RowActive(rows[0], y, date) then RowHoliday(rows[0], y)
      else
        var r := RemoteScan(rows[1..], y, date, fallback);
        assert forall i :: 0 <= i < |rows| - 1 ==> rows[1..][i] == rows[i + 1];
        r
  }

  /** The first active row wins when every row before it was passed over. */
  lemma {:induction false} RemoteScanFirstActive(rows: seq<HolidayRow>, y: int, date: Moment, fallback: Option<Holiday>, i: nat)
    requires i < |rows| && RowActive(rows[i], y, date)
    requires forall j :: 0 <= j < i ==> Skipped(rows[j], y, date)
    ensures RemoteScan(rows, y, date, fallback) == RowHoliday(rows[i], y)
  {
    if i == 0 {
      RemoteScanHead(rows, y, date, fallback);
    } else {
      RemoteScanSkip(rows, y, date, fallback);
      assert rows[1..][i - 1] == rows[i];
      forall j | 0 <= j < i - 1 ensures Skipped(rows[1..][j], y, date) {
        assert rows[1..][j] == rows[j + 1];
      }
      RemoteScanFirstActive(rows[1..], y, date, fallback, i - 1);
    }
  }

  /** A rule that throws before any row was active ends the loop with the fallback, even
      when a later row would have been active. */
  lemma {:induction false} RemoteScanThrowFallsBack(rows: seq<HolidayRow>, y: int, date: Moment, fallback: Option<Holiday>, i: nat)
    requires i < |rows| && RowThrows(rows[i], y)
    requires forall j :: 0 <= j < i ==> !RowActive(rows[j], y, date)
    ensures RemoteScan(rows, y, date, fallback) == fallback
  {
    if RowThrows(rows[0], y) {
      RemoteScanHead(rows, y, date, fallback);
    } else {
      assert i > 0 && !RowActive(rows[0], y, date);
      RemoteScanSkip(rows, y, date, fallback);
      assert rows[1..][i - 1] == rows[i];
      forall j | 0 <= j < i - 1 ensures !RowActive(rows[1..][j], y, date) {
        assert rows[1..][j] == rows[j + 1];
      }
      RemoteScanThrowFallsBack(rows[1..], y, date, fallback, i - 1);
    }
  }

  /** What the first row decides when it throws or is active. */
  lemma RemoteScanHead(rows: seq<HolidayRow>, y: int, date: Moment, fallback: Option<Holiday>)
    requires |rows| > 0
    ensures RowThrows(rows[0], y) ==> RemoteScan(rows, y, date, fallback) == fallback
    ensures RowActive(rows[0], y, date) ==> RemoteScan(rows, y, date, fallback) == RowHoliday(rows[0], y)
  {}

  /** A row passed over leaves the answer to the rows after it. */
  lemma RemoteScanSkip(rows: seq<HolidayRow>, y: int, date: Moment, fallback: Option<Holiday>)
    requires |rows| > 0 && Skipped(rows[0], y, date)
    ensures RemoteScan(rows, y, date, fallback) == RemoteScan(rows[1..], y, date, fallback)
  {}

  /** `getActiveHoliday(date)`: the first remote row active on the date, else the local
      fallback; a failed query also falls back. */
  function ActiveHoliday(rows: Option<seq<HolidayRow>>, date: Moment, now: Moment): (r: Option<Holiday>)
    ensures rows.None? ==> r == LocalActiveHoliday(date, now)
    ensures rows.Some? && (forall i :: 0 <= i < |rows.value| ==> !RowActive(rows.value[i], YearOf(date.day), date))
      ==> r == LocalActiveHoliday(date, now)
  {
    match rows
    case None => LocalActiveHoliday(date, now)
    case Some(rs) => RemoteScan(rs, YearOf(date.day), date, LocalActiveHoliday(date, now))
  }

  /** A row whose rule type is none of the five known ones is never active. */
  lemma UnknownRuleNeverMatches(row: HolidayRow, y: int, date: Moment)
    requires Split(row.rule, ':')[0] !in {"fixed", "range", "thanksgiving", "eid", "cny"}
    ensures !RowActive(row, y, date)
  {
    ParseRuleKinds(row.rule);
  }

  /** Each run of blanks replaced by one `_` (`s.replace(/\s+/g, "_")`); `inRun` says
      whether the character before `s` was a blank already replaced. */
  function CollapseBlanks(s: string, inRun: bool): (r: string)
    ensures |r| <= |s|
    ensures forall i :: 0 <= i < |r| ==> !IsSpace(r[i])
    ensures (forall i :: 0 <= i < |s| ==> !IsUpper(s[i])) ==> forall i :: 0 <= i < |r| ==> !IsUpper(r[i])
    ensures (forall i :: 0 <= i < |s| ==> !IsSpace(s[i])) ==> r == s
  {
    if s == [] then []
    else
      var rest := CollapseBlanks(s[1..], IsSpace(s[0]));
      var r := if !IsSpace(s[0]) then [s[0]] + rest else if inRun then rest else "_" + rest;
      assert forall i :: 0 <= i < |s| - 1 ==> s[1..][i] == s[i + 1];
      assert r != rest ==> forall i :: 1 <= i < |r| ==> r[i] == rest[i - 1];
      r
  }

  /** One step of the collapse: the first character decides what is emitted. */
  lemma CollapseStep(s: string, inRun: bool)
    requires |s| > 0
    ensures CollapseBlanks(s, inRun)
         == (if !IsSpace(s[0]) then [s[0]] else if inRun then "" else "_") + CollapseBlanks(s[1..], IsSpace(s[0]))
  {}

  /** A run of blanks becomes one `_`, or nothing when it continues a run already replaced. */
  lemma {:induction false} CollapseRun(b: string, rest: string, inRun: bool)
    requires |b| > 0 && forall i :: 0 <= i < |b| ==> IsSpace(b[i])
    ensures CollapseBlanks(b + rest, inRun) == (if inRun then "" else "_") + CollapseBlanks(rest, true)
  {
    var s, c := b + rest, CollapseBlanks(rest, true);
    Seqs.HeadTail(b, rest);
    CollapseStep(s, inRun);
    if |b| > 1 {
      assert forall i :: 0 <= i < |b[1..]| ==> b[1..][i] == b[i + 1];
      CollapseRun(b[1..], rest, true);
      assert "" + c == c;
    } else {
      assert s[1..] == rest;
    }
  }

  /** A stretch without blanks is copied unchanged and ends any run. */
  lemma {:induction false} CollapseWord(w: string, rest: string, inRun: bool)
    requires |w| > 0 && forall i :: 0 <= i < |w| ==> !IsSpace(w[i])
    ensures CollapseBlanks(w + rest, inRun) == w + CollapseBlanks(rest, false)
  {
    var s, c := w + rest, CollapseBlanks(rest, false);
    var t := CollapseBlanks(w[1..] + rest, false);
    Seqs.HeadTail(w, rest);
    CollapseStep(s, inRun);
    if |w| > 1 {
      assert forall i :: 0 <= i < |w[1..]| ==> w[1..][i] == w[i + 1];
      CollapseWord(w[1..], rest, false);
    } else {
      assert w[1..] == [];
      Seqs.EmptyConcat(w[1..], rest);
      Seqs.EmptyConcat(w[1..], c);
    }
    Seqs.HeadTail(w, c);
  }

  /** The characters other than blanks and `_`, in order. */
  function Visible(s: string): string {
    if s == [] then []
    else (if IsSpace(s[0]) || s[0] == '_' then [] else [s[0]]) + Visible(s[1..])
  }

  /** Collapsing blanks keeps every other character, in order. */
  lemma {:induction false} CollapseKeepsVisible(s: string, inRun: bool)
    ensures Visible(CollapseBlanks(s, inRun)) == Visible(s)
  {
    if s != [] {
      var rest := CollapseBlanks(s[1..], IsSpace(s[0]));
      CollapseKeepsVisible(s[1..], IsSpace(s[0]));
      var c := CollapseBlanks(s, inRun);
      if !IsSpace(s[0]) {
        assert c == [s[0]] + rest && c[0] == s[0] && c[1..] == rest;
      } else if !inRun {
        assert c == "_" + rest && c[0] == '_' && c[1..] == rest;
      }
    }
  }

  /** A remote holiday's id: its name in lower case with each run of blanks made `_`. */
  function HolidayId(name: string): (id: string)
    ensures forall i :: 0 <= i < |id| ==> !IsSpace(id[i]) && !IsUpper(id[i])
    ensures (forall i :: 0 <= i < |name| ==> !IsSpace(name[i])) ==> id == Lower(name)
  {
    CollapseBlanks(Lower(name), false)
  }

  /** A word, a run of blanks, then text that starts with no blank: the word is kept and
      the run becomes one `_`. */
  lemma CollapseWordGap(w: string, gap: string, rest: string)
    requires |w| > 0 && forall i :: 0 <= i < |w| ==> !IsSpace(w[i])
    requires |gap| > 0 && forall i :: 0 <= i < |gap| ==> IsSpace(gap[i])
    requires rest == [] || !IsSpace(rest[0])
    ensures CollapseBlanks(w + (gap + rest), false) == w + "_" + CollapseBlanks(rest, false)
  {
    CollapseWord(w, gap + rest, false);
    CollapseRun(gap, rest, false);
    var tail := CollapseBlanks(rest, true);
    assert tail == CollapseBlanks(rest, false);
    Seqs.ConcatAssoc(w, "_", tail);
  }

  /** The id of a name is built word by word: a word (lower-cased), one `_` for the run
      of blanks after it, then the id of the rest. */
  lemma HolidayIdSplitsAtGap(a: string, gap: string, rest: string)
    requires |a| > 0 && forall i :: 0 <= i < |a| ==> !IsSpace(a[i])
    requires |gap| > 0 && forall i :: 0 <= i < |gap| ==> IsSpace(gap[i])
    requires rest == [] || !IsSpace(rest[0])
    ensures HolidayId(a + gap + rest) == Lower(a) + "_" + HolidayId(rest)
  {
    LowerWordGap(a, gap, rest);
    var la, lg, lr := Lower(a), Lower(gap), Lower(rest);
    CollapseWordGap(la, lg, lr);
  }

  /** A worked case: "Eid al Fitr" gets the id `eid_al_fitr`, one word at a time. */
  lemma EidAlFitrId(eid: string, al: string, fitr: string, gap: string)
    requires eid == "Eid" && al == "al" && fitr == "Fitr" && gap == " "
    ensures HolidayId(eid + gap + (al + gap + fitr)) == "eid_al_fitr"
  {
    EidAlFitrWords(eid, al, fitr, gap);
    HolidayIdSplitsAtGap(al, gap, fitr);
    assert (al + gap + fitr)[0] == al[0];
    HolidayIdSplitsAtGap(eid, gap, al + gap + fitr);
    EidAlFitrSpelling();
  }

  /** The three words and the gap of the worked case, character by character. */
  lemma EidAlFitrWords(eid: string, al: string, fitr: string, gap: string)
    requires eid == "Eid" && al == "al" && fitr == "Fitr" && gap == " "
    ensures forall i :: 0 <= i < |eid| ==> !IsSpace(eid[i])
    ensures forall i :: 0 <= i < |al| ==> !IsSpace(al[i])
    ensures !IsSpace(fitr[0]) && |gap| == 1 && IsSpace(gap[0])
    ensures Lower(eid) == "eid" && Lower(al) == "al" && HolidayId(fitr) == "fitr"
  {
    assert !IsSpace(eid[0]) && !IsSpace(eid[1]) && !IsSpace(eid[2]);
    assert !IsSpace(al[0]) && !IsSpace(al[1]);
    LowerEid(eid);
    FitrId(fitr);
  }

  lemma LowerEid(eid: string)
    requires eid == "Eid"
    ensures Lower(eid) == "eid"
  {
    var le := Lower(eid);
    assert le[0] == LowerChar('E') == 'e' && le[1] == 'i' && le[2] == 'd';
  }

  lemma FitrId(fitr: string)
    requires fitr == "Fitr"
    ensures HolidayId(fitr) == "fitr"
  {
    var lf := Lower(fitr);
    assert lf == "fitr" by {
      assert lf[0] == LowerChar('F') == 'f' && lf[1] == 'i' && lf[2] == 't' && lf[3] == 'r';
    }
    assert forall i :: 0 <= i < |fitr| ==> !IsSpace(fitr[i]);
  }

  lemma EidAlFitrSpelling()
    ensures "eid" + "_" + ("al" + "_" + "fitr") == "eid_al_fitr"
  {}

  /** The id keeps the name's letters, lower-cased, in order. */
  lemma HolidayIdKeepsLetters(name: string)
    ensures Visible(HolidayId(name)) == Visible(Lower(name))
  {
    CollapseKeepsVisible(Lower(name), false);
  }
}

=== FILE: music.dfy ===
/** The music player's track table and player bar
    (`src/apps/music/components/TrackTable.tsx`, `src/apps/music/components/PlayerBar.tsx`):
    the `m:ss` clock both print, row selection and highlighting, the playlist load and
    the progress percentage. The playlist request is an input. Durations are whole
    milliseconds. */
module Music {
  import opened Wrappers
  import opened Strs

  /* ---------------------------------------------------------------------- */
  /* The m:ss clock                                                         */
  /* ---------------------------------------------------------------------- */

  /** Whole seconds printed as minutes, a colon and two-digit seconds; minutes do not
      roll over into hours. */
  function Clock(totalSec: nat): string {
    NatToString(totalSec / 60) + ":" + PadStart2(NatToString(totalSec % 60))
  }

  /** Reads `m:ss` back: one colon, digits before it, exactly two digits after it. */
  function ReadClock(s: string): Option<(nat, nat)> {
    var parts := Split(s, ':');
    if |parts| == 2 && parts[0] != [] && AllDigits(parts[0]) && |parts[1]| == 2 && AllDigits(parts[1]) then
      Some((DigitsValue(parts[0]), DigitsValue(parts[1])))
    else None
  }

  /** The two-digit seconds field of `sec` reads back as `sec`. */
  lemma SecondsField(sec: nat)
    requires sec < 60
    ensures var f := PadStart2(NatToString(sec)); |f| == 2 && AllDigits(f) && DigitsValue(f) == sec
  {
    var d := NatToString(sec);
    NatToStringRoundTrip(sec);
    if sec < 10 {
      var f := "0" + d;
      assert f[..1] == "0";
    } else {
      assert NatToString(sec) == NatToString(sec / 10) + [DigitChar(sec % 10)];
    }
  }

  /** Digits, a colon and two digits read back as the two numbers. */
  lemma ReadClockOf(m: string, f: string)
    requires m != [] && AllDigits(m) && |f| == 2 && AllDigits(f)
    ensures ReadClock(m + ":" + f) == Some((DigitsValue(m), DigitsValue(f)))
  {
    assert ':' !in m by {
      forall i | 0 <= i < |m| ensures m[i] != ':' { assert IsDigit(m[i]); }
    }
    assert ':' !in f by {
      forall i | 0 <= i < |f| ensures f[i] != ':' { assert IsDigit(f[i]); }
    }
    SplitAtFirst(m, ':', f);
    assert m + ":" + f == m + [':'] + f;
  }

  /** Printing a time and reading it back gives its minutes and seconds, seconds below
      60, so no two different times print alike. */
  lemma ClockRoundTrip(totalSec: nat)
    ensures ReadClock(Clock(totalSec)) == Some((totalSec / 60, totalSec % 60))
  {
    var m := NatToString(totalSec / 60);
    var f := PadStart2(NatToString(totalSec % 60));
    SecondsField(totalSec % 60);
    NatToStringRoundTrip(totalSec / 60);
    ReadClockOf(m, f);
  }

  /** The track table's `formatDuration`: an empty cell for 0, otherwise the clock of
      the whole seconds. */
  function FormatDuration(ms: nat): (r: string)
    ensures ms == 0 <==> r == ""
    ensures ms != 0 ==> ReadClock(r) == Some((ms / 1000 / 60, ms / 1000 % 60))
  {
    if ms == 0 then ""
    else
      ClockRoundTrip(ms / 1000);
      Clock(ms / 1000)
  }

  /** The player bar's `format`: `0:00` for 0, otherwise the clock of the whole seconds. */
  function Format(ms: nat): (r: string)
    ensures ms == 0 ==> r == "0:00"
    ensures ReadClock(r) == Some((ms / 1000 / 60, ms / 1000 % 60))
  {
    if ms == 0 then
      ClockRoundTrip(0);
      assert Clock(0) == "0:00";
      "0:00"
    else
      ClockRoundTrip(ms / 1000);
      Clock(ms / 1000)
  }

  /** The two helpers differ only at 0, where the player bar's guard prints what the
      clock would print anyway and the table's leaves the cell empty. */
  lemma FormatsAgree(ms: nat)
    ensures ms != 0 ==> FormatDuration(ms) == Format(ms)
    ensures Format(ms) == Clock(ms / 1000)
    ensures FormatDuration(0) != Format(0)
  {
    assert Clock(0) == "0:00";
  }

  /** Below one second both print zero minutes and zero seconds. */
  lemma UnderOneSecond(ms: nat)
    requires 0 < ms < 1000
    ensures FormatDuration(ms) == "0:00"
  {
    assert Clock(0) == "0:00";
  }

  /* ---------------------------------------------------------------------- */
  /* Track table                                                            */
  /* ---------------------------------------------------------------------- */

  /** A playlist track; local files have no id. */
  datatype Track = Track(id: Option<string>, name: string, durationMs: nat)

  datatype TableState = TableState(tracks: seq<Track>, activeId: Option<string>, error: Option<string>)

  const InitialTable: TableState := TableState([], None, None)

  const LoadError: string := "Unable to load tracks \U{2014} using cached layout."

  /** The outcome of the playlist request: the items (absent when the response has
      none) or an error. */
  datatype Fetched = Items(items: Option<seq<Track>>) | Failed

  /** Loading the playlist: nothing without a token; a response replaces the tracks and
      clears the error; a failure keeps the tracks and shows the error. */
  function Load(s: TableState, hasToken: bool, f: Fetched): (r: TableState)
    ensures !hasToken ==> r == s
    ensures hasToken && f.Items? ==> r.tracks == (if f.items.Some? then f.items.value else []) && r.error.None?
    ensures hasToken && f.Failed? ==> r.tracks == s.tracks && r.error == Some(LoadError)
    ensures r.activeId == s.activeId
  {
    if !hasToken then s
    else match f
      case Items(items) => s.(tracks := if items.Some? then items.value else [], error := None)
      case Failed => s.(error := Some(LoadError))
  }

  /** A row is highlighted when its id equals the active id, absent ids included. */
  predicate IsActive(s: TableState, t: Track) {
    s.activeId == t.id
  }

  /** Clicking row `i`: it becomes the active row and its track is handed to the
      player. */
  function ClickRow(s: TableState, i: nat): (r: (TableState, Track))
    requires i < |s.tracks|
    ensures r.1 == s.tracks[i] && IsActive(r.0, s.tracks[i])
    ensures r.0.tracks == s.tracks && r.0.error == s.error
  {
    (s.(activeId := s.tracks[i].id), s.tracks[i])
  }

  /** After a click exactly the rows sharing the clicked track's id are highlighted. */
  lemma ClickHighlights(s: TableState, i: nat, j: nat)
    requires i < |s.tracks| && j < |s.tracks|
    ensures IsActive(ClickRow(s, i).0, s.tracks[j]) <==> s.tracks[j].id == s.tracks[i].id
  {}

  /** Before any click the active id is absent, so tracks without an id already show as
      highlighted. */
  lemma IdlessRowsStartActive(t: Track)
    requires t.id.None?
    ensures IsActive(InitialTable, t)
    ensures IsActive(Load(InitialTable, true, Items(Some([t]))), t)
  {}

  /* ---------------------------------------------------------------------- */
  /* Player bar                                                             */
  /* ---------------------------------------------------------------------- */

  /** The width of the progress bar, in percent; 0 when the duration is 0. */
  function Percent(progress: real, duration: real): (r: real)
    ensures duration == 0.0 ==> r == 0.0
    ensures duration != 0.0 ==> r * duration == progress * 100.0
    ensures 0.0 <= progress <= duration ==> 0.0 <= r <= 100.0
  {
    if duration == 0.0 then 0.0
    else
      var q := progress / duration;
      assert q * duration == progress;
      assert 0.0 <= progress <= duration ==> 0.0 <= q <= 1.0;
      q * 100.0
  }

  /** The bar is empty at the start and full at the end of a track. */
  lemma PercentEnds(duration: real)
    requires duration > 0.0
    ensures Percent(0.0, duration) == 0.0 && Percent(duration, duration) == 100.0
  {}
}

=== FILE: prefs.dfy ===
/** The preferences slice (`src/store/prefs.ts`): theme era, wallpaper with a capped,
    de-duplicated recent list, profile, sound and motion settings, and the holiday theme
    override. Theme packs (`THEME_PACKS`, filled from the network at run time) are a
    parameter; the cached preferences read at start-up are an optional record. */
module Prefs {
  import opened Wrappers
  import opened Seqs

  datatype ThemeEra = System7 | Mac9 | Aqua

  datatype Wallpaper = Wallpaper(
    id: string,
    full: string,
    lqip: Option<string>,
    thumbUrl: Option<string>,
    folder: Option<string>,
    name: Option<string>)

  datatype PrefsData = PrefsData(
    themeEra: ThemeEra,
    wallpaper: Option<Wallpaper>,
    handle: Option<string>,
    avatar: Option<string>,
    soundOn: bool,
    volume: real,
    reduceMotion: bool,
    recentWallpapers: seq<Wallpaper>,
    clickSound: string,
    holidayThemeOverride: Option<string>)

  datatype PrefsState = PrefsState(prefs: PrefsData, activeTheme: Option<string>)

  /** A theme pack as far as preferences use it: its `label` (here `packLabel`, since
      `label` is a Dafny keyword) and its wallpaper URL, if any. */
  datatype ThemePack = ThemePack(packLabel: string, wallpaperUrl: Option<string>)

  type ThemePacks = map<string, ThemePack>

  /** The cached preferences found at start-up; each field may be missing. */
  datatype SavedPrefs = SavedPrefs(
    themeEra: Option<ThemeEra>,
    wallpaper: Option<Wallpaper>,
    soundOn: Option<bool>,
    volume: Option<real>,
    reduceMotion: Option<bool>,
    recentWallpapers: Option<seq<Wallpaper>>,
    clickSound: Option<string>,
    holidayThemeOverride: Option<string>)

  const NothingSaved: SavedPrefs := SavedPrefs(None, None, None, None, None, None, None, None)

  /** Start-up state: each cached field, or its default. */
  function InitialPrefs(saved: SavedPrefs): (s: PrefsState)
    ensures s.activeTheme.None? && s.prefs.handle.None? && s.prefs.avatar.None?
    ensures saved.soundOn.Some? ==> s.prefs.soundOn == saved.soundOn.value
    ensures saved.wallpaper.Some? ==> s.prefs.wallpaper == saved.wallpaper
    ensures saved == NothingSaved ==>
      s.prefs == PrefsData(Aqua, None, None, None, true, 0.5, false, [], "pop.mp3", None)
  {
    PrefsState(
      PrefsData(
        saved.themeEra.GetOr(Aqua),
        saved.wallpaper,
        None,
        None,
        saved.soundOn.GetOr(true),
        saved.volume.GetOr(0.5),
        saved.reduceMotion.GetOr(false),
        saved.recentWallpapers.GetOr([]),
        saved.clickSound.GetOr("pop.mp3"),
        saved.holidayThemeOverride),
      None)
  }

  /** No two wallpapers share an id. */
  predicate DistinctIds(ws: seq<Wallpaper>) {
    forall i, j :: 0 <= i < j < |ws| ==> ws[i].id != ws[j].id
  }

  /** Keep each wallpaper whose id was not seen before (and not in `seen`). */
  function DedupFrom(ws: seq<Wallpaper>, seen: set<string>): (r: seq<Wallpaper>)
    ensures |r| <= |ws|
    ensures DistinctIds(r)
    ensures forall w :: w in r ==> w in ws && w.id !in seen
  {
    if ws == [] then []
    else if ws[0].id in seen then
      var rest := DedupFrom(ws[1..], seen);
      assert forall w :: w in rest ==> w in ws;
      rest
    else
      var rest := DedupFrom(ws[1..], seen + {ws[0].id});
      var r := [ws[0]] + rest;
      assert forall j :: 0 < j < |r| ==> r[j] == rest[j - 1] && r[j] in rest;
      r
  }

  /** Keep the first wallpaper of each id, in order. */
  function Dedup(ws: seq<Wallpaper>): seq<Wallpaper> {
    DedupFrom(ws, {})
  }

  /** The reference reading of the source's filter: position `i` is kept when no earlier
      position has the same id (its `findIndex` is `i`). */
  predicate FirstOfId(ws: seq<Wallpaper>, i: int)
    requires 0 <= i < |ws|
  {
    forall j :: 0 <= j < i ==> ws[j].id != ws[i].id
  }

  function KeepFirsts(ws: seq<Wallpaper>, i: nat): (r: seq<Wallpaper>)
    requires i <= |ws|
    decreases |ws| - i
  {
    if i == |ws| then [] else (if FirstOfId(ws, i) then [ws[i]] else []) + KeepFirsts(ws, i + 1)
  }

  function IdSet(ws: seq<Wallpaper>): set<string> {
    set w | w in ws :: w.id
  }

  lemma {:induction false} DedupFromMatchesFilter(ws: seq<Wallpaper>, i: nat)
    requires i <= |ws|
    ensures DedupFrom(ws[i..], IdSet(ws[..i])) == KeepFirsts(ws, i)
    decreases |ws| - i
  {
    if i < |ws| {
      var seen, tail := IdSet(ws[..i]), ws[i + 1..];
      assert ws[i..][0] == ws[i] && ws[i..][1..] == tail;
      IdSetSnoc(ws, i);
      SeenIffNotFirst(ws, i);
      DedupFromMatchesFilter(ws, i + 1);
      if ws[i].id in seen {
        assert seen + {ws[i].id} == seen;
        assert DedupFrom(ws[i..], seen) == DedupFrom(tail, seen);
      } else {
        assert DedupFrom(ws[i..], seen) == [ws[i]] + DedupFrom(tail, seen + {ws[i].id});
      }
    } else {
      assert ws[i..] == [];
    }
  }

  lemma IdSetSnoc(ws: seq<Wallpaper>, i: nat)
    requires i < |ws|
    ensures IdSet(ws[..i + 1]) == IdSet(ws[..i]) + {ws[i].id}
  {
    assert ws[..i + 1] == ws[..i] + [ws[i]];
  }

  /** An id was seen before position `i` exactly when `i` is not its first position. */
  lemma SeenIffNotFirst(ws: seq<Wallpaper>, i: nat)
    requires i < |ws|
    ensures ws[i].id in IdSet(ws[..i]) <==> !FirstOfId(ws, i)
  {
    if ws[i].id in IdSet(ws[..i]) {
      var w :| w in ws[..i] && w.id == ws[i].id;
      var j :| 0 <= j < i && ws[..i][j] == w;
    } else {
      forall j | 0 <= j < i ensures ws[j].id != ws[i].id {
        assert ws[..i][j] == ws[j];
      }
    }
  }

  /** `Dedup` is the source's `filter((w, i, arr) => arr.findIndex(x => x.id === w.id) === i)`. */
  lemma DedupIsFirstIndexFilter(ws: seq<Wallpaper>)
    ensures Dedup(ws) == KeepFirsts(ws, 0)
  {
    DedupFromMatchesFilter(ws, 0);
    assert ws[0..] == ws && IdSet(ws[..0]) == {};
  }

  const MaxRecents: nat := 6

  /** The recents rule: the new wallpaper in front of the previous list, first of each id
      kept, at most six. */
  function PushRecent(wp: Wallpaper, prev: seq<Wallpaper>): (r: seq<Wallpaper>)
    ensures 1 <= |r| <= MaxRecents && r[0] == wp
    ensures DistinctIds(r)
    ensures forall w :: w in r ==> w == wp || (w in prev && w.id != wp.id)
  {
    var d := Dedup([wp] + prev);
    DedupCons(wp, prev);
    var r := Take(d, MaxRecents);
    assert forall w :: w in r ==> w in d;
    r
  }

  lemma DedupCons(wp: Wallpaper, prev: seq<Wallpaper>)
    ensures Dedup([wp] + prev) == [wp] + DedupFrom(prev, {wp.id})
  {
    assert ([wp] + prev)[1..] == prev;
    var none: set<string> := {};
    assert none + {wp.id} == {wp.id};
  }

  lemma {:induction false} DedupFromKeepsDistinct(ws: seq<Wallpaper>, seen: set<string>)
    requires DistinctIds(ws) && forall w :: w in ws ==> w.id !in seen
    ensures DedupFrom(ws, seen) == ws
  {
    if ws != [] {
      var tl, seen' := ws[1..], seen + {ws[0].id};
      TailDistinct(ws);
      assert ws[0] in ws && ws[0].id !in seen;
      forall w | w in tl ensures w.id !in seen' {
        assert w in ws;
      }
      DedupFromKeepsDistinct(tl, seen');
      assert DedupFrom(ws, seen) == [ws[0]] + DedupFrom(tl, seen');
      assert ws == [ws[0]] + tl;
    }
  }

  /** The tail of a list with distinct ids has distinct ids, none of them the head's. */
  lemma TailDistinct(ws: seq<Wallpaper>)
    requires ws != [] && DistinctIds(ws)
    ensures DistinctIds(ws[1..])
    ensures forall w :: w in ws[1..] ==> w.id != ws[0].id
  {
    var tl := ws[1..];
    forall w | w in tl ensures w.id != ws[0].id {
      var k :| 0 <= k < |tl| && tl[k] == w;
      assert ws[k + 1] == w;
    }
    forall i, j | 0 <= i < j < |tl| ensures tl[i].id != tl[j].id {
      assert tl[i] == ws[i + 1] && tl[j] == ws[j + 1];
    }
  }

  /** Pushing the wallpaper that is already at the head of a recents list changes nothing;
      in particular setting the same wallpaper twice gives the recents of setting it once. */
  lemma PushRecentHead(wp: Wallpaper, recents: seq<Wallpaper>)
    requires 1 <= |recents| <= MaxRecents && recents[0] == wp && DistinctIds(recents)
    ensures PushRecent(wp, recents) == recents
  {
    var rest := recents[1..];
    assert recents == [wp] + rest;
    TailDistinct(recents);
    DedupFromKeepsDistinct(rest, {wp.id});
    DedupCons(wp, recents);
    assert DedupFrom(recents, {wp.id}) == rest;
    assert Dedup([wp] + recents) == recents;
  }

  lemma SetWallpaperTwice(s: PrefsState, wp: Wallpaper)
    ensures SetWallpaper(SetWallpaper(s, Some(wp)), Some(wp)) == SetWallpaper(s, Some(wp))
  {
    PushRecentHead(wp, PushRecent(wp, s.prefs.recentWallpapers));
  }

  /** `setThemeEra`. */
  function SetThemeEra(s: PrefsState, era: ThemeEra): (r: PrefsState)
    ensures r.prefs.themeEra == era && r.prefs.(themeEra := s.prefs.themeEra) == s.prefs
    ensures r.activeTheme == s.activeTheme
  {
    s.(prefs := s.prefs.(themeEra := era))
  }

  /** `setWallpaper`: the wallpaper is replaced; a real wallpaper is pushed onto the recents,
      a null one leaves them alone. */
  function SetWallpaper(s: PrefsState, wp: Option<Wallpaper>): (r: PrefsState)
    ensures r.prefs.wallpaper == wp
    ensures wp.None? ==> r.prefs.recentWallpapers == s.prefs.recentWallpapers
    ensures wp.Some? ==> r.prefs.recentWallpapers == PushRecent(wp.value, s.prefs.recentWallpapers)
    ensures r.prefs.(wallpaper := s.prefs.wallpaper, recentWallpapers := s.prefs.recentWallpapers) == s.prefs
    ensures r.activeTheme == s.activeTheme
  {
    var recents := if wp.Some? then PushRecent(wp.value, s.prefs.recentWallpapers) else s.prefs.recentWallpapers;
    s.(prefs := s.prefs.(wallpaper := wp, recentWallpapers := recents))
  }

  /** `addRecentWallpaper`: the recents rule alone; the wallpaper is untouched. */
  function AddRecentWallpaper(s: PrefsState, wp: Wallpaper): (r: PrefsState)
    ensures r.prefs.recentWallpapers == PushRecent(wp, s.prefs.recentWallpapers)
    ensures r.prefs.(recentWallpapers := s.prefs.recentWallpapers) == s.prefs
    ensures r.activeTheme == s.activeTheme
  {
    s.(prefs := s.prefs.(recentWallpapers := PushRecent(wp, s.prefs.recentWallpapers)))
  }

  /** Setting a wallpaper updates the recents exactly as adding it to the recents does. */
  lemma SetWallpaperRecentsAsAdd(s: PrefsState, wp: Wallpaper)
    ensures SetWallpaper(s, Some(wp)).prefs.recentWallpapers == AddRecentWallpaper(s, wp).prefs.recentWallpapers
    ensures SetWallpaper(s, Some(wp)) == AddRecentWallpaper(s, wp).(prefs := AddRecentWallpaper(s, wp).prefs.(wallpaper := Some(wp)))
  {}

  /** `setProfile`: both fields are replaced (a missing argument clears its field). */
  function SetProfile(s: PrefsState, handle: Option<string>, avatar: Option<string>): (r: PrefsState)
    ensures r.prefs.handle == handle && r.prefs.avatar == avatar
    ensures r.prefs.(handle := s.prefs.handle, avatar := s.prefs.avatar) == s.prefs
    ensures r.activeTheme == s.activeTheme
  {
    s.(prefs := s.prefs.(handle := handle, avatar := avatar))
  }

  /** `toggleSound`: only `soundOn` flips. */
  function ToggleSound(s: PrefsState): (r: PrefsState)
    ensures r.prefs.soundOn != s.prefs.soundOn
    ensures r.prefs.(soundOn := s.prefs.soundOn) == s.prefs && r.activeTheme == s.activeTheme
  {
    s.(prefs := s.prefs.(soundOn := !s.prefs.soundOn))
  }

  lemma ToggleSoundTwice(s: PrefsState)
    ensures ToggleSound(ToggleSound(s)) == s
  {}

  /** `setVolume`. */
  function SetVolume(s: PrefsState, v: real): (r: PrefsState)
    ensures r.prefs.volume == v && r.prefs.(volume := s.prefs.volume) == s.prefs && r.activeTheme == s.activeTheme
  {
    s.(prefs := s.prefs.(volume := v))
  }

  /** `setReduceMotion`. */
  function SetReduceMotion(s: PrefsState, v: bool): (r: PrefsState)
    ensures r.prefs.reduceMotion == v && r.prefs.(reduceMotion := s.prefs.reduceMotion) == s.prefs
    ensures r.activeTheme == s.activeTheme
  {
    s.(prefs := s.prefs.(reduceMotion := v))
  }

  /** `setClickSound`. */
  function SetClickSound(s: PrefsState, sound: string): (r: PrefsState)
    ensures r.prefs.clickSound == sound && r.prefs.(clickSound := s.prefs.clickSound) == s.prefs
    ensures r.activeTheme == s.activeTheme
  {
    s.(prefs := s.prefs.(clickSound := sound))
  }

  /** `playSystemClick`: nothing when sound is off, else the sound file and the volume. */
  function SystemClick(s: PrefsState): (r: Option<(string, real)>)
    ensures r.None? <==> !s.prefs.soundOn
    ensures r.Some? ==> r.value.0 == "/sounds/" + s.prefs.clickSound && r.value.1 == s.prefs.volume
  {
    if !s.prefs.soundOn then None else Some(("/sounds/" + s.prefs.clickSound, s.prefs.volume))
  }

  /** The wallpaper a theme pack contributes, if the pack exists and has a non-empty URL. */
  function ThemeWallpaper(packs: ThemePacks, theme: string): (r: Option<Wallpaper>)
    ensures r.Some? <==> theme in packs && packs[theme].wallpaperUrl.Some? && packs[theme].wallpaperUrl.value != ""
    ensures r.Some? ==> r.value == Wallpaper(theme, packs[theme].wallpaperUrl.value, None, None, Some("themes"), Some(packs[theme].packLabel))
  {
    if theme in packs && packs[theme].wallpaperUrl.Some? && packs[theme].wallpaperUrl.value != "" then
      Some(Wallpaper(theme, packs[theme].wallpaperUrl.value, None, None, Some("themes"), Some(packs[theme].packLabel)))
    else None
  }

  /** `applyHolidayTheme(t)`: override and active theme become `t`; a pack wallpaper, if
      any, is set as the wallpaper. */
  function ApplyHolidayTheme(s: PrefsState, packs: ThemePacks, theme: string): (r: PrefsState)
    ensures r.prefs.holidayThemeOverride == Some(theme) && r.activeTheme == Some(theme)
    ensures ThemeWallpaper(packs, theme).None? ==> r.prefs == s.prefs.(holidayThemeOverride := Some(theme))
    ensures ThemeWallpaper(packs, theme).Some? ==>
      && r.prefs.wallpaper == ThemeWallpaper(packs, theme)
      && r.prefs.recentWallpapers == PushRecent(ThemeWallpaper(packs, theme).value, s.prefs.recentWallpapers)
      && r.prefs.(wallpaper := s.prefs.wallpaper, recentWallpapers := s.prefs.recentWallpapers,
                  holidayThemeOverride := s.prefs.holidayThemeOverride) == s.prefs
  {
    var t := PrefsState(s.prefs.(holidayThemeOverride := Some(theme)), Some(theme));
    match ThemeWallpaper(packs, theme)
    case None => t
    case Some(wp) => SetWallpaper(t, Some(wp))
  }

  /** `clearHolidayTheme`: override and active theme become null; nothing else changes. */
  function ClearHolidayTheme(s: PrefsState): (r: PrefsState)
    ensures r.prefs.holidayThemeOverride.None? && r.activeTheme.None?
    ensures r.prefs.(holidayThemeOverride := s.prefs.holidayThemeOverride) == s.prefs
  {
    PrefsState(s.prefs.(holidayThemeOverride := None), None)
  }

  /** `recomputeAutoHoliday`, given the theme id of today's holiday (if any). */
  function RecomputeAutoHoliday(s: PrefsState, packs: ThemePacks, holidayTheme: Option<string>): (r: PrefsState)
    ensures holidayTheme.None? ==> r == ClearHolidayTheme(s)
    ensures holidayTheme.Some? ==> r.activeTheme == holidayTheme && r.prefs.holidayThemeOverride == holidayTheme
  {
    match holidayTheme
    case None => ClearHolidayTheme(s)
    case Some(theme) =>
      var t := PrefsState(s.prefs.(holidayThemeOverride := Some(theme)), Some(theme));
      match ThemeWallpaper(packs, theme)
      case None => t
      case Some(wp) => SetWallpaper(t, Some(wp))
  }

  /** The automatic path with a holiday does exactly what applying its theme by hand does. */
  lemma RecomputeIsApply(s: PrefsState, packs: ThemePacks, theme: string)
    ensures RecomputeAutoHoliday(s, packs, Some(theme)) == ApplyHolidayTheme(s, packs, theme)
  {}

  /** Clearing after applying resets the theme fields but keeps the pack wallpaper that
      applying installed: the previous wallpaper is not brought back. */
  lemma ClearKeepsThemeWallpaper(s: PrefsState, packs: ThemePacks, theme: string)
    requires ThemeWallpaper(packs, theme).Some?
    ensures var r := ClearHolidayTheme(ApplyHolidayTheme(s, packs, theme));
      && r.activeTheme.None? && r.prefs.holidayThemeOverride.None?
      && r.prefs.wallpaper == ThemeWallpaper(packs, theme)
      && r.prefs.wallpaper.value.folder == Some("themes")
  {}

  /** The wallpaper `loadGlobalDefaultWallpaper` installs for a stored default URL. */
  function DefaultWallpaper(url: string): Wallpaper {
    Wallpaper("default", url, None, None, Some("default"), Some("Default Wallpaper"))
  }

  /** `loadGlobalDefaultWallpaper`, given the stored value (absent when the query fails
      or has none): a non-empty URL is set as the wallpaper only when the current one has
      no URL. */
  function LoadGlobalDefault(s: PrefsState, value: Option<string>): (r: PrefsState)
    ensures value.None? || value.value == "" ==> r == s
    ensures s.prefs.wallpaper.Some? && s.prefs.wallpaper.value.full != "" ==> r == s
    ensures value.Some? && value.value != "" && !(s.prefs.wallpaper.Some? && s.prefs.wallpaper.value.full != "") ==>
      && r.prefs.wallpaper == Some(DefaultWallpaper(value.value))
      && r.prefs.recentWallpapers == PushRecent(DefaultWallpaper(value.value), s.prefs.recentWallpapers)
      && r.activeTheme == s.activeTheme
  {
    if value.Some? && value.value != "" && !(s.prefs.wallpaper.Some? && s.prefs.wallpaper.value.full != "") then
      SetWallpaper(s, Some(DefaultWallpaper(value.value)))
    else s
  }

  /** Loading the default a second time changes nothing: the first load leaves a
      wallpaper with a URL, or changed nothing itself. */
  lemma LoadGlobalDefaultOnce(s: PrefsState, value: Option<string>)
    ensures LoadGlobalDefault(LoadGlobalDefault(s, value), value) == LoadGlobalDefault(s, value)
  {}
}

=== FILE: seqs.dfy ===
/** Sequence helpers shared by the stores: JavaScript's `Array.prototype.filter`,
    `slice(0, n)` and the "remove then append" idiom used for the focus stack. */
module Seqs {

  /** Elements pairwise different. */
  predicate Distinct<T(==)>(s: seq<T>) {
    forall i, j :: 0 <= i < j < |s| ==> s[i] != s[j]
  }

  /** `s.filter(p)`: the elements satisfying `p`, in their original order. */
  function Filter<T(!new)>(p: T -> bool, s: seq<T>): (r: seq<T>)
    ensures |r| <= |s|
    ensures forall x :: x in r <==> x in s && p(x)
    ensures forall i :: 0 <= i < |r| ==> p(r[i])
    ensures (forall i :: 0 <= i < |s| ==> p(s[i])) ==> r == s
  {
    if s == [] then []
    else (if p(s[0]) then [s[0]] else []) + Filter(p, s[1..])
  }

  /** Filtering distributes over concatenation, so it keeps the relative order of the kept elements. */
  lemma {:induction false} FilterConcat<T(!new)>(p: T -> bool, a: seq<T>, b: seq<T>)
    ensures Filter(p, a + b) == Filter(p, a) + Filter(p, b)
  {
    if a == [] {
      assert a + b == b;
    } else {
      assert (a + b)[0] == a[0];
      assert (a + b)[1..] == a[1..] + b;
      FilterConcat(p, a[1..], b);
    }
  }

  /** Filtering never introduces duplicates. */
  lemma {:induction false} FilterDistinct<T(!new)>(p: T -> bool, s: seq<T>)
    ensures Distinct(s) ==> Distinct(Filter(p, s))
  {
    if s != [] && Distinct(s) {
      assert Distinct(s[1..]) by {
        forall i, j | 0 <= i < j < |s[1..]| ensures s[1..][i] != s[1..][j] {
          assert s[1..][i] == s[i + 1] && s[1..][j] == s[j + 1];
        }
      }
      FilterDistinct(p, s[1..]);
      var rest := Filter(p, s[1..]);
      assert s[0] !in s[1..] by {
        forall k | 0 <= k < |s[1..]| ensures s[1..][k] != s[0] {
          assert s[1..][k] == s[k + 1];
        }
      }
      assert s[0] !in rest;
    }
  }

  /** Every occurrence of `x` removed: `s.filter((i) => i !== x)`. */
  function Without<T(==,!new)>(s: seq<T>, x: T): (r: seq<T>)
    ensures x !in r
    ensures forall y :: y in r <==> y in s && y != x
    ensures x !in s ==> r == s
    ensures |r| <= |s|
    ensures Distinct(s) ==> Distinct(r)
  {
    var p := y => y != x;
    FilterDistinct(p, s);
    Filter(p, s)
  }

  /** Removing `x` distributes over concatenation: the other elements keep their order. */
  lemma WithoutConcat<T(!new)>(a: seq<T>, b: seq<T>, x: T)
    ensures Without(a + b, x) == Without(a, x) + Without(b, x)
  {
    var p := y => y != x;
    FilterConcat(p, a, b);
  }

  /** The first element and the rest of a concatenation that starts with a non-empty `a`. */
  lemma HeadTail<T>(a: seq<T>, b: seq<T>)
    requires |a| > 0
    ensures (a + b)[0] == a[0] && (a + b)[1..] == a[1..] + b
    ensures [a[0]] + (a[1..] + b) == a + b
  {}

  lemma EmptyConcat<T>(e: seq<T>, b: seq<T>)
    requires e == []
    ensures e + b == b
  {}

  lemma ConcatAssoc<T>(a: seq<T>, b: seq<T>, c: seq<T>)
    ensures a + (b + c) == a + b + c
  {}

  /** In a sequence without duplicates, removing the last element leaves exactly the
      elements before it: what is revealed under a closed top of a stack. */
  lemma WithoutLast<T(!new)>(s: seq<T>)
    requires |s| > 0 && Distinct(s)
    ensures Without(s, s[|s| - 1]) == s[..|s| - 1]
  {
    var x, init := s[|s| - 1], s[..|s| - 1];
    assert s == init + [x];
    WithoutConcat(init, [x], x);
    assert x !in init;
  }

  /** `[...s.filter((i) => i !== x), x]`: `x` moved (or added) to the end. */
  function MoveToEnd<T(==,!new)>(s: seq<T>, x: T): (r: seq<T>)
    ensures |r| > 0 && r[|r| - 1] == x
    ensures forall y :: y in r <==> y in s || y == x
    ensures x !in r[..|r| - 1]
    ensures Distinct(s) ==> Distinct(r)
  {
    var w := Without(s, x);
    var r := w + [x];
    assert r[..|r| - 1] == w;
    r
  }

  /** Moving the same element to the end twice is moving it once. */
  lemma MoveToEndTwice<T(!new)>(s: seq<T>, x: T)
    ensures MoveToEnd(MoveToEnd(s, x), x) == MoveToEnd(s, x)
  {
    var w := Without(s, x);
    var p := y => y != x;
    FilterConcat(p, w, [x]);
    assert Filter(p, [x]) == [];
  }

  /** `s.slice(0, n)`. */
  function Take<T>(s: seq<T>, n: nat): (r: seq<T>)
    ensures |r| == if |s| < n then |s| else n
    ensures forall i :: 0 <= i < |r| ==> r[i] == s[i]
  {
    if |s| <= n then s else s[..n]
  }

  /** The inner sequences laid end to end. */
  function Flatten<T>(ss: seq<seq<T>>): seq<T> {
    if ss == [] then [] else ss[0] + Flatten(ss[1..])
  }

  lemma FlattenCons<T>(x: seq<T>, rest: seq<seq<T>>)
    ensures Flatten([x] + rest) == x + Flatten(rest)
  {
    assert ([x] + rest)[1..] == rest;
  }

  /* Maps */

  /** Overwriting an entry and then writing its old value back gives the map back. */
  lemma RestoreEntry<K, V>(m: map<K, V>, k: K, v: V)
    requires k in m
    ensures m[k := v][k := m[k]] == m
  {
    assert m[k := v][k := m[k]] == m[k := m[k]];
  }

  /** Writing the same value twice is writing it once. */
  lemma UpdateTwice<K, V>(m: map<K, V>, k: K, v: V)
    ensures m[k := v][k := v] == m[k := v]
  {}
}

=== FILE: statusbar.dfy ===
/** The menu bar (`src/components/StatusBar.tsx`): opening apps and the About window,
    the active window and app, the title and menus shown for them, and the Cmd-N /
    Cmd-W / Cmd-Q shortcuts. Menus are an opaque type parameter. */
module StatusBar {
  import opened Wrappers
  import opened Seqs
  import opened Ui
  import opened Strs
  import opened Apps

  const OpenAppWidth: real := 600.0
  const OpenAppHeight: real := 420.0

  /** `openApp` placement: a 600 x 420 window placed as every launcher places it. */
  function OpenAppBounds(vw: real, vh: real): Bounds {
    PlacedBounds(vw, vh, OpenAppWidth, OpenAppHeight)
  }

  /** `openApp(appKey)`: a new window `appKey-<suffix>` is opened and focused. */
  function OpenApp(s: UiState, appKey: string, vw: real, vh: real, suffix: string): (r: UiState)
    ensures var id := LaunchId(appKey, suffix);
      && id in r.windows
      && r.windows[id] == NewWindow(id, appKey, OpenAppBounds(vw, vh), None)
      && AgreeExcept(r.windows, s.windows, id)
      && |r.focusStack| > 0 && r.focusStack[|r.focusStack| - 1] == id
      && r.focusStack[..|r.focusStack| - 1] == Without(s.focusStack, id)
      && (forall d :: d in r.dock <==> d in s.dock && d.winId != id)
  {
    var id := LaunchId(appKey, suffix);
    var o := Open(s, NewWindow(id, appKey, OpenAppBounds(vw, vh), None));
    MoveToEndTwice(s.focusStack, id);
    Focus(o, id)
  }

  /** "About This Mac": a 420 x 360 window of the pseudo-app `about` at the origin. */
  function OpenAboutThisMac(s: UiState, suffix: string): (r: UiState)
    ensures var id := LaunchId("about", suffix);
      && id in r.windows
      && r.windows[id] == NewWindow(id, "about", Bounds(0.0, 0.0, 420.0, 360.0), None)
      && AgreeExcept(r.windows, s.windows, id)
      && |r.focusStack| > 0 && r.focusStack[|r.focusStack| - 1] == id
      && r.focusStack[..|r.focusStack| - 1] == Without(s.focusStack, id)
      && (forall d :: d in r.dock <==> d in s.dock && d.winId != id)
  {
    var id := LaunchId("about", suffix);
    var o := Open(s, NewWindow(id, "about", Bounds(0.0, 0.0, 420.0, 360.0), None));
    MoveToEndTwice(s.focusStack, id);
    Focus(o, id)
  }

  /** The active window id: the top of the focus stack, if it is a non-empty string. */
  function ActiveWinId(s: UiState): (r: Option<string>)
    ensures r.Some? <==> |s.focusStack| > 0 && s.focusStack[|s.focusStack| - 1] != ""
    ensures r.Some? ==> r.value == s.focusStack[|s.focusStack| - 1]
  {
    if |s.focusStack| > 0 && s.focusStack[|s.focusStack| - 1] != "" then Some(s.focusStack[|s.focusStack| - 1])
    else None
  }

  /** The active app: the app key of the active window's record, if there is one. */
  function ActiveAppKey(s: UiState): (r: Option<string>)
    ensures r.Some? <==> ActiveWinId(s).Some? && ActiveWinId(s).value in s.windows
    ensures r.Some? ==> r.value == s.windows[ActiveWinId(s).value].appKey
  {
    match ActiveWinId(s)
    case None => None
    case Some(id) => if id in s.windows then Some(s.windows[id].appKey) else None
  }

  /** The bold menu-bar title: the active app's title, "Finder" when there is no active
      app, the active app is the About window, or the app is not in the table. */
  function ActiveAppTitle(s: UiState): (t: string)
    ensures ActiveAppKey(s).None? ==> t == "Finder"
    ensures ActiveAppKey(s) == Some("about") ==> t == "Finder"
    ensures ActiveAppKey(s).Some? && ActiveAppKey(s).value in AppIds ==> Some(t) == AppTitle(ActiveAppKey(s).value)
    ensures ActiveAppKey(s).Some? && ActiveAppKey(s).value !in AppIds ==> t == "Finder"
  {
    match ActiveAppKey(s)
    case None => "Finder"
    case Some(k) => if k == "" || k == "about" then "Finder" else AppTitle(k).GetOr("Finder")
  }

  /** The menus: the active app's own menus when it has some, otherwise Finder's. */
  function ActiveMenus<M>(s: UiState, appsMenus: map<string, M>, finderMenus: M): (m: M)
    ensures ActiveAppKey(s).Some? && ActiveAppKey(s).value != "" && ActiveAppKey(s).value in appsMenus
            ==> m == appsMenus[ActiveAppKey(s).value]
    ensures ActiveAppKey(s).None? || ActiveAppKey(s).value !in appsMenus ==> m == finderMenus
  {
    match ActiveAppKey(s)
    case None => finderMenus
    case Some(k) => if k != "" && k in appsMenus then appsMenus[k] else finderMenus
  }

  /** The app just opened from the menu bar is the active app, and the bar shows its title
      (for a known app) and its menus. */
  lemma OpenAppBecomesActive<M>(s: UiState, appKey: string, vw: real, vh: real, suffix: string,
                                appsMenus: map<string, M>, finderMenus: M)
    requires appKey != "about"
    ensures var r := OpenApp(s, appKey, vw, vh, suffix);
      && ActiveWinId(r) == Some(LaunchId(appKey, suffix))
      && ActiveAppKey(r) == Some(appKey)
      && (appKey in AppIds ==> Some(ActiveAppTitle(r)) == AppTitle(appKey))
      && (appKey != "" && appKey in appsMenus ==> ActiveMenus(r, appsMenus, finderMenus) == appsMenus[appKey])
  {
    var r := OpenApp(s, appKey, vw, vh, suffix);
    var id := LaunchId(appKey, suffix);
    assert id != "" by { assert |id| > |appKey|; }
    assert r.windows[id].appKey == appKey;
  }

  /** Some window of `wins` with this id belongs to the app. */
  ghost predicate Hit(wins: seq<WindowRecord>, appKey: string, k: string) {
    exists w :: w in wins && w.id == k && w.appKey == appKey
  }

  /** Cmd-Q's loop: close, in order, every window of the snapshot whose app is `appKey`. */
  function CloseApp(s: UiState, wins: seq<WindowRecord>, appKey: string): (r: UiState)
    ensures forall k :: k in r.windows <==> k in s.windows && !Hit(wins, appKey, k)
    ensures forall k :: k in r.windows ==> r.windows[k] == s.windows[k]
    ensures forall k :: k in r.focusStack ==> k in s.focusStack && !Hit(wins, appKey, k)
    ensures r.dockIconPositions == s.dockIconPositions
    decreases |wins|
  {
    if wins == [] then s
    else
      var s' := if wins[0].appKey == appKey then Close(s, wins[0].id) else s;
      var r := CloseApp(s', wins[1..], appKey);
      assert forall k :: Hit(wins, appKey, k) <==> (wins[0].appKey == appKey && k == wins[0].id) || Hit(wins[1..], appKey, k) by {
        forall k ensures Hit(wins, appKey, k) ==> (wins[0].appKey == appKey && k == wins[0].id) || Hit(wins[1..], appKey, k) {
          if Hit(wins, appKey, k) {
            var w :| w in wins && w.id == k && w.appKey == appKey;
            if w != wins[0] { assert w in wins[1..]; }
          }
        }
      }
      r
  }

  lemma {:induction false} CloseAppWellFormed(s: UiState, wins: seq<WindowRecord>, appKey: string)
    requires WellFormed(s)
    ensures WellFormed(CloseApp(s, wins, appKey))
    decreases |wins|
  {
    if wins != [] {
      var s' := if wins[0].appKey == appKey then Close(s, wins[0].id) else s;
      if wins[0].appKey == appKey { ClosePreservesWellFormed(s, wins[0].id); }
      CloseAppWellFormed(s', wins[1..], appKey);
    }
  }

  /** Cmd-Q on a well-formed store closes exactly the windows of the app: none is left,
      every other window is kept as it was. */
  lemma QuitClosesExactlyTheApp(s: UiState, appKey: string)
    requires WellFormed(s)
    ensures var r := CloseApp(s, Values(s.windows, s.keyOrder), appKey);
      && WellFormed(r)
      && (forall k :: k in r.windows ==> r.windows[k].appKey != appKey)
      && (forall k :: k in s.windows && s.windows[k].appKey != appKey ==> k in r.windows && r.windows[k] == s.windows[k])
  {
    var wins := Values(s.windows, s.keyOrder);
    CloseAppWellFormed(s, wins, appKey);
    forall k | k in s.windows
      ensures Hit(wins, appKey, k) <==> s.windows[k].appKey == appKey
    {
      HitIffOwnApp(s.windows, s.keyOrder, appKey, k);
    }
  }

  /** In the snapshot of a store whose records sit under their own ids and whose key
      order lists them all, a live id is hit exactly when its own record has the app. */
  lemma HitIffOwnApp(windows: map<string, WindowRecord>, keys: seq<string>, appKey: string, k: string)
    requires forall j :: j in windows <==> j in keys
    requires forall j :: j in windows ==> windows[j].id == j
    requires k in windows
    ensures Hit(Values(windows, keys), appKey, k) <==> windows[k].appKey == appKey
  {
    var wins := Values(windows, keys);
    var i :| 0 <= i < |keys| && keys[i] == k;
    assert wins[i] == windows[k];
    if Hit(wins, appKey, k) {
      var w :| w in wins && w.id == k && w.appKey == appKey;
      var j :| 0 <= j < |wins| && wins[j] == w;
      assert w == windows[keys[j]];
    }
  }

  /** The global shortcut handler (keys compared lower-cased): Cmd-N opens a Finder
      window, Cmd-W closes the active window, Cmd-Q closes every window of the active
      app; other keys (Cmd-C and Cmd-V only log) and keys without Cmd change nothing. */
  function MenuShortcut(s: UiState, metaKey: bool, key: string, vw: real, vh: real, suffix: string): (r: UiState)
    ensures !metaKey ==> r == s
    ensures metaKey && Lower(key) == "n" ==> r == OpenApp(s, "finder", vw, vh, suffix)
    ensures metaKey && Lower(key) == "w" ==> r == (if ActiveWinId(s).Some? then Close(s, ActiveWinId(s).value) else s)
    ensures metaKey && Lower(key) == "q" ==>
      r == (if ActiveAppKey(s).Some? && ActiveAppKey(s).value != ""
            then CloseApp(s, Values(s.windows, s.keyOrder), ActiveAppKey(s).value) else s)
    ensures Lower(key) !in ["n", "w", "q"] ==> r == s
  {
    var k := Lower(key);
    if !metaKey then s
    else if k == "n" then OpenApp(s, "finder", vw, vh, suffix)
    else if k == "w" then
      match ActiveWinId(s)
      case Some(id) => Close(s, id)
      case None => s
    else if k == "q" then
      match ActiveAppKey(s)
      case Some(app) => if app != "" then CloseApp(s, Values(s.windows, s.keyOrder), app) else s
      case None => s
    else s
  }
  /** Every menu-bar shortcut keeps a well-formed store well-formed, and after Cmd-Q no
      window of the app that was active is left (an app with an empty key is skipped). */
  lemma MenuShortcutWellFormed(s: UiState, metaKey: bool, key: string, vw: real, vh: real, suffix: string)
    requires WellFormed(s)
    ensures WellFormed(MenuShortcut(s, metaKey, key, vw, vh, suffix))
    ensures metaKey && Lower(key) == "q" && ActiveAppKey(s).Some? && ActiveAppKey(s).value != "" ==>
      forall k :: k in MenuShortcut(s, metaKey, key, vw, vh, suffix).windows ==>
        MenuShortcut(s, metaKey, key, vw, vh, suffix).windows[k].appKey != ActiveAppKey(s).value
  {
    var k := Lower(key);
    if metaKey && k == "n" {
      var id := LaunchId("finder", suffix);
      var w := NewWindow(id, "finder", OpenAppBounds(vw, vh), None);
      OpenPreservesWellFormed(s, w);
      FocusPreservesWellFormed(Open(s, w), id);
    } else if metaKey && k == "w" && ActiveWinId(s).Some? {
      ClosePreservesWellFormed(s, ActiveWinId(s).value);
    } else if metaKey && k == "q" && ActiveAppKey(s).Some? && ActiveAppKey(s).value != "" {
      QuitClosesExactlyTheApp(s, ActiveAppKey(s).value);
    }
  }
}

=== FILE: strs.dfy ===
/** String helpers standing in for the JavaScript string methods the sources call:
    `toLowerCase` (ASCII letters only), `trim`, `includes`, `startsWith`, `endsWith`,
    `split` on one character, `padStart(2, "0")`, decimal printing and `Number(...)`. */
module Strs {
  import opened Wrappers

  /** ECMAScript WhiteSpace and LineTerminator code points: what `\s` and `trim` treat as blank. */
  predicate IsSpace(c: char) {
    var n := c as int;
    n == 9 || n == 10 || n == 11 || n == 12 || n == 13 || n == 32 || n == 0xA0 || n == 0x1680
    || (0x2000 <= n <= 0x200A) || n == 0x2028 || n == 0x2029 || n == 0x202F || n == 0x205F
    || n == 0x3000 || n == 0xFEFF
  }

  predicate IsUpper(c: char) { 'A' <= c <= 'Z' }

  function LowerChar(c: char): (r: char)
    ensures !IsUpper(r)
    ensures !IsUpper(c) ==> r == c
    ensures IsSpace(r) <==> IsSpace(c)
  {
    if IsUpper(c) then (c as int + 32) as char else c
  }

  /** `s.toLowerCase()` restricted to ASCII letters. */
  function Lower(s: string): (r: string)
    ensures |r| == |s|
    ensures forall i :: 0 <= i < |s| ==> r[i] == LowerChar(s[i])
  {
    if s == [] then [] else [LowerChar(s[0])] + Lower(s[1..])
  }

  lemma {:induction false} LowerIdempotent(s: string)
    ensures Lower(Lower(s)) == Lower(s)
  {
    var l := Lower(s);
    forall i | 0 <= i < |s| ensures Lower(l)[i] == l[i] {
      assert !IsUpper(l[i]);
    }
  }

  /** Lower-casing neither creates nor removes blanks. */
  lemma LowerKeepsBlanks(s: string)
    ensures forall i :: 0 <= i < |s| ==> (IsSpace(Lower(s)[i]) <==> IsSpace(s[i]))
  {}

  /** Lower-casing works character by character, so it distributes over concatenation. */
  lemma LowerConcat(a: string, b: string)
    ensures Lower(a + b) == Lower(a) + Lower(b)
  {
    var l, m := Lower(a + b), Lower(a) + Lower(b);
    forall i | 0 <= i < |a + b| ensures l[i] == m[i] {
      if i < |a| { assert (a + b)[i] == a[i]; } else { assert (a + b)[i] == b[i - |a|]; }
    }
  }

  /** Lower-casing a word, a run of blanks and a rest piece by piece: the word stays free
      of blanks, the run stays blank, and the rest keeps its first character's kind. */
  lemma LowerWordGap(a: string, gap: string, rest: string)
    requires forall i :: 0 <= i < |a| ==> !IsSpace(a[i])
    requires forall i :: 0 <= i < |gap| ==> IsSpace(gap[i])
    requires rest == [] || !IsSpace(rest[0])
    ensures Lower(a + gap + rest) == Lower(a) + (Lower(gap) + Lower(rest))
    ensures forall i :: 0 <= i < |Lower(a)| ==> !IsSpace(Lower(a)[i])
    ensures forall i :: 0 <= i < |Lower(gap)| ==> IsSpace(Lower(gap)[i])
    ensures Lower(rest) == [] || !IsSpace(Lower(rest)[0])
  {
    ConcatAssocStr(a, gap, rest);
    LowerConcat(a, gap + rest);
    LowerConcat(gap, rest);
    LowerKeepsBlanks(a);
    LowerKeepsBlanks(gap);
    LowerKeepsBlanks(rest);
  }

  lemma ConcatAssocStr(a: string, b: string, c: string)
    ensures a + b + c == a + (b + c)
  {}

  predicate Blank(s: string) {
    forall i :: 0 <= i < |s| ==> IsSpace(s[i])
  }

  /** The number of blank characters at the start of `s`. */
  function LeadingBlanks(s: string): (k: nat)
    ensures k <= |s| && Blank(s[..k])
    ensures k < |s| ==> !IsSpace(s[k])
  {
    if s != [] && IsSpace(s[0]) then
      var k := LeadingBlanks(s[1..]);
      assert s[..k + 1] == [s[0]] + s[1..][..k];
      k + 1
    else 0
  }

  /** The length of `s` without its trailing blanks. */
  function KeptLength(s: string): (k: nat)
    ensures k <= |s| && Blank(s[k..])
    ensures k > 0 ==> !IsSpace(s[k - 1])
  {
    if s != [] && IsSpace(s[|s| - 1]) then
      var k := KeptLength(s[..|s| - 1]);
      assert forall i :: 0 <= i < |s| - 1 - k ==> s[k..][i] == s[..|s| - 1][k..][i];
      k
    else |s|
  }

  /** `s.trimStart()`. */
  function TrimStart(s: string): (r: string)
    ensures r == [] || !IsSpace(r[0])
  {
    s[LeadingBlanks(s)..]
  }

  /** `s.trimEnd()`. */
  function TrimEnd(s: string): (r: string)
    ensures r == [] || !IsSpace(r[|r| - 1])
  {
    s[..KeptLength(s)]
  }

  /** `s.trim()`. */
  function Trim(s: string): string {
    TrimEnd(TrimStart(s))
  }

  /** `!s.trim()`: the trimmed string is empty exactly when every character is blank. */
  lemma TrimEmptyIffBlank(s: string)
    ensures Trim(s) == [] <==> Blank(s)
  {
    var k := LeadingBlanks(s);
    var t := s[k..];
    if k == |s| {
      assert s[..k] == s;
    } else {
      assert t[0] == s[k];
      assert KeptLength(t) > 0;
    }
  }

  /** A string with no blank character is its own trim. */
  lemma TrimNoSpace(s: string)
    requires forall i :: 0 <= i < |s| ==> !IsSpace(s[i])
    ensures Trim(s) == s
  {
    assert LeadingBlanks(s) == 0;
  }

  predicate StartsWith(s: string, prefix: string) {
    |prefix| <= |s| && s[..|prefix|] == prefix
  }

  predicate EndsWith(s: string, suffix: string) {
    |suffix| <= |s| && s[|s| - |suffix|..] == suffix
  }

  /** `s.includes(sub)`. */
  predicate Contains(s: string, sub: string) {
    exists i | 0 <= i <= |s| - |sub| :: OccursAt(s, sub, i)
  }

  predicate OccursAt(s: string, sub: string, i: int)
    requires 0 <= i <= |s| - |sub|
  {
    s[i..i + |sub|] == sub
  }

  /** Every occurrence of character `a` replaced by `b` (`s.replace(/a/g, b)`). */
  function ReplaceChar(s: string, a: char, b: char): (r: string)
    ensures |r| == |s|
    ensures forall i :: 0 <= i < |s| ==> r[i] == (if s[i] == a then b else s[i])
  {
    seq(|s|, i requires 0 <= i < |s| => if s[i] == a then b else s[i])
  }

  /** A string without `a` is left as it is. */
  lemma ReplaceAbsent(s: string, a: char, b: char)
    requires a !in s
    ensures ReplaceChar(s, a, b) == s
  {
    assert forall i :: 0 <= i < |s| ==> s[i] != a;
  }

  /** `s.split(c)`: the pieces between occurrences of `c`; at least one piece. */
  function Split(s: string, c: char): (r: seq<string>)
    ensures |r| >= 1
    ensures forall i :: 0 <= i < |r| ==> c !in r[i]
    ensures c !in s ==> r == [s]
  {
    if s == [] then [""]
    else
      var rest := Split(s[1..], c);
      assert s == [s[0]] + s[1..];
      if s[0] == c then [""] + rest else [[s[0]] + rest[0]] + rest[1..]
  }

  /** Splitting at the first separator: the piece before it, then the pieces after it. */
  lemma {:induction false} SplitAtFirst(a: string, c: char, b: string)
    requires c !in a
    ensures Split(a + [c] + b, c) == [a] + Split(b, c)
  {
    var s := a + [c] + b;
    if a == [] {
      assert s[1..] == b;
    } else {
      assert s[1..] == a[1..] + [c] + b;
      SplitAtFirst(a[1..], c, b);
      assert [a[0]] + a[1..] == a;
    }
  }

  /** A decimal numeral reads back as its value. */
  lemma ParseNatToString(n: nat)
    ensures ParseNumber(NatToString(n)) == Some(n)
  {
    var s := NatToString(n);
    assert forall i :: 0 <= i < |s| ==> IsDigit(s[i]) && !IsSpace(s[i]);
    TrimNoSpace(s);
    NatToStringRoundTrip(n);
    assert Trim(s) == s && s != [];
  }

  /** `parts.join(c)`. */
  function Join(parts: seq<string>, c: char): string {
    if parts == [] then ""
    else if |parts| == 1 then parts[0]
    else parts[0] + [c] + Join(parts[1..], c)
  }

  /** Splitting and re-joining on the same character gives the string back. */
  lemma {:induction false} JoinSplit(s: string, c: char)
    ensures Join(Split(s, c), c) == s
  {
    if s != [] {
      var rest := Split(s[1..], c);
      JoinSplit(s[1..], c);
      if s[0] == c {
        assert Split(s, c) == [""] + rest;
        assert ([""] + rest)[1..] == rest;
      } else {
        var r := [[s[0]] + rest[0]] + rest[1..];
        assert Split(s, c) == r;
        if |rest| == 1 {
          assert r == [[s[0]] + rest[0]];
        } else {
          assert r[1..] == rest[1..];
          assert Join(rest, c) == rest[0] + [c] + Join(rest[1..], c);
        }
      }
    }
  }

  predicate IsDigit(c: char) { '0' <= c <= '9' }

  predicate AllDigits(s: string) {
    forall i :: 0 <= i < |s| ==> IsDigit(s[i])
  }

  /** The value of a run of decimal digits. */
  function DigitsValue(s: string): nat
    requires AllDigits(s)
  {
    if s == [] then 0 else DigitsValue(s[..|s| - 1]) * 10 + (s[|s| - 1] as int - '0' as int)
  }

  function DigitChar(d: nat): (c: char)
    requires d < 10
    ensures IsDigit(c) && c as int - '0' as int == d
  {
    ('0' as int + d) as char
  }

  /** `n.toString()` for a natural number. */
  function NatToString(n: nat): (r: string)
    ensures |r| >= 1 && AllDigits(r)
    ensures n < 10 ==> |r| == 1
    ensures n >= 10 ==> |r| >= 2
  {
    if n < 10 then [DigitChar(n)] else NatToString(n / 10) + [DigitChar(n % 10)]
  }

  /** `n.toString()` for any integer: a minus sign before the magnitude. */
  function IntToString(n: int): string {
    if n < 0 then "-" + NatToString(-n) else NatToString(n)
  }

  /** Printing a natural number and reading it back gives the number. */
  lemma {:induction false} NatToStringRoundTrip(n: nat)
    ensures DigitsValue(NatToString(n)) == n
  {
    if n >= 10 {
      var s := NatToString(n);
      NatToStringRoundTrip(n / 10);
      assert s[..|s| - 1] == NatToString(n / 10);
    }
  }

  /** `s.padStart(2, "0")`. */
  function PadStart2(s: string): (r: string)
    ensures |r| == if |s| < 2 then 2 else |s|
    ensures EndsWith(r, s)
  {
    if |s| == 0 then "00" else if |s| == 1 then "0" + s else s
  }

  /** JavaScript `Number(s)` on the decimal forms the model supports: surrounding blanks
      are ignored, the empty string is 0, an optional sign may precede the digits;
      anything else is NaN (None). */
  function ParseNumber(s: string): (r: Option<int>)
    ensures AllDigits(Trim(s)) ==> r == Some(if Trim(s) == [] then 0 else DigitsValue(Trim(s)))
  {
    var t := Trim(s);
    if t == [] then Some(0)
    else if AllDigits(t) then Some(DigitsValue(t))
    else if |t| >= 2 && (t[0] == '-' || t[0] == '+') && AllDigits(t[1..]) then
      var v: int := DigitsValue(t[1..]);
      Some(if t[0] == '-' then -v else v)
    else None
  }
}

=== FILE: synth.dfy ===
/** The synthesizer (`src/apps/synth/Synth.tsx`): the 48-key keyboard and its note
    names, the computer-keyboard map, octave shifting, power, presets and the list of
    sounding notes. Sound generation and note frequencies are left out, and so are the
    timers that switch the LED off; the timer that releases a played note becomes an
    explicit operation. */
module Synth {
  import opened Wrappers
  import opened Seqs
  import opened Strs

  datatype Color = White | Black

  datatype NoteData = NoteData(name: string, color: Color)

  /** The twelve notes of an octave, from C. */
  const BaseNotes: seq<NoteData> := [
    NoteData("C", White), NoteData("C#", Black), NoteData("D", White), NoteData("D#", Black),
    NoteData("E", White), NoteData("F", White), NoteData("F#", Black), NoteData("G", White),
    NoteData("G#", Black), NoteData("A", White), NoteData("A#", Black), NoteData("B", White)
  ]

  /** A key of the on-screen keyboard: its note name and colour. */
  datatype Note = Note(note: string, color: Color)

  const Octaves: nat := 4

  /** The key at position `12 * octave + idx` for the octave offset. */
  function KeyNote(octave: int, idx: int, offset: int): Note
    requires 0 <= idx < 12
  {
    Note(BaseNotes[idx].name + IntToString(octave + 2 + offset), BaseNotes[idx].color)
  }

  /** `generateNotes(offset)`: four octaves of the twelve notes. */
  function GenerateNotes(offset: int): (r: seq<Note>)
    ensures |r| == 48 && |r| == Octaves * |BaseNotes|
    ensures forall i :: 0 <= i < |r| ==> r[i] == KeyNote(i / 12, i % 12, offset)
    ensures forall i :: 0 <= i < |r| ==> r[i].color == BaseNotes[i % 12].color
  {
    seq(48, i requires 0 <= i < 48 => KeyNote(i / 12, i % 12, offset))
  }

  /** Raising the offset by one octave moves every name twelve keys down: the keyboard is
      transposed, colours staying in place. */
  lemma ShiftTransposes(offset: int, higher: int)
    requires higher == offset + 1
    ensures forall i :: 12 <= i < 48 ==> GenerateNotes(higher)[i - 12] == GenerateNotes(offset)[i]
  {
    forall i | 12 <= i < 48 ensures GenerateNotes(higher)[i - 12] == GenerateNotes(offset)[i] {
      assert (i - 12) / 12 == i / 12 - 1 && (i - 12) % 12 == i % 12;
    }
  }

  /** The twelve base notes have twelve different names. */
  lemma BaseNamesDistinct(a: int, b: int)
    requires 0 <= a < 12 && 0 <= b < 12 && a != b
    ensures BaseNotes[a].name != BaseNotes[b].name
  {}

  /** Every octave number in range prints as one digit. */
  lemma OneDigitOctave(n: int)
    requires 0 <= n <= 9
    ensures IntToString(n) == [DigitChar(n)]
  {}

  /** While the offset is in range the 48 keys have 48 different names, so a name picks
      out one key. */
  lemma NoteNamesDistinct(offset: int, i: int, j: int)
    requires -2 <= offset <= 2
    requires 0 <= i < 48 && 0 <= j < 48 && i != j
    ensures GenerateNotes(offset)[i].note != GenerateNotes(offset)[j].note
  {
    var ni := GenerateNotes(offset)[i].note;
    var nj := GenerateNotes(offset)[j].note;
    var a, b := BaseNotes[i % 12].name, BaseNotes[j % 12].name;
    OneDigitOctave(i / 12 + 2 + offset);
    OneDigitOctave(j / 12 + 2 + offset);
    if ni == nj {
      assert ni == a + [DigitChar(i / 12 + 2 + offset)];
      assert nj == b + [DigitChar(j / 12 + 2 + offset)];
      assert |a| == |b|;
      assert ni[|ni| - 1] == nj[|nj| - 1];
      assert i / 12 == j / 12;
      assert ni[..|a|] == a && nj[..|b|] == b;
      if i % 12 != j % 12 { BaseNamesDistinct(i % 12, j % 12); }
    }
  }

  /* ---------------------------------------------------------------------- */
  /* Octave shift                                                           */
  /* ---------------------------------------------------------------------- */

  const MinShift: int := -2
  const MaxShift: int := 2

  /** `shiftOctave`: one octave up or down, clamped to [-2, 2]. */
  function ShiftOctave(prev: int, up: bool): (r: int)
    ensures MinShift <= r <= MaxShift
    ensures MinShift <= prev <= MaxShift ==> (if up then r == prev + 1 || r == prev == MaxShift else r == prev - 1 || r == prev == MinShift)
  {
    var n := if up then prev + 1 else prev - 1;
    if n < MinShift then MinShift else if n > MaxShift then MaxShift else n
  }

  /* ---------------------------------------------------------------------- */
  /* Keyboard map                                                           */
  /* ---------------------------------------------------------------------- */

  /** `KEYBOARD_MAP`: computer keys to keyboard positions. */
  const KeyboardMap: map<string, int> := map[
    "a" := 0, "w" := 1, "s" := 2, "e" := 3, "d" := 4, "f" := 5, "t" := 6, "g" := 7, "y" := 8,
    "h" := 9, "u" := 10, "j" := 11, "k" := 12, "o" := 13, "l" := 14, "p" := 15, ";" := 16,
    "'" := 17, "z" := 18, "x" := 19, "c" := 20, "v" := 21, "b" := 22, "n" := 23, "m" := 24
  ]

  /** Every mapped position is in [0, 24], so every mapped key reaches a key of the
      48-key keyboard. */
  lemma KeyboardMapInRange()
    ensures forall k :: k in KeyboardMap ==> 0 <= KeyboardMap[k] <= 24 < 48
  {}

  /** The position a key event addresses, if the lower-cased key is mapped and the
      keyboard is that long. */
  function KeyIndex(key: string, notes: seq<Note>): (r: Option<nat>)
    ensures r.Some? ==> r.value < |notes| && Lower(key) in KeyboardMap && KeyboardMap[Lower(key)] == r.value
    ensures r.None? <==> Lower(key) !in KeyboardMap || !(0 <= KeyboardMap[Lower(key)] < |notes|)
  {
    var k := Lower(key);
    if k in KeyboardMap && 0 <= KeyboardMap[k] < |notes| then Some(KeyboardMap[k] as nat) else None
  }

  /* ---------------------------------------------------------------------- */
  /* Synth state                                                            */
  /* ---------------------------------------------------------------------- */

  datatype Wave = Sine | Square | Triangle | Sawtooth

  datatype Adsr = Adsr(attack: real, decay: real, sustain: real, release: real)

  datatype Preset = Preset(wave: Wave, adsr: Adsr, filter: real, reverb: real, volume: real)

  const Presets: map<string, Preset> := map[
    "Warm Pad" := Preset(Triangle, Adsr(0.4, 0.3, 0.8, 1.5), 8000.0, 0.45, 0.8),
    "Analog Bass" := Preset(Square, Adsr(0.02, 0.25, 0.6, 0.2), 3000.0, 0.1, 0.9),
    "Pluck Lead" := Preset(Sawtooth, Adsr(0.01, 0.15, 0.3, 0.25), 10000.0, 0.25, 0.85),
    "Crystal Keys" := Preset(Sine, Adsr(0.05, 0.2, 0.8, 0.8), 15000.0, 0.35, 0.75)
  ]

  datatype SynthState = SynthState(
    power: bool,
    active: seq<string>,
    sound: Preset,
    led: bool,
    octaveShift: int,
    preset: string,
    notes: seq<Note>)

  const InitialSynth: SynthState :=
    SynthState(true, [], Preset(Sine, Adsr(0.03, 0.25, 0.7, 0.3), 18000.0, 0.25, 0.8), false, 0, "Custom", GenerateNotes(0))

  /** The power switch; nothing happens before the sound engine exists. Switching on
      lights the LED, switching off puts it out. */
  function TogglePower(s: SynthState, hasCore: bool): (r: SynthState)
    ensures !hasCore ==> r == s
    ensures hasCore ==> r.power == !s.power && r.led == r.power && r.(power := s.power, led := s.led) == s
  {
    if !hasCore then s else s.(power := !s.power, led := !s.power)
  }

  /** `applyPreset(name)`: an unknown name changes nothing; a known one sets the sound,
      the preset name and the LED. */
  function ApplyPreset(s: SynthState, name: string): (r: SynthState)
    ensures name !in Presets ==> r == s
    ensures name in Presets ==> r.sound == Presets[name] && r.preset == name && r.led
    ensures name in Presets ==> r.(sound := s.sound, preset := s.preset, led := s.led) == s
  {
    if name !in Presets then s else s.(sound := Presets[name], preset := name, led := true)
  }

  /** `play(freq, id)`: with the power off nothing happens; otherwise the note is added to
      the sounding list and the LED lights. */
  function Play(s: SynthState, id: string): (r: SynthState)
    ensures !s.power ==> r == s
    ensures s.power ==> r.active == s.active + [id] && r.led && r.(active := s.active, led := s.led) == s
  {
    if !s.power then s else s.(active := s.active + [id], led := true)
  }

  /** The release timer of a played note: every entry for it is removed. */
  function Release(s: SynthState, id: string): (r: SynthState)
    ensures id !in r.active && forall x :: x in r.active <==> x in s.active && x != id
    ensures r.(active := s.active) == s
  {
    s.(active := Without(s.active, id))
  }

  /** Key down: unmapped keys and notes already sounding are ignored; otherwise the note
      of that key is played. */
  function KeyDown(s: SynthState, key: string): (r: SynthState)
    ensures KeyIndex(key, s.notes).None? ==> r == s
    ensures KeyIndex(key, s.notes).Some? ==>
      var n := s.notes[KeyIndex(key, s.notes).value].note;
      r == (if n in s.active then s else Play(s, n))
  {
    match KeyIndex(key, s.notes)
    case None => s
    case Some(i) => if s.notes[i].note in s.active then s else Play(s, s.notes[i].note)
  }

  /** Key up: the note of a mapped key stops sounding. */
  function KeyUp(s: SynthState, key: string): (r: SynthState)
    ensures KeyIndex(key, s.notes).None? ==> r == s
    ensures KeyIndex(key, s.notes).Some? ==> r == Release(s, s.notes[KeyIndex(key, s.notes).value].note)
  {
    match KeyIndex(key, s.notes)
    case None => s
    case Some(i) => Release(s, s.notes[i].note)
  }

  /** Holding keys never sounds a note twice: key down keeps the sounding list free of
      repeats, and releasing the key silences its note. */
  lemma KeyDownUp(s: SynthState, key: string)
    requires Distinct(s.active)
    ensures Distinct(KeyDown(s, key).active)
    ensures KeyIndex(key, s.notes).Some? ==> s.notes[KeyIndex(key, s.notes).value].note !in KeyUp(KeyDown(s, key), key).active
  {
    match KeyIndex(key, s.notes)
    case None =>
    case Some(i) =>
      var n := s.notes[i].note;
      if n !in s.active && s.power {
        assert KeyDown(s, key).active == s.active + [n];
        assert Distinct(s.active + [n]) by {
          forall a, b | 0 <= a < b < |s.active| + 1 ensures (s.active + [n])[a] != (s.active + [n])[b] {
            if b == |s.active| { assert (s.active + [n])[a] == s.active[a]; }
          }
        }
      }
  }

  /** The octave buttons: the shift moves within [-2, 2] and the keyboard is rebuilt for
      it. */
  function Shift(s: SynthState, up: bool): (r: SynthState)
    ensures r.octaveShift == ShiftOctave(s.octaveShift, up) && r.notes == GenerateNotes(r.octaveShift)
    ensures r.(octaveShift := s.octaveShift, notes := s.notes) == s
  {
    var o := ShiftOctave(s.octaveShift, up);
    s.(octaveShift := o, notes := GenerateNotes(o))
  }

  /** The shift stays in range and the keyboard always matches it, from the initial
      state through any octave button press. */
  predicate KeyboardValid(s: SynthState) {
    MinShift <= s.octaveShift <= MaxShift && s.notes == GenerateNotes(s.octaveShift)
  }

  lemma ShiftKeepsKeyboard(s: SynthState, up: bool)
    ensures KeyboardValid(InitialSynth)
    ensures KeyboardValid(Shift(s, up))
  {}
}

=== FILE: terminal.dfy ===
/** The Terminal app (`src/apps/terminal/Terminal.tsx`): a tiny shell over a fixed
    two-directory file tree, with command history, a fake `sudo` prompt and commands
    that open other apps through the command bus (returned as the ids dispatched). */
module Terminal {
  import opened Wrappers
  import opened Strs

  datatype Line = Line(text: string, className: Option<string>)

  datatype FsNode = FsNode(isDir: bool, name: string, target: Option<string>)

  /** The file tree: two directories. */
  const Fs: map<string, seq<FsNode>> := map[
    "/" := [FsNode(true, "Projects", None), FsNode(false, "Resume.pdf", Some("resume.open")), FsNode(true, "Guestbook", None)],
    "/Projects" := [FsNode(false, "MacPortfolio", Some("finder.open"))]
  ]

  const Commands: seq<string> :=
    ["help", "about", "projects", "resume", "socials", "clear", "ls", "cd", "cat", "open", "man", "sudo"]

  datatype Term = Term(
    lines: seq<Line>,
    input: string,
    cwd: string,
    history: seq<string>,
    histIndex: int,
    awaitingPassword: bool)

  const Welcome: Line := Line("Welcome to Portfolio Terminal. Type 'help' for commands.", None)

  const Initial: Term := Term([Welcome], "", "/", [], -1, false)

  /** The working directory is a directory of the tree; the history cursor is either
      off (-1) or on an entry. */
  predicate Valid(t: Term) {
    t.cwd in Fs && (t.histIndex == -1 || 0 <= t.histIndex < |t.history|)
  }

  lemma InitialValid()
    ensures Valid(Initial)
  {}

  /** `parts.join(sep)` with a string separator. */
  function JoinWith(parts: seq<string>, sep: string): string {
    if parts == [] then "" else if |parts| == 1 then parts[0] else parts[0] + sep + JoinWith(parts[1..], sep)
  }

  /** How `ls` shows a node: a folder or a page glyph, directories with a trailing slash. */
  function Listing(n: FsNode): (s: string)
    ensures n.isDir ==> s == "\U{1F4C1} " + n.name + "/"
    ensures !n.isDir ==> s == "\U{1F4C4} " + n.name
  {
    if n.isDir then "\U{1F4C1} " + n.name + "/" else "\U{1F4C4} " + n.name
  }

  function Listings(ns: seq<FsNode>): (r: seq<string>)
    ensures |r| == |ns| && forall i :: 0 <= i < |ns| ==> r[i] == Listing(ns[i])
  {
    if ns == [] then [] else [Listing(ns[0])] + Listings(ns[1..])
  }

  /** `cd`'s join: `/x` from the root, `cwd/x` elsewhere. */
  function ChildPath(cwd: string, target: string): string {
    if cwd == "/" then "/" + target else cwd + "/" + target
  }

  /** The node named `name` in a directory (`find`), if any. */
  function FindNode(ns: seq<FsNode>, name: string): (r: Option<FsNode>)
    ensures r.Some? ==> r.value in ns && r.value.name == name
    ensures r.None? ==> forall n :: n in ns ==> n.name != name
  {
    if ns == [] then None else if ns[0].name == name then Some(ns[0]) else FindNode(ns[1..], name)
  }

  /** A run of the shell: the new terminal state and the command-bus ids dispatched. */
  datatype Run = Run(term: Term, dispatched: seq<string>)

  function Say(t: Term, text: string): Term {
    t.(lines := t.lines + [Line(text, None)])
  }

  function Fail(t: Term, text: string): Term {
    t.(lines := t.lines + [Line(text, Some("error"))])
  }

  /** The commands the shell knows; anything else is `Unknown`. */
  datatype Command = Help | About | List | Cd | Cat | OpenCmd | Resume | Socials | Sudo | Clear | Man | Unknown

  /** The command named by the first word (`projects` is a synonym of `ls`). */
  function Parse(base: string): (c: Command)
    ensures c == Unknown <==> base !in Commands
    ensures c == List <==> base == "ls" || base == "projects"
    ensures c == Cd <==> base == "cd"
    ensures c == OpenCmd <==> base == "open"
    ensures c == Sudo <==> base == "sudo"
    ensures c == Clear <==> base == "clear"
  {
    if base == "help" then Help
    else if base == "about" then About
    else if base == "projects" || base == "ls" then List
    else if base == "cd" then Cd
    else if base == "cat" then Cat
    else if base == "open" then OpenCmd
    else if base == "resume" then Resume
    else if base == "socials" then Socials
    else if base == "sudo" then Sudo
    else if base == "clear" then Clear
    else if base == "man" then Man
    else Unknown
  }

  /** `cd`: no argument does nothing, `..` goes to the root, a child directory of the
      tree is entered, anything else is reported and the directory kept. */
  function ChangeDir(t: Term, args: seq<string>): (r: Term)
    requires Valid(t)
    ensures Valid(r) && r.history == t.history && r.histIndex == t.histIndex
    ensures r.awaitingPassword == t.awaitingPassword
    ensures |args| == 0 || args[0] == "" ==> r == t
    ensures |args| > 0 && args[0] == ".." ==> r == t.(cwd := "/")
    ensures |args| > 0 && args[0] != "" && args[0] != ".." ==>
      && (ChildPath(t.cwd, args[0]) in Fs ==> r == t.(cwd := ChildPath(t.cwd, args[0])))
      && (ChildPath(t.cwd, args[0]) !in Fs ==> r == Fail(t, "cd: no such file or directory: " + args[0]))
  {
    if |args| == 0 || args[0] == "" then t
    else if args[0] == ".." then (if t.cwd != "/" then t.(cwd := "/") else t)
    else
      var p := ChildPath(t.cwd, args[0]);
      if p in Fs then t.(cwd := p) else Fail(t, "cd: no such file or directory: " + args[0])
  }

  /** `open x`: a node of the current directory with a target is opened through the bus;
      directories, unknown names and a missing argument (printed as "undefined") fail. */
  function OpenNode(t: Term, args: seq<string>): (r: Run)
    requires Valid(t)
    ensures r.term == t.(lines := r.term.lines) && |r.dispatched| <= 1
    ensures var node := if |args| > 0 then FindNode(Fs[t.cwd], args[0]) else None;
      var name := if |args| > 0 then args[0] else "undefined";
      && (node.Some? && node.value.target.Some? ==>
            r == Run(Say(t, "Opening " + name + "…"), [node.value.target.value]))
      && (!(node.Some? && node.value.target.Some?) ==>
            r == Run(Fail(t, "open: no such file or app: " + name), []))
  {
    var node := if |args| > 0 then FindNode(Fs[t.cwd], args[0]) else None;
    var name := if |args| > 0 then args[0] else "undefined";
    if node.Some? && node.value.target.Some? then Run(Say(t, "Opening " + name + "…"), [node.value.target.value])
    else Run(Fail(t, "open: no such file or app: " + name), [])
  }

  /** Only the two files of the tree have targets, so `open` can only reach these. */
  lemma OpenTargets(t: Term, args: seq<string>)
    requires Valid(t)
    ensures forall d :: d in OpenNode(t, args).dispatched ==> d in ["resume.open", "finder.open"]
  {}

  /** The fixed text the informational commands print, one entry per line. */
  function Message(c: Command): seq<string> {
    match c
    case Help => ["Available commands:", JoinWith(Commands, ", ")]
    case About =>
      [ "\U{1F44B} Hello! I'm Jeffrey \U{2014} a creative full-stack developer passionate about design and user experience.",
        "Explore my projects or open Resume.pdf for more info." ]
    case Cat => ["Use 'open' to view files graphically."]
    case Resume => ["Opening Resume.pdf…"]
    case Socials =>
      [ "\U{1F310} LinkedIn: linkedin.com/in/jeffrey",
        "\U{1F4BB} GitHub: github.com/whoistheedev",
        "\U{1F426} Twitter: x.com/whoistheedev" ]
    case Man => ["This isn\U{2019}t UNIX, but close enough \U{1F604} Try 'help'."]
    case _ => []
  }

  function PlainLines(texts: seq<string>): (r: seq<Line>)
    ensures |r| == |texts| && forall i :: 0 <= i < |texts| ==> r[i] == Line(texts[i], None)
  {
    if texts == [] then [] else [Line(texts[0], None)] + PlainLines(texts[1..])
  }

  /** What the command itself does, after the prompt has been echoed. */
  function Execute(t: Term, c: Command, base: string, args: seq<string>): (r: Run)
    requires Valid(t)
    ensures Valid(r.term) && r.term.history == t.history && r.term.histIndex == t.histIndex
    ensures c == Cd ==> r == Run(ChangeDir(t, args), [])
    ensures c == List ==> r == Run(Say(t, JoinWith(Listings(Fs[t.cwd]), "  ")), [])
    ensures c == OpenCmd ==> r == OpenNode(t, args)
    ensures c == Clear ==> r == Run(t.(lines := []), [])
    ensures c == Sudo ==>
      r == Run(t.(lines := t.lines + [Line("Password:", Some("prompt"))], awaitingPassword := true), [])
    ensures c == Resume ==> r.dispatched == ["resume.open"]
    ensures c == Unknown ==> r == Run(Fail(t, "zsh: command not found: " + base), [])
    ensures c in {Help, About, Cat, Resume, Socials, Man} ==> r.term == t.(lines := t.lines + PlainLines(Message(c)))
    ensures c != Sudo ==> r.term.awaitingPassword == t.awaitingPassword
    ensures c != Cd ==> r.term.cwd == t.cwd
    ensures c != OpenCmd && c != Resume ==> r.dispatched == []
  {
    if c == List then Run(Say(t, JoinWith(Listings(Fs[t.cwd]), "  ")), [])
    else if c == Cd then Run(ChangeDir(t, args), [])
    else if c == OpenCmd then OpenNode(t, args)
    else if c == Sudo then Run(t.(lines := t.lines + [Line("Password:", Some("prompt"))], awaitingPassword := true), [])
    else if c == Clear then Run(t.(lines := []), [])
    else if c == Unknown then Run(Fail(t, "zsh: command not found: " + base), [])
    else Run(t.(lines := t.lines + PlainLines(Message(c))), if c == Resume then ["resume.open"] else [])
  }

  function PromptLine(cwd: string, cmd: string): Line {
    Line("visitor@portfolio-os " + cwd + " % " + cmd, Some("prompt"))
  }

  /** `runCommand(raw)`: a blank line does nothing. Otherwise the prompt is echoed, the
      trimmed command joins the history, the cursor and input are reset; while a
      password is awaited the only effect is the refusal, else the command runs. */
  function RunCommand(t: Term, raw: string): (r: Run)
    requires Valid(t)
    ensures Valid(r.term)
    ensures Blank(raw) ==> r == Run(t, [])
    ensures !Blank(raw) ==>
      var cmd := Trim(raw);
      var echoed := t.(lines := t.lines + [PromptLine(t.cwd, cmd)], history := t.history + [cmd], histIndex := -1, input := "");
      && r.term.history == t.history + [cmd] && r.term.histIndex == -1 && r.term.input == ""
      && (t.awaitingPassword ==>
            r == Run(echoed.(lines := echoed.lines + [Line("Sorry, try again.", Some("error"))], awaitingPassword := false), []))
      && (!t.awaitingPassword ==>
            var parts := Split(cmd, ' ');
            r == Execute(echoed, Parse(parts[0]), parts[0], parts[1..]))
  {
    TrimEmptyIffBlank(raw);
    var cmd := Trim(raw);
    if cmd == [] then Run(t, [])
    else
      var echoed := t.(lines := t.lines + [PromptLine(t.cwd, cmd)], history := t.history + [cmd], histIndex := -1, input := "");
      if t.awaitingPassword then
        Run(echoed.(lines := echoed.lines + [Line("Sorry, try again.", Some("error"))], awaitingPassword := false), [])
      else
        var parts := Split(cmd, ' ');
        Execute(echoed, Parse(parts[0]), parts[0], parts[1..])
  }

  /** After `sudo`, whatever is typed next is refused: only the echo and "Sorry, try
      again." are printed, nothing is dispatched, and the prompt is over. */
  lemma SudoRefusesNext(t: Term, next: string)
    requires Valid(t) && !t.awaitingPassword && !Blank(next)
    ensures var s := RunCommand(t, "sudo").term;
      && s.awaitingPassword
      && var r := RunCommand(s, next);
      && r.dispatched == []
      && !r.term.awaitingPassword
      && r.term.cwd == s.cwd
      && r.term.lines == s.lines + [PromptLine(s.cwd, Trim(next)), Line("Sorry, try again.", Some("error"))]
  {
    assert !IsSpace("sudo"[0]) && !IsSpace("sudo"[1]) && !IsSpace("sudo"[2]) && !IsSpace("sudo"[3]);
    TrimNoSpace("sudo");
    assert ' ' !in "sudo";
    assert Split("sudo", ' ') == ["sudo"];
    assert Parse("sudo") == Sudo;
  }

  /** Arrow keys walk the history: up from "off" goes to the newest entry, otherwise one
      older (stopping at the oldest); down past the newest switches the cursor off and
      empties the input. */
  function HistoryKey(t: Term, key: string): (r: Term)
    requires Valid(t)
    ensures Valid(r) && r.history == t.history && r.cwd == t.cwd && r.lines == t.lines
    ensures key == "ArrowUp" && |t.history| > 0 ==>
      r.histIndex == (if t.histIndex == -1 then |t.history| - 1 else if t.histIndex - 1 > 0 then t.histIndex - 1 else 0)
      && r.input == t.history[r.histIndex]
    ensures key == "ArrowUp" && |t.history| == 0 ==> r == t
    ensures key == "ArrowDown" && t.histIndex == -1 ==> r == t
    ensures key == "ArrowDown" && t.histIndex != -1 && t.histIndex + 1 >= |t.history| ==>
      r.histIndex == -1 && r.input == ""
    ensures key == "ArrowDown" && t.histIndex != -1 && t.histIndex + 1 < |t.history| ==>
      r.histIndex == t.histIndex + 1 && r.input == t.history[t.histIndex + 1]
    ensures key != "ArrowUp" && key != "ArrowDown" ==> r == t
  {
    if key == "ArrowUp" then
      if |t.history| == 0 then t
      else
        var i := if t.histIndex == -1 then |t.history| - 1 else if t.histIndex - 1 > 0 then t.histIndex - 1 else 0;
        t.(histIndex := i, input := t.history[i])
    else if key == "ArrowDown" then
      if t.histIndex == -1 then t
      else if t.histIndex + 1 >= |t.history| then t.(histIndex := -1, input := "")
      else t.(histIndex := t.histIndex + 1, input := t.history[t.histIndex + 1])
    else t
  }

  /** Up then down from the newest entry switches the cursor back off. */
  lemma UpThenDown(t: Term)
    requires Valid(t) && t.histIndex == -1 && |t.history| > 0
    ensures var r := HistoryKey(HistoryKey(t, "ArrowUp"), "ArrowDown");
      r.histIndex == -1 && r.input == ""
  {}
}

=== FILE: ui.dfy ===
/** The window-manager store (`src/store/ui.ts`): a map of window records, the order in
    which their keys were inserted (JavaScript object iteration order), a recency-ordered
    focus stack whose last element is the active window, per-app dock icon positions and
    the dock list of minimized windows. Every operation is a pure state -> state reducer
    that leaves the state alone when handed an id with no record. */
module Ui {
  import opened Wrappers
  import opened Seqs

  datatype Bounds = Bounds(x: real, y: real, width: real, height: real)

  /** Launch-time parameters forwarded to the hosted app; Finder reads `path`. */
  datatype LaunchProps = LaunchProps(path: Option<seq<string>>)

  datatype WindowRecord = WindowRecord(
    id: string,
    appKey: string,
    x: real,
    y: real,
    width: real,
    height: real,
    minimized: bool,
    zoomed: bool,
    lastBounds: Option<Bounds>,
    minimizing: bool,
    props: Option<LaunchProps>)
  {
    function Geometry(): Bounds { Bounds(x, y, width, height) }
  }

  datatype DockEntry = DockEntry(appKey: string, winId: string)

  datatype Point = Point(x: real, y: real)

  datatype UiState = UiState(
    windows: map<string, WindowRecord>,
    keyOrder: seq<string>,
    focusStack: seq<string>,
    dockIconPositions: map<string, Point>,
    dock: seq<DockEntry>)

  /** Menu bar height and the space kept free for the dock when zooming. */
  const MenuBar: real := 24.0
  const DockSpace: real := 100.0

  const Initial: UiState := UiState(map[], [], [], map[], [])

  /** A window record as the caller of `openWindow` builds it. */
  function NewWindow(id: string, appKey: string, g: Bounds, props: Option<LaunchProps>): WindowRecord {
    WindowRecord(id, appKey, g.x, g.y, g.width, g.height, false, false, None, false, props)
  }

  /** The two maps agree everywhere except possibly at `k`. */
  ghost predicate AgreeExcept<K(!new), V>(a: map<K, V>, b: map<K, V>, k: K) {
    forall j :: j != k ==> (j in a <==> j in b) && (j in a ==> a[j] == b[j])
  }

  predicate DockIdsDistinct(dock: seq<DockEntry>) {
    forall i, j :: 0 <= i < j < |dock| ==> dock[i].winId != dock[j].winId
  }

  function DockWithout(dock: seq<DockEntry>, id: string): (r: seq<DockEntry>)
    ensures forall d :: d in r <==> d in dock && d.winId != id
    ensures DockIdsDistinct(dock) ==> DockIdsDistinct(r)
  {
    if dock == [] then []
    else
      var rest := DockWithout(dock[1..], id);
      if dock[0].winId == id then rest
      else
        assert DockIdsDistinct(dock) ==> forall d :: d in rest ==> d.winId != dock[0].winId by {
          if DockIdsDistinct(dock) {
            forall d | d in rest ensures d.winId != dock[0].winId {
              var k :| 0 <= k < |dock[1..]| && dock[1..][k] == d;
              assert dock[k + 1] == d;
            }
          }
        }
        [dock[0]] + rest
  }

  /** The store invariant: key order enumerates the map, records sit under their own id,
      the focus stack has no duplicates and only live ids, and every dock entry names a
      live, minimized window of the same app, at most once. */
  ghost predicate WellFormed(s: UiState) {
    && Distinct(s.keyOrder)
    && (forall k :: k in s.windows <==> k in s.keyOrder)
    && (forall k :: k in s.windows ==> s.windows[k].id == k)
    && Distinct(s.focusStack)
    && (forall k :: k in s.focusStack ==> k in s.windows)
    && DockIdsDistinct(s.dock)
    && (forall d :: d in s.dock ==>
          d.winId in s.windows && s.windows[d.winId].minimized && s.windows[d.winId].appKey == d.appKey)
  }

  lemma InitialWellFormed()
    ensures WellFormed(Initial)
  {}

  /** `Object.values(windows)`: the records in key insertion order. */
  function Values(windows: map<string, WindowRecord>, keys: seq<string>): (r: seq<WindowRecord>)
    ensures |r| <= |keys|
    ensures forall w :: w in r ==> w in windows.Values
    ensures (forall k :: k in keys ==> k in windows) ==>
      |r| == |keys| && forall i :: 0 <= i < |keys| ==> r[i] == windows[keys[i]]
  {
    if keys == [] then []
    else
      var rest := Values(windows, keys[1..]);
      if keys[0] in windows then [windows[keys[0]]] + rest else rest
  }

  /** `openWindow`: store the record (with `minimizing` reset), put its id on top of the
      focus stack and drop any dock entry for it. */
  function Open(s: UiState, win: WindowRecord): (r: UiState)
    ensures win.id in r.windows && r.windows[win.id] == win.(minimizing := false)
    ensures AgreeExcept(r.windows, s.windows, win.id)
    ensures |r.focusStack| > 0 && r.focusStack[|r.focusStack| - 1] == win.id
    ensures r.focusStack[..|r.focusStack| - 1] == Without(s.focusStack, win.id)
    ensures forall d :: d in r.dock <==> d in s.dock && d.winId != win.id
    ensures win.id in s.windows ==> r.keyOrder == s.keyOrder
    ensures win.id !in s.windows ==> r.keyOrder == s.keyOrder + [win.id]
    ensures r.dockIconPositions == s.dockIconPositions
  {
    UiState(
      s.windows[win.id := win.(minimizing := false)],
      if win.id in s.windows then s.keyOrder else s.keyOrder + [win.id],
      MoveToEnd(s.focusStack, win.id),
      s.dockIconPositions,
      DockWithout(s.dock, win.id))
  }

  /** `closeWindow`: the id disappears from the map, the focus stack and the dock. */
  function Close(s: UiState, id: string): (r: UiState)
    ensures id !in r.windows && id !in r.focusStack
    ensures forall d :: d in r.dock ==> d.winId != id
    ensures AgreeExcept(r.windows, s.windows, id)
    ensures forall k :: k in r.focusStack <==> k in s.focusStack && k != id
    ensures r.focusStack == Without(s.focusStack, id) && r.keyOrder == Without(s.keyOrder, id)
    ensures forall d :: d in r.dock <==> d in s.dock && d.winId != id
    ensures r.dockIconPositions == s.dockIconPositions
  {
    UiState(
      s.windows - {id},
      Without(s.keyOrder, id),
      Without(s.focusStack, id),
      s.dockIconPositions,
      DockWithout(s.dock, id))
  }

  /** `minimizeWindow`, phase 1: only the `minimizing` flag of an existing window is raised. */
  function MinimizeStart(s: UiState, id: string): (r: UiState)
    ensures id !in s.windows ==> r == s
    ensures id in s.windows ==>
      && id in r.windows && r.windows[id] == s.windows[id].(minimizing := true)
      && AgreeExcept(r.windows, s.windows, id)
      && r.(windows := s.windows) == s
  {
    if id !in s.windows then s
    else s.(windows := s.windows[id := s.windows[id].(minimizing := true)])
  }

  /** `minimizeWindow`, phase 2 (the timer body): if the window still exists it becomes
      minimized and not minimizing, and its single dock entry moves to the end. */
  function MinimizeFinish(s: UiState, id: string): (r: UiState)
    ensures id !in s.windows ==> r == s
    ensures id in s.windows ==>
      && id in r.windows
      && r.windows[id] == s.windows[id].(minimized := true, minimizing := false)
      && AgreeExcept(r.windows, s.windows, id)
      && |r.dock| > 0 && r.dock[|r.dock| - 1] == DockEntry(s.windows[id].appKey, id)
      && (forall i :: 0 <= i < |r.dock| - 1 ==> r.dock[i].winId != id)
      && (forall d :: d in r.dock[..|r.dock| - 1] <==> d in s.dock && d.winId != id)
      && r.focusStack == s.focusStack && r.keyOrder == s.keyOrder
      && r.dockIconPositions == s.dockIconPositions
  {
    if id !in s.windows then s
    else
      var w := s.windows[id];
      var rest := DockWithout(s.dock, id);
      var dock := rest + [DockEntry(w.appKey, id)];
      assert dock[..|dock| - 1] == rest;
      s.(windows := s.windows[id := w.(minimized := true, minimizing := false)], dock := dock)
  }

  /** `restoreWindow`: clears both flags, moves the id to the top of the focus stack and
      removes its dock entry. */
  function Restore(s: UiState, id: string): (r: UiState)
    ensures id !in s.windows ==> r == s
    ensures id in s.windows ==>
      && id in r.windows
      && r.windows[id] == s.windows[id].(minimized := false, minimizing := false)
      && AgreeExcept(r.windows, s.windows, id)
      && |r.focusStack| > 0 && r.focusStack[|r.focusStack| - 1] == id
      && r.focusStack[..|r.focusStack| - 1] == Without(s.focusStack, id)
      && (forall d :: d in r.dock <==> d in s.dock && d.winId != id)
      && r.keyOrder == s.keyOrder && r.dockIconPositions == s.dockIconPositions
  {
    if id !in s.windows then s
    else
      var w := s.windows[id];
      s.(windows := s.windows[id := w.(minimized := false, minimizing := false)],
         focusStack := MoveToEnd(s.focusStack, id),
         dock := DockWithout(s.dock, id))
  }

  function Max(a: real, b: real): real { if a >= b then a else b }
  function Min(a: real, b: real): real { if a <= b then a else b }

  /** `Math.floor` on a real, as a real. */
  function Floor(v: real): (r: real)
    ensures r == r.Floor as real
    ensures r <= v < r + 1.0
  {
    v.Floor as real
  }

  /** The placement the app launchers share for a `width` x `height` window: centred
      horizontally, a third of the way down, at least 16 px from the left and 48 px from
      the top. */
  function PlacedBounds(vw: real, vh: real, width: real, height: real): (b: Bounds)
    ensures b.width == width && b.height == height
    ensures b.x >= 16.0 && b.y >= 48.0
    ensures (vw - width) / 2.0 - 1.0 < b.x <= Max(16.0, (vw - width) / 2.0)
    ensures (vh - height) / 3.0 - 1.0 < b.y <= Max(48.0, (vh - height) / 3.0)
    ensures b.x == b.x.Floor as real && b.y == b.y.Floor as real
  {
    Bounds(Max(16.0, Floor((vw - width) / 2.0)), Max(48.0, Floor((vh - height) / 3.0)), width, height)
  }

  /** The zoomed rectangle for a `vw` x `vh` viewport. */
  function ZoomedBounds(vw: real, vh: real): (b: Bounds)
    ensures b.x == 0.0 && b.y == MenuBar
    ensures vw >= 320.0 ==> b.width == vw
    ensures vw < 320.0 ==> b.width == 320.0
    ensures vh - MenuBar - DockSpace >= 200.0 ==> b.height == vh - MenuBar - DockSpace
    ensures vh - MenuBar - DockSpace < 200.0 ==> b.height == 200.0
  {
    var width := Max(320.0, vw);
    var height := Max(200.0, vh - MenuBar - DockSpace);
    Bounds(Max(0.0, Floor((vw - width) / 2.0)), MenuBar, width, height)
  }

  /** `zoomWindow`: an unzoomed window saves its geometry in `lastBounds` and takes the
      zoomed rectangle; a zoomed one gets `lastBounds` back (if any) and is unzoomed. */
  function Zoom(s: UiState, id: string, vw: real, vh: real): (r: UiState)
    ensures id !in s.windows ==> r == s
    ensures id in s.windows ==>
      && id in r.windows && AgreeExcept(r.windows, s.windows, id)
      && r.(windows := s.windows) == s
      && var w, w' := s.windows[id], r.windows[id];
         && w'.zoomed == !w.zoomed
         && (!w.zoomed ==> w'.lastBounds == Some(w.Geometry()) && w'.Geometry() == ZoomedBounds(vw, vh))
         && (w.zoomed && w.lastBounds.Some? ==> w'.Geometry() == w.lastBounds.value)
         && (w.zoomed && w.lastBounds.None? ==> w'.Geometry() == w.Geometry())
         && w'.lastBounds == (if w.zoomed then w.lastBounds else Some(w.Geometry()))
         && w'.(x := w.x, y := w.y, width := w.width, height := w.height, zoomed := w.zoomed,
                lastBounds := w.lastBounds) == w
  {
    if id !in s.windows then s
    else
      var w := s.windows[id];
      if !w.zoomed then
        var z := ZoomedBounds(vw, vh);
        s.(windows := s.windows[id := w.(lastBounds := Some(w.Geometry()), x := z.x, y := z.y,
                                         width := z.width, height := z.height, zoomed := true)])
      else if w.lastBounds.Some? then
        var b := w.lastBounds.value;
        s.(windows := s.windows[id := w.(x := b.x, y := b.y, width := b.width, height := b.height,
                                         zoomed := false)])
      else
        s.(windows := s.windows[id := w.(zoomed := false)])
  }

  /** `moveWindow`: only x and y of an existing window change. */
  function Move(s: UiState, id: string, x: real, y: real): (r: UiState)
    ensures id !in s.windows ==> r == s
    ensures id in s.windows ==>
      && id in r.windows && r.windows[id] == s.windows[id].(x := x, y := y)
      && AgreeExcept(r.windows, s.windows, id)
      && r.(windows := s.windows) == s
  {
    if id !in s.windows then s
    else s.(windows := s.windows[id := s.windows[id].(x := x, y := y)])
  }

  /** `focusWindow`: only the focus stack changes; the id goes on top. */
  function Focus(s: UiState, id: string): (r: UiState)
    ensures id !in s.windows ==> r == s
    ensures id in s.windows ==>
      && r.(focusStack := s.focusStack) == s
      && |r.focusStack| > 0 && r.focusStack[|r.focusStack| - 1] == id
      && r.focusStack[..|r.focusStack| - 1] == Without(s.focusStack, id)
  {
    if id !in s.windows then s
    else s.(focusStack := MoveToEnd(s.focusStack, id))
  }

  /** `setDockIconPosition`: records where the dock drew an app's icon. */
  function SetDockIconPosition(s: UiState, appId: string, pos: Point): (r: UiState)
    ensures appId in r.dockIconPositions && r.dockIconPositions[appId] == pos
    ensures AgreeExcept(r.dockIconPositions, s.dockIconPositions, appId)
    ensures r.(dockIconPositions := s.dockIconPositions) == s
  {
    s.(dockIconPositions := s.dockIconPositions[appId := pos])
  }

  /* ---------------------------------------------------------------------- */
  /* Invariant preservation                                                 */
  /* ---------------------------------------------------------------------- */

  lemma OpenPreservesWellFormed(s: UiState, win: WindowRecord)
    requires WellFormed(s)
    ensures WellFormed(Open(s, win))
  {
    var r := Open(s, win);
    if win.id !in s.windows {
      assert win.id !in s.keyOrder;
      assert Distinct(s.keyOrder + [win.id]);
    }
  }

  lemma ClosePreservesWellFormed(s: UiState, id: string)
    requires WellFormed(s)
    ensures WellFormed(Close(s, id))
  {}

  /** Closing the window on top of the focus stack pops it: the window below becomes
      the active one, and the rest of the stack keeps its order. */
  lemma CloseTopRevealsPrevious(s: UiState)
    requires WellFormed(s) && |s.focusStack| > 0
    ensures Close(s, s.focusStack[|s.focusStack| - 1]).focusStack == s.focusStack[..|s.focusStack| - 1]
  {
    WithoutLast(s.focusStack);
  }

  lemma MinimizeStartPreservesWellFormed(s: UiState, id: string)
    requires WellFormed(s)
    ensures WellFormed(MinimizeStart(s, id))
  {}

  lemma MinimizeFinishPreservesWellFormed(s: UiState, id: string)
    requires WellFormed(s)
    ensures WellFormed(MinimizeFinish(s, id))
  {
    if id in s.windows {
      var r := MinimizeFinish(s, id);
      var rest := DockWithout(s.dock, id);
      assert r.dock == rest + [DockEntry(s.windows[id].appKey, id)];
      assert DockIdsDistinct(rest);
    }
  }

  lemma RestorePreservesWellFormed(s: UiState, id: string)
    requires WellFormed(s)
    ensures WellFormed(Restore(s, id))
  {}

  lemma ZoomPreservesWellFormed(s: UiState, id: string, vw: real, vh: real)
    requires WellFormed(s)
    ensures WellFormed(Zoom(s, id, vw, vh))
  {}

  lemma MovePreservesWellFormed(s: UiState, id: string, x: real, y: real)
    requires WellFormed(s)
    ensures WellFormed(Move(s, id, x, y))
  {}

  lemma FocusPreservesWellFormed(s: UiState, id: string)
    requires WellFormed(s)
    ensures WellFormed(Focus(s, id))
  {}

  /* ---------------------------------------------------------------------- */
  /* Relations between operations                                           */
  /* ---------------------------------------------------------------------- */

  /** Closing an id that has no record leaves a well-formed store exactly as it was. */
  lemma CloseAbsentIsIdentity(s: UiState, id: string)
    requires WellFormed(s) && id !in s.windows
    ensures Close(s, id) == s
  {
    assert id !in s.keyOrder && id !in s.focusStack;
    var d := DockWithout(s.dock, id);
    assert forall e :: e in s.dock ==> e.winId != id;
    DockWithoutNoop(s.dock, id);
  }

  lemma {:induction false} DockWithoutNoop(dock: seq<DockEntry>, id: string)
    requires forall e :: e in dock ==> e.winId != id
    ensures DockWithout(dock, id) == dock
  {
    if dock != [] {
      var tl := dock[1..];
      assert dock[0] in dock && dock[0].winId != id;
      assert forall e :: e in tl ==> e in dock;
      DockWithoutNoop(tl, id);
      assert DockWithout(dock, id) == [dock[0]] + DockWithout(tl, id);
      assert dock == [dock[0]] + tl;
    }
  }

  /** Focusing the window just opened changes nothing: `openWindow` already put it on top. */
  lemma FocusAfterOpen(s: UiState, win: WindowRecord)
    ensures Focus(Open(s, win), win.id) == Open(s, win)
  {
    MoveToEndTwice(s.focusStack, win.id);
  }

  /** Opening the same record twice is opening it once. */
  lemma OpenIdempotent(s: UiState, win: WindowRecord)
    ensures Open(Open(s, win), win) == Open(s, win)
  {
    var o := Open(s, win);
    MoveToEndTwice(s.focusStack, win.id);
    UpdateTwice(s.windows, win.id, win.(minimizing := false));
    DockWithoutNoop(o.dock, win.id);
  }

  /** Both minimize phases on a live window: it ends minimized, not minimizing, with
      exactly one dock entry, the last one, carrying its app key; nothing else moves. */
  lemma MinimizeBothPhases(s: UiState, id: string)
    requires WellFormed(s) && id in s.windows
    ensures var r := MinimizeFinish(MinimizeStart(s, id), id);
      && r.windows[id].minimized && !r.windows[id].minimizing
      && r.dock[|r.dock| - 1] == DockEntry(s.windows[id].appKey, id)
      && (forall d :: d in r.dock && d.winId == id ==> d == r.dock[|r.dock| - 1])
      && r.focusStack == s.focusStack
      && WellFormed(r)
  {
    MinimizeStartPreservesWellFormed(s, id);
    MinimizeFinishPreservesWellFormed(MinimizeStart(s, id), id);
    var r := MinimizeFinish(MinimizeStart(s, id), id);
    forall d | d in r.dock && d.winId == id ensures d == r.dock[|r.dock| - 1] {
      var k :| 0 <= k < |r.dock| && r.dock[k] == d;
    }
  }

  /** The phase-2 timer firing after the window was closed is harmless. */
  lemma MinimizeFinishAfterClose(s: UiState, id: string)
    ensures MinimizeFinish(Close(MinimizeStart(s, id), id), id) == Close(MinimizeStart(s, id), id)
  {}

  /** Zooming twice restores the pre-zoom geometry exactly (the saved bounds stay). */
  lemma ZoomRoundTrip(s: UiState, id: string, vw: real, vh: real, vw2: real, vh2: real)
    requires id in s.windows && !s.windows[id].zoomed
    ensures var r := Zoom(Zoom(s, id, vw, vh), id, vw2, vh2);
      && r.windows[id] == s.windows[id].(lastBounds := Some(s.windows[id].Geometry()))
      && r.(windows := s.windows) == s
      && AgreeExcept(r.windows, s.windows, id)
  {}

  /** After focusing or opening, the window is the active one and appears once in the stack. */
  lemma FocusMakesActive(s: UiState, id: string)
    requires WellFormed(s) && id in s.windows
    ensures var fs := Focus(s, id).focusStack;
      |fs| > 0 && fs[|fs| - 1] == id && Distinct(fs) && |fs| == |s.focusStack| + (if id in s.focusStack then 0 else 1)
  {
    FocusPreservesWellFormed(s, id);
    WithoutLength(s.focusStack, id);
  }

  /** Removing an element that occurs once from a distinct sequence shortens it by one. */
  lemma {:induction false} WithoutLength<T(!new)>(s: seq<T>, x: T)
    requires Distinct(s)
    ensures |Without(s, x)| == |s| - (if x in s then 1 else 0)
  {
    if s != [] {
      assert Distinct(s[1..]) by {
        forall i, j | 0 <= i < j < |s[1..]| ensures s[1..][i] != s[1..][j] {
          assert s[1..][i] == s[i + 1] && s[1..][j] == s[j + 1];
        }
      }
      WithoutLength(s[1..], x);
      var p := y => y != x;
      assert Without(s, x) == Filter(p, s);
      assert Filter(p, s) == (if p(s[0]) then [s[0]] else []) + Filter(p, s[1..]);
      assert Without(s[1..], x) == Filter(p, s[1..]);
      if s[0] == x {
        assert x !in s[1..] by {
          forall k | 0 <= k < |s[1..]| ensures s[1..][k] != x { assert s[1..][k] == s[k + 1]; }
        }
      } else {
        assert x in s <==> x in s[1..];
      }
    }
  }
}

=== FILE: wallpapers.dfy ===
/** The wallpapers app (`src/apps/wallpapers/WallpapersApp.tsx`): which storage entries
    become wallpapers, how they are named and grouped by folder, the "Set Desktop
    Picture" button and the global default. The storage listings are inputs and the
    public-URL builder is a function parameter. */
module Wallpapers {
  import opened Wrappers
  import opened Strs
  import opened Prefs
  import opened Desktop
  import Seqs

  const ValidExtensions: seq<string> := ["jpg", "jpeg", "png", "webp", "heic", "heif"]

  /** A top-level entry the loader opens as a folder: a non-empty name without a dot. */
  predicate IsFolderName(name: string) {
    name != "" && '.' !in name
  }

  /** A file the loader keeps: its lower-cased name ends with one of the extensions; no
      dot is needed before it. */
  predicate IsImageName(name: string) {
    exists i :: 0 <= i < |ValidExtensions| && EndsWith(Lower(name), ValidExtensions[i])
  }

  /** Lower-casing leaves the last three characters alone when they are already lower
      case, so `photojpg` is accepted like `photo.JPG`. */
  lemma ImageNeedsNoDot(base: string)
    ensures IsImageName(base + "jpg")
  {
    var n := base + "jpg";
    var l := Lower(n);
    assert l[|l| - 3] == 'j' && l[|l| - 2] == 'p' && l[|l| - 1] == 'g';
    assert l[|l| - 3..] == ValidExtensions[0];
  }

  /** The position of the last `.` of `s`. */
  function LastDot(s: string): (r: Option<nat>)
    ensures r.None? <==> '.' !in s
    ensures r.Some? ==> r.value < |s| && s[r.value] == '.' && '.' !in s[r.value + 1..]
  {
    if s == [] then None
    else if s[|s| - 1] == '.' then Some(|s| - 1)
    else
      var r := LastDot(s[..|s| - 1]);
      if r.Some? then
        assert s[r.value + 1..] == s[..|s| - 1][r.value + 1..] + [s[|s| - 1]];
        r
      else
        assert s == s[..|s| - 1] + [s[|s| - 1]];
        r
  }

  /** The regular expression `\.[^/.]+$` matches at `i`: a dot followed by one or more
      characters up to the end, none of them `.` or `/`. */
  predicate ExtensionAt(name: string, i: int) {
    0 <= i && i + 1 < |name| && name[i] == '.' && '.' !in name[i + 1..] && '/' !in name[i + 1..]
  }

  /** `name.replace(/\.[^/.]+$/, "")`: the name cut before the match, or the whole name
      when there is none. */
  function StripExtension(name: string): (r: string)
    ensures |r| <= |name| && r == name[..|r|]
    ensures r != name ==> ExtensionAt(name, |r|)
    ensures r == name ==> forall i :: 0 <= i < |name| ==> !ExtensionAt(name, i)
  {
    match LastDot(name)
    case None => name
    case Some(d) =>
      if d + 1 < |name| && '/' !in name[d + 1..] then name[..d]
      else
        assert forall i :: 0 <= i < |name| ==> !ExtensionAt(name, i) by {
          forall i | 0 <= i < |name| && ExtensionAt(name, i) ensures false {
          }
        }
        name
  }

  /** A base name followed by `.` and an extension without `.` or `/` loses exactly the
      extension. */
  lemma StripExtensionRoundTrip(base: string, ext: string)
    requires ext != [] && '.' !in ext && '/' !in ext
    ensures StripExtension(base + "." + ext) == base
  {
    var n := base + "." + ext;
    assert n[|base| + 1..] == ext;
    assert ExtensionAt(n, |base|);
    assert n[..|base|] == base;
  }

  /** A wallpaper entry of the listing. */
  datatype Item = Item(id: string, name: string, full: string, folder: string)

  /** The entry built for `file` in `folder`. */
  function ItemOf(folder: string, file: string, publicUrl: string -> string): Item {
    Item(folder + "-" + file, StripExtension(file), publicUrl(folder + "/" + file), folder)
  }

  /** The images of one folder listing, in listing order. */
  function Images(folder: string, files: seq<string>, publicUrl: string -> string): (r: seq<Item>)
    ensures |r| <= |files|
    ensures forall f :: f in files && IsImageName(f) ==> ItemOf(folder, f, publicUrl) in r
    ensures forall it :: it in r ==> it.folder == folder
    ensures forall it :: it in r ==> exists f :: f in files && IsImageName(f) && it == ItemOf(folder, f, publicUrl)
  {
    if files == [] then []
    else
      var rest := Images(folder, files[1..], publicUrl);
      assert forall f :: f in files[1..] ==> f in files;
      assert forall f :: f in files ==> f == files[0] || f in files[1..];
      var r := if IsImageName(files[0]) then [ItemOf(folder, files[0], publicUrl)] + rest else rest;
      assert forall it :: it in r ==> it in rest || (it == ItemOf(folder, files[0], publicUrl) && IsImageName(files[0]));
      r
  }

  /** Building items works file by file, so the images keep the listing's order. */
  lemma ImagesConcat(folder: string, a: seq<string>, b: seq<string>, publicUrl: string -> string)
    ensures Images(folder, a + b, publicUrl) == Images(folder, a, publicUrl) + Images(folder, b, publicUrl)
  {
    ImagesByFile(folder, a + b, publicUrl);
    ImagesByFile(folder, a, publicUrl);
    ImagesByFile(folder, b, publicUrl);
    ItemsConcat(folder, a, b, publicUrl);
  }

  /** The items file by file, without the membership facts `Images` carries. */
  function Items(folder: string, files: seq<string>, publicUrl: string -> string): seq<Item> {
    if files == [] then []
    else (if IsImageName(files[0]) then [ItemOf(folder, files[0], publicUrl)] else []) + Items(folder, files[1..], publicUrl)
  }

  lemma {:induction false} ImagesByFile(folder: string, files: seq<string>, publicUrl: string -> string)
    ensures Images(folder, files, publicUrl) == Items(folder, files, publicUrl)
  {
    if files != [] {
      ImagesByFile(folder, files[1..], publicUrl);
    }
  }

  lemma {:induction false} ItemsConcat(folder: string, a: seq<string>, b: seq<string>, publicUrl: string -> string)
    ensures Items(folder, a + b, publicUrl) == Items(folder, a, publicUrl) + Items(folder, b, publicUrl)
  {
    if a == [] {
      assert a + b == b;
    } else {
      var head := if IsImageName(a[0]) then [ItemOf(folder, a[0], publicUrl)] else [];
      assert (a + b)[0] == a[0] && (a + b)[1..] == a[1..] + b;
      assert Items(folder, a + b, publicUrl) == head + Items(folder, a[1..] + b, publicUrl);
      ItemsConcat(folder, a[1..], b, publicUrl);
      Seqs.ConcatAssoc(head, Items(folder, a[1..], publicUrl), Items(folder, b, publicUrl));
    }
  }

  /** One top-level entry and the files listed under it (none when the listing fails). */
  datatype Listing = Listing(name: string, files: seq<string>)

  /** The entry is a folder with at least one image. */
  predicate HasImages(l: Listing, publicUrl: string -> string) {
    IsFolderName(l.name) && |Images(l.name, l.files, publicUrl)| > 0
  }

  /** `grouped` after the loop over `folders`: every listing with images writes its own
      name's group. */
  function GroupMap(folders: seq<Listing>, publicUrl: string -> string): map<string, seq<Item>>
  {
    if folders == [] then map[]
    else
      var last := folders[|folders| - 1];
      var g := GroupMap(folders[..|folders| - 1], publicUrl);
      if HasImages(last, publicUrl) then g[last.name := Images(last.name, last.files, publicUrl)] else g
  }

  lemma {:induction false} GroupMapShape(folders: seq<Listing>, publicUrl: string -> string)
    ensures var g := GroupMap(folders, publicUrl);
      && (forall k :: k in g ==> IsFolderName(k) && |g[k]| > 0)
      && (forall k, it :: k in g && it in g[k] ==> it.folder == k)
      && (forall k :: k in g <==>
            exists i :: 0 <= i < |folders| && folders[i].name == k && HasImages(folders[i], publicUrl))
  {
    if folders != [] {
      var init := folders[..|folders| - 1];
      GroupMapShape(init, publicUrl);
      assert forall i :: 0 <= i < |init| ==> init[i] == folders[i];
    }
  }

  /** The groups shown: a folder is present exactly when some entry with its name is a
      folder and has at least one image; each group holds images of that folder only. */
  function Groups(folders: seq<Listing>, publicUrl: string -> string): (g: map<string, seq<Item>>)
    ensures forall k :: k in g ==> IsFolderName(k) && |g[k]| > 0
    ensures forall k, it :: k in g && it in g[k] ==> it.folder == k
    ensures forall k :: k in g <==>
      exists i :: 0 <= i < |folders| && folders[i].name == k && HasImages(folders[i], publicUrl)
  {
    GroupMapShape(folders, publicUrl);
    GroupMap(folders, publicUrl)
  }

  lemma {:induction false} GroupMapHoldsLast(folders: seq<Listing>, publicUrl: string -> string, i: nat)
    requires i < |folders| && HasImages(folders[i], publicUrl)
    requires forall j :: i < j < |folders| && folders[j].name == folders[i].name ==> !HasImages(folders[j], publicUrl)
    ensures folders[i].name in GroupMap(folders, publicUrl)
    ensures GroupMap(folders, publicUrl)[folders[i].name] == Images(folders[i].name, folders[i].files, publicUrl)
  {
    var n := |folders| - 1;
    var init := folders[..n];
    if i < n {
      assert init[i] == folders[i];
      forall j | i < j < |init| && init[j].name == init[i].name
        ensures !HasImages(init[j], publicUrl)
      {
        assert init[j] == folders[j];
      }
      GroupMapHoldsLast(init, publicUrl, i);
    }
  }

  /** What a group holds: `grouped[folder.name] = images` is overwritten by every later
      listing of the same name that has images, so the group of a name is the image list
      of its last listing with images. */
  lemma GroupsHoldLastListing(folders: seq<Listing>, publicUrl: string -> string, i: nat)
    requires i < |folders| && HasImages(folders[i], publicUrl)
    requires forall j :: i < j < |folders| && folders[j].name == folders[i].name ==> !HasImages(folders[j], publicUrl)
    ensures folders[i].name in Groups(folders, publicUrl)
    ensures Groups(folders, publicUrl)[folders[i].name] == Images(folders[i].name, folders[i].files, publicUrl)
  {
    GroupMapHoldsLast(folders, publicUrl, i);
  }

  /** "Set Desktop Picture": without a preview nothing changes; otherwise the preview
      becomes the wallpaper, with its id, URL and folder but without its name. */
  function SetDesktopPicture(s: PrefsState, preview: Option<Item>): (r: PrefsState)
    ensures preview.None? ==> r == s
    ensures preview.Some? ==> r.prefs.wallpaper == Some(Wallpaper(preview.value.id, preview.value.full, None, None, Some(preview.value.folder), None))
    ensures preview.Some? ==> r.prefs.recentWallpapers == PushRecent(r.prefs.wallpaper.value, s.prefs.recentWallpapers)
    ensures r.activeTheme == s.activeTheme && r.prefs.holidayThemeOverride == s.prefs.holidayThemeOverride
  {
    match preview
    case None => s
    case Some(it) => SetWallpaper(s, Some(Wallpaper(it.id, it.full, None, None, Some(it.folder), None)))
  }

  /** A picture set from a folder other than `themes` is what the desktop then shows,
      whatever theme is active. */
  lemma SetPictureIsShown(s: PrefsState, packs: ThemePacks, it: Item, shown: string)
    requires it.full != "" && it.folder != "themes"
    ensures ShownWallpaper(true, SetDesktopPicture(s, Some(it)), packs, shown) == it.full
  {}

  const GlobalDefaultName: string := "Global Default"

  /** The global default fetched at start-up: used only when it is a non-empty string and
      no wallpaper with a URL is set. */
  function ApplyGlobalDefault(s: PrefsState, value: Option<string>): (r: PrefsState)
    ensures value.None? || value.value == "" ==> r == s
    ensures s.prefs.wallpaper.Some? && s.prefs.wallpaper.value.full != "" ==> r == s
    ensures value.Some? && value.value != "" && !(s.prefs.wallpaper.Some? && s.prefs.wallpaper.value.full != "") ==>
      r.prefs.wallpaper == Some(Wallpaper("global-default", value.value, None, None, Some("default"), Some(GlobalDefaultName)))
  {
    if value.Some? && value.value != "" && !(s.prefs.wallpaper.Some? && s.prefs.wallpaper.value.full != "") then
      SetWallpaper(s, Some(Wallpaper("global-default", value.value, None, None, Some("default"), Some(GlobalDefaultName))))
    else s
  }

  /** Applying the default a second time changes nothing: the first time leaves a
      wallpaper with a URL. */
  lemma GlobalDefaultOnce(s: PrefsState, value: Option<string>)
    ensures ApplyGlobalDefault(ApplyGlobalDefault(s, value), value) == ApplyGlobalDefault(s, value)
  {}
}

=== FILE: window.dfy ===
/** The window frame (`src/components/Window.tsx`): stacking order, first-show placement
    with a per-app geometry memory, viewport clamping, the Cmd-W / Cmd-M shortcuts, the
    minimize animation's completion and the drag / resize callbacks. The viewport size
    is a parameter; the memory is an explicit map from app key to bounds. */
module Window {
  import opened Wrappers
  import opened Seqs
  import opened Strs
  import opened Ui

  const DefaultWidth: real := 640.0
  const DefaultHeight: real := 420.0

  /** Remembered geometry per app key (module-level object in the source). */
  type Memory = map<string, Bounds>

  /** The state a frame callback acts on: the store and the geometry memory. */
  datatype Frame = Frame(ui: UiState, memory: Memory)

  /** A window is active when it is the last element of the focus stack. */
  predicate IsActive(focusStack: seq<string>, id: string) {
    |focusStack| > 0 && focusStack[|focusStack| - 1] == id
  }

  /** `indexOf`: the first position of `id`, or -1. */
  function IndexOf(s: seq<string>, id: string): (r: int)
    ensures -1 <= r < |s|
    ensures r == -1 <==> id !in s
    ensures r >= 0 ==> s[r] == id && id !in s[..r]
  {
    if s == [] then -1
    else if s[0] == id then 0
    else
      var k := IndexOf(s[1..], id);
      if k == -1 then -1
      else
        assert s[..k + 1] == [s[0]] + s[1..][..k];
        k + 1
  }

  /** Stacking order: 100 plus the position in the focus stack (100 when absent). */
  function ZIndex(focusStack: seq<string>, id: string): (z: int)
    ensures z >= 100
    ensures id !in focusStack ==> z == 100
    ensures id in focusStack ==> z - 100 < |focusStack| && focusStack[z - 100] == id && id !in focusStack[..z - 100]
  {
    var idx := IndexOf(focusStack, id);
    100 + (if idx >= 0 then idx else 0)
  }

  /** In a duplicate-free stack, a window later in the stack is drawn above an earlier one. */
  lemma ZIndexFollowsStack(fs: seq<string>, i: int, j: int)
    requires Distinct(fs) && 0 <= i < j < |fs|
    ensures ZIndex(fs, fs[i]) == 100 + i && ZIndex(fs, fs[j]) == 100 + j
    ensures ZIndex(fs, fs[i]) < ZIndex(fs, fs[j])
  {}

  /** The active window is drawn above every other window of the stack, and it is the only active one. */
  lemma ActiveWindowOnTop(fs: seq<string>, a: string, b: string)
    requires Distinct(fs) && IsActive(fs, a) && b in fs && b != a
    ensures ZIndex(fs, b) < ZIndex(fs, a)
    ensures !IsActive(fs, b)
  {
    var i :| 0 <= i < |fs| && fs[i] == b;
    ZIndexFollowsStack(fs, i, |fs| - 1);
  }

  /** First-show placement: the remembered bounds of the app if any, otherwise the
      640 x 420 default shrunk to 90% / 75% of the viewport and centred, at least
      10 px from the left and 20 px from the top. */
  function DefaultPlacement(memory: Memory, appKey: string, vw: real, vh: real): (b: Bounds)
    ensures appKey in memory ==> b == memory[appKey]
    ensures appKey !in memory ==>
      && b.width == Min(DefaultWidth, vw * 0.9) && b.height == Min(DefaultHeight, vh * 0.75)
      && b.x >= 10.0 && b.y >= 20.0
      && (vw - b.width) / 2.0 - 1.0 < b.x <= Max(10.0, (vw - b.width) / 2.0)
      && (vh - b.height) / 2.0 - 1.0 < b.y <= Max(20.0, (vh - b.height) / 2.0)
      && b.x == b.x.Floor as real && b.y == b.y.Floor as real
      && (vw >= 0.0 ==> b.width <= vw) && (vh >= 0.0 ==> b.height <= vh)
  {
    if appKey in memory then memory[appKey]
    else
      var w := Min(DefaultWidth, vw * 0.9);
      var h := Min(DefaultHeight, vh * 0.75);
      Bounds(Max(10.0, Floor((vw - w) / 2.0)), Max(20.0, Floor((vh - h) / 2.0)), w, h)
  }

  /** When the viewport leaves room for the margins, the default placement is centred
      horizontally: left and right gaps differ by less than two pixels. */
  lemma DefaultPlacementCentred(vw: real, vh: real)
    requires vw >= 200.0
    ensures var b := DefaultPlacement(map[], "", vw, vh);
      var right := vw - (b.x + b.width);
      0.0 <= right - b.x < 2.0 && right >= 0.0
  {}

  /** The auto-size effect: a mounted window takes its first-show placement; the memory is
      not written. */
  function AutoSize(f: Frame, id: string, vw: real, vh: real): (r: Frame)
    ensures r.memory == f.memory
    ensures id !in f.ui.windows ==> r == f
    ensures id in f.ui.windows ==>
      && id in r.ui.windows
      && r.ui.windows[id].Geometry() == DefaultPlacement(f.memory, f.ui.windows[id].appKey, vw, vh)
      && r.ui.windows[id].(x := 0.0, y := 0.0, width := 0.0, height := 0.0)
         == f.ui.windows[id].(x := 0.0, y := 0.0, width := 0.0, height := 0.0)
      && AgreeExcept(r.ui.windows, f.ui.windows, id)
      && r.ui.(windows := f.ui.windows) == f.ui
  {
    if id !in f.ui.windows then f
    else
      var w := f.ui.windows[id];
      var b := DefaultPlacement(f.memory, w.appKey, vw, vh);
      f.(ui := f.ui.(windows := f.ui.windows[id := w.(x := b.x, y := b.y, width := b.width, height := b.height)]))
  }

  /** The viewport-resize adjustment: shrink to at most 95% x 90% of the viewport, then
      pull the origin into the viewport. */
  function ClampToViewport(b: Bounds, vw: real, vh: real): (r: Bounds)
    ensures r.width <= b.width && r.width <= vw * 0.95
    ensures r.height <= b.height && r.height <= vh * 0.9
    ensures b.width <= vw * 0.95 ==> r.width == b.width
    ensures b.height <= vh * 0.9 ==> r.height == b.height
    ensures b.width > vw * 0.95 ==> r.width == vw * 0.95
    ensures b.height > vh * 0.9 ==> r.height == vh * 0.9
    ensures 0.0 <= b.x <= vw - r.width ==> r.x == b.x
    ensures b.x < 0.0 && r.width <= vw ==> r.x == 0.0
    ensures b.x > vw - r.width ==> r.x == vw - r.width
    ensures 0.0 <= b.y <= vh - r.height ==> r.y == b.y
    ensures b.y < 0.0 && r.height <= vh ==> r.y == 0.0
    ensures b.y > vh - r.height ==> r.y == vh - r.height
    ensures r.x <= Max(0.0, b.x)
    ensures r.y <= Max(0.0, b.y)
    ensures vw >= 0.0 ==> 0.0 <= r.x && r.x + r.width <= vw
    ensures vh >= 0.0 ==> 0.0 <= r.y && r.y + r.height <= vh
    ensures (&& 0.0 <= b.x && b.x + b.width <= vw && b.width <= vw * 0.95
             && 0.0 <= b.y && b.y + b.height <= vh && b.height <= vh * 0.9) ==> r == b
  {
    var w := Min(b.width, vw * 0.95);
    var h := Min(b.height, vh * 0.9);
    Bounds(Min(Max(0.0, b.x), vw - w), Min(Max(0.0, b.y), vh - h), w, h)
  }

  /** Clamping twice is clamping once. */
  lemma ClampIdempotent(b: Bounds, vw: real, vh: real)
    requires vw >= 0.0 && vh >= 0.0
    ensures ClampToViewport(ClampToViewport(b, vw, vh), vw, vh) == ClampToViewport(b, vw, vh)
  {}

  /** The viewport-resize handler: a live window is clamped and its app's memory records
      the clamped bounds; a missing window changes nothing. */
  function HandleViewportResize(f: Frame, id: string, vw: real, vh: real): (r: Frame)
    ensures id !in f.ui.windows ==> r == f
    ensures id in f.ui.windows ==>
      var w := f.ui.windows[id];
      && id in r.ui.windows
      && r.ui.windows[id].Geometry() == ClampToViewport(w.Geometry(), vw, vh)
      && r.ui.windows[id].(x := w.x, y := w.y, width := w.width, height := w.height) == w
      && AgreeExcept(r.ui.windows, f.ui.windows, id)
      && r.ui.(windows := f.ui.windows) == f.ui
      && w.appKey in r.memory && r.memory[w.appKey] == r.ui.windows[id].Geometry()
      && AgreeExcept(r.memory, f.memory, w.appKey)
  {
    if id !in f.ui.windows then f
    else
      var w := f.ui.windows[id];
      var c := ClampToViewport(w.Geometry(), vw, vh);
      Frame(f.ui.(windows := f.ui.windows[id := w.(x := c.x, y := c.y, width := c.width, height := c.height)]),
            f.memory[w.appKey := c])
  }

  /** A second viewport-resize event with the same viewport changes nothing. */
  lemma HandleViewportResizeIdempotent(f: Frame, id: string, vw: real, vh: real)
    requires vw >= 0.0 && vh >= 0.0
    ensures var once := HandleViewportResize(f, id, vw, vh);
      HandleViewportResize(once, id, vw, vh) == once
  {
    var once := HandleViewportResize(f, id, vw, vh);
    if id in f.ui.windows {
      var w := f.ui.windows[id];
      ClampIdempotent(w.Geometry(), vw, vh);
      var w' := once.ui.windows[id];
      assert w'.Geometry() == ClampToViewport(w'.Geometry(), vw, vh);
      assert once.ui.windows[id := w'] == once.ui.windows;
      assert once.memory[w.appKey := w'.Geometry()] == once.memory;
    }
  }

  /** The minimize button and Cmd-M: raise `minimizing` on the record, then run phase 1
      of `minimizeWindow`. */
  function RequestMinimize(s: UiState, id: string): (r: UiState)
    ensures r == MinimizeStart(s, id)
    ensures id in s.windows ==> r.windows[id].minimizing && r.windows[id].(minimizing := false) == s.windows[id].(minimizing := false)
  {
    if id !in s.windows then s
    else MinimizeStart(s.(windows := s.windows[id := s.windows[id].(minimizing := true)]), id)
  }

  /** The keyboard shortcut handler: only the active window reacts; Cmd-W closes it and
      Cmd-M starts minimizing it (keys compared lower-cased). */
  function Shortcut(s: UiState, id: string, metaKey: bool, key: string): (r: UiState)
    ensures !IsActive(s.focusStack, id) || !metaKey ==> r == s
    ensures IsActive(s.focusStack, id) && metaKey && Lower(key) == "w" ==> r == Close(s, id)
    ensures IsActive(s.focusStack, id) && metaKey && Lower(key) == "m" ==> r == MinimizeStart(s, id)
    ensures Lower(key) != "w" && Lower(key) != "m" ==> r == s
  {
    if !IsActive(s.focusStack, id) then s
    else
      var k := Lower(key);
      var afterW := if metaKey && k == "w" then Close(s, id) else s;
      if metaKey && k == "m" then RequestMinimize(afterW, id) else afterW
  }

  /** In a well-formed store Cmd-M on the active window always finds its record. */
  lemma ShortcutMinimizeHitsLiveWindow(s: UiState, id: string)
    requires WellFormed(s) && IsActive(s.focusStack, id)
    ensures Shortcut(s, id, true, "m").windows[id].minimizing
  {
    assert id in s.focusStack;
  }

  /** One keydown delivered to the shortcut listeners of the mounted windows, in the order
      they were registered. Each listener reads the live store, so a window that an earlier
      listener's Cmd-W brought to the top reacts to the same key press. Windows are only
      ever removed, and only those that have a listener. */
  function KeyDown(s: UiState, listeners: seq<string>, metaKey: bool, key: string): (r: UiState)
    ensures !metaKey ==> r == s
    ensures Lower(key) != "w" && Lower(key) != "m" ==> r == s
    ensures forall k :: k in r.windows ==> k in s.windows
    ensures forall k :: k in s.windows && k !in r.windows ==> k in listeners
    decreases |listeners|
  {
    if listeners == [] then s
    else KeyDown(Shortcut(s, listeners[0], metaKey, key), listeners[1..], metaKey, key)
  }

  /** Cmd-W with window `a` active and `b` just under it. When `a`'s listener was
      registered before `b`'s, `b`'s listener then finds `b` on top and closes it as
      well; in the other order `b`'s listener has already passed and only `a` closes. */
  lemma CmdWCascade(s: UiState, a: string, b: string)
    requires WellFormed(s) && |s.focusStack| >= 2
    requires a == s.focusStack[|s.focusStack| - 1] && b == s.focusStack[|s.focusStack| - 2]
    ensures a != b
    ensures KeyDown(s, [a, b], true, "w") == Close(Close(s, a), b)
    ensures KeyDown(s, [b, a], true, "w") == Close(s, a)
  {
    var n := |s.focusStack|;
    assert a != b by { assert s.focusStack[n - 2] != s.focusStack[n - 1]; }
    CloseTopRevealsPrevious(s);
    var s1 := Close(s, a);
    assert s1.focusStack[|s1.focusStack| - 1] == b;
    assert Lower("w") == "w" by { assert LowerChar('w') == 'w'; }
    assert Shortcut(s, a, true, "w") == s1;
    assert Shortcut(s1, b, true, "w") == Close(s1, b);
    assert Shortcut(s, b, true, "w") == s;
    KeyDownPair(s, a, b);
    KeyDownPair(s, b, a);
  }

  /** Two listeners: the second one sees the store the first one left. */
  lemma KeyDownPair(s: UiState, x: string, y: string)
    ensures KeyDown(s, [x, y], true, "w") == Shortcut(Shortcut(s, x, true, "w"), y, true, "w")
  {
    assert [x, y][1..] == [y];
    var t := Shortcut(s, x, true, "w");
    assert KeyDown(t, [y], true, "w") == KeyDown(Shortcut(t, y, true, "w"), [], true, "w");
  }

  /** The exit animation finishing: a window that was minimizing becomes minimized. No
      dock entry is added here. */
  function AnimationComplete(s: UiState, id: string): (r: UiState)
    ensures id !in s.windows || !s.windows[id].minimizing ==> r == s
    ensures id in s.windows && s.windows[id].minimizing ==>
      && id in r.windows
      && r.windows[id] == s.windows[id].(minimizing := false, minimized := true)
      && AgreeExcept(r.windows, s.windows, id)
      && r.(windows := s.windows) == s
  {
    if id in s.windows && s.windows[id].minimizing then
      s.(windows := s.windows[id := s.windows[id].(minimizing := false, minimized := true)])
    else s
  }

  lemma AnimationCompletePreservesWellFormed(s: UiState, id: string)
    requires WellFormed(s)
    ensures WellFormed(AnimationComplete(s, id))
  {}

  /** A window can be minimized without a dock entry: after phase 1 and the animation,
      before the phase-2 timer, the window is minimized and not in the dock. */
  lemma MinimizedWithoutDockEntry()
    ensures var w := NewWindow("w", "finder", Bounds(0.0, 0.0, 10.0, 10.0), None);
      var s := AnimationComplete(RequestMinimize(Open(Initial, w), "w"), "w");
      && WellFormed(s) && s.windows["w"].minimized && s.dock == []
  {
    var w := NewWindow("w", "finder", Bounds(0.0, 0.0, 10.0, 10.0), None);
    OpenPreservesWellFormed(Initial, w);
    var s0 := Open(Initial, w);
    assert s0.dock == [];
    MinimizeStartPreservesWellFormed(s0, "w");
  }

  /** Live dragging and drag stop: only the origin moves. */
  function DragTo(s: UiState, id: string, x: real, y: real): (r: UiState)
    ensures id !in s.windows ==> r == s
    ensures id in s.windows ==>
      && id in r.windows && r.windows[id].Geometry() == Bounds(x, y, s.windows[id].width, s.windows[id].height)
      && r.windows[id].(x := 0.0, y := 0.0) == s.windows[id].(x := 0.0, y := 0.0)
      && AgreeExcept(r.windows, s.windows, id)
      && r.(windows := s.windows) == s
  {
    Move(s, id, x, y)
  }

  /** Live resizing: the parsed CSS size and the handle's position are written together. */
  function ResizeLive(s: UiState, id: string, b: Bounds): (r: UiState)
    ensures id !in s.windows ==> r == s
    ensures id in s.windows ==>
      && id in r.windows && r.windows[id].Geometry() == b
      && r.windows[id].(x := 0.0, y := 0.0, width := 0.0, height := 0.0)
         == s.windows[id].(x := 0.0, y := 0.0, width := 0.0, height := 0.0)
      && AgreeExcept(r.windows, s.windows, id)
      && r.(windows := s.windows) == s
  {
    if id !in s.windows then s
    else s.(windows := s.windows[id := s.windows[id].(x := b.x, y := b.y, width := b.width, height := b.height)])
  }

  /** Resize stop commits only the origin through `moveWindow`; the size already stored by
      the live updates is kept. */
  function ResizeStop(s: UiState, id: string, b: Bounds): (r: UiState)
    ensures id in s.windows ==>
      && id in r.windows
      && r.windows[id].x == b.x && r.windows[id].y == b.y
      && r.windows[id].width == s.windows[id].width && r.windows[id].height == s.windows[id].height
    ensures id !in s.windows ==> r == s
  {
    Move(s, id, b.x, b.y)
  }

  /** A resize gesture (live update then stop at the same bounds) leaves the window at exactly those bounds. */
  lemma ResizeGestureCommitsBounds(s: UiState, id: string, b: Bounds)
    requires id in s.windows
    ensures ResizeStop(ResizeLive(s, id, b), id, b) == ResizeLive(s, id, b)
  {
    var r := ResizeLive(s, id, b);
    assert r.windows[id := r.windows[id].(x := b.x, y := b.y)] == r.windows;
  }
}

=== FILE: wrappers.dfy ===
/** Optional values: the model's stand-in for JavaScript's `undefined` / `null`. */
module Wrappers {

  datatype Option<+T> = None | Some(value: T) {

    /** The value, or `default` when absent (JavaScript's `??`). */
    function GetOr(default: T): T {
      match this
      case Some(v) => v
      case None => default
    }
  }
}
